=== FILE: README.md ===
# KEGG reaction metadata and eggNOG annotation grouping, in Dafny

This project models the pure core of two scripts of the docker-eggnog-mapper
repository.

`get_kegg_reaction_metadata.py` reads the table that eggNOG-mapper writes. It
collects the KEGG orthologs (KOs) of every query, then crawls the KEGG REST
service stage by stage: orthologs, reactions, pathways, modules, reactions
named by pathways and modules, and finally compounds and glycans. Each stage
stores its records in a SQLite database and fetches only what the database
lacks.

The model covers these parts of that script:

- the flat-file record parser;
- the reaction-equation parser (direction and compound terms);
- the helpers `chunks` and `sql_safe_string`;
- the link-ID extraction from record fields;
- the KO-table reader;
- the database as maps keyed by each table's unique key (`INSERT OR REPLACE` is a map update);
- the whole staged crawl, over an abstract `response(database, id)` that gives the text of a KEGG response, parsed into a record as `fetch_kegg_api` does.

From `make_eggnog_abundance_dataframe.py` it models `read_eggnog_annot`, with
the line filter of `parse_gzipped_tsv`. That function groups genes by their
eggNOG, KO or GO annotation.

The modules follow the program, one per file:

- `Text` (Python's `split`, `strip`, `join`)
- `SqlSafe`
- `Chunking`
- `FlatRecord`
- `Links`
- `Equation`
- `KoTable`
- `Store`
- `CrawlStages` (one function per fetch loop)
- `Crawl` (the needed sets and the stage order)
- `CrawlProperties` (whole-run theorems)
- `EggnogAnnot`
- `Wrappers` (`Option` and `Result`)

Every place where the source raises an exception is a `Failure` of a
`Result`, and the whole run stops there. Examples are an equation that
cannot be unpacked, a chunk size of zero and an empty compound ID. There is
one exception. The first reaction pass crashes on a reaction without an
EQUATION, but the model skips that reaction, as the second pass does (see
"## Findings").

The run is deterministic apart from the order in which Python lists a set.
The model fixes one arbitrary order (`Crawl.Enumerate`). None of the stated
properties depends on which order it is.

## Model

| member | source | states |
|---|---|---|
| Chunking.Chunks | get_kegg_reaction_metadata.py:28-30 | For a positive size, the chunks concatenate back to the list. Every chunk is non-empty and at most the size, and every chunk but the last has exactly the size. A zero size is an error and a negative size yields no chunk. |
| Chunking.Partition | get_kegg_reaction_metadata.py:28-30 | For a positive size: the chunks concatenate to the input, every chunk has between 1 and n elements, and all but the last have exactly n. |
| SqlSafe.SqlSafeKeepsTheRest | get_kegg_reaction_metadata.py:33-36 | The chain of `replace` calls equals a filter that drops exactly the seven unsafe characters and keeps every other character in order. |
| SqlSafe.SqlSafeStringSpec | get_kegg_reaction_metadata.py:33-36 | The output contains none of `[ ] : ; , ' "`. A string is left unchanged exactly when it contains none of them. |
| SqlSafe.SqlSafeIdempotent | get_kegg_reaction_metadata.py:33-36 | Sanitising twice gives the same result as sanitising once. |
| FlatRecord.LabelOfSpec | get_kegg_reaction_metadata.py:59-60 | A line sets a label exactly when its first twelve columns hold a non-space character. The label is those columns stripped of spaces, and it is non-empty. |
| FlatRecord.CarrySets | get_kegg_reaction_metadata.py:57-60 | A line that sets a label is filed under that label. |
| FlatRecord.CarryKeeps | get_kegg_reaction_metadata.py:57-60 | A line that sets no label is filed under the previous line's label, or under the initial one (`None`) if it is the first line. |
| FlatRecord.ParseRecordSpec | get_kegg_reaction_metadata.py:55-63 | The keys of the record are exactly the labels in force on some line. Each key holds the `line[12:]` values of its lines, in line order. |
| FlatRecord.ParseRecord | get_kegg_reaction_metadata.py:62-63 | Every key holds at least one value, because a key is only created by appending to it. |
| FlatRecord.ParseRecordCount | get_kegg_reaction_metadata.py:58-63 | Every line appends exactly one value, so the record holds as many values as the text has lines. |
| Links.RnLinks | get_kegg_reaction_metadata.py:247-251 | An ortholog gets reaction links exactly when some DBLINKS line starts with `RN: `. The IDs come from its last such line and contain no space. |
| Links.RnLinksRoundTrip | get_kegg_reaction_metadata.py:247-251 | An `RN: ` line written as IDs joined by single spaces reads back as exactly that set of IDs, whatever lines come before it, as long as no later line starts with `RN: ` (the last such line wins). |
| Links.PathwayId | get_kegg_reaction_metadata.py:391 | The pathway ID is the prefix of the PATHWAY line up to its first space. |
| Links.PathwayIdRoundTrip | get_kegg_reaction_metadata.py:391 | An ID without spaces, followed by a space and a name, gives back the ID. |
| Links.ReactionIds | get_kegg_reaction_metadata.py:456 | The IDs, joined back with commas, are the first space-delimited token of the REACTION line. No ID contains a space or a comma. |
| Links.ReactionIdsRoundTrip | get_kegg_reaction_metadata.py:455-456 | A REACTION line that starts with comma-joined IDs and then a space gives back exactly those IDs, in order. |
| Links.LeadingId | get_kegg_reaction_metadata.py:466 | The ID of a COMPOUND or MODULE line has no space and no surrounding whitespace. |
| Links.LeadingIdRoundTrip | get_kegg_reaction_metadata.py:466 | A space-free ID with no whitespace at either end, followed by a space and a name, reads back as that ID. |
| Equation.Classify | get_kegg_reaction_metadata.py:328-335 | Both directions of each case: `<` before and `>` after the `=` is reversible (2), `<` alone is backward (1), `>` alone is forward (0), and neither is unknown (-1). |
| Equation.ParseTerm | get_kegg_reaction_metadata.py:281 | A matched term names a `(C\|G)digits` ID. A term without a match is an error naming the term. |
| Equation.SearchFromSpec | get_kegg_reaction_metadata.py:281 | `search` returns the match at the leftmost position where the pattern matches, and returns no match exactly when no position matches. |
| Equation.Collect | get_kegg_reaction_metadata.py:341-342 | The terms of a side succeed exactly when every term matches. The values are then the matches in order; otherwise the error is that of some failing term. |
| Equation.ParseEquation | get_kegg_reaction_metadata.py:326-342 | An equation with other than one `=` is the unpacking error with the count of `=`. A parsed equation names only well-formed compound IDs on both sides. The other failures and the parsed value are stated by `Equation.ParseEquationSides`. |
| Equation.ParseSideSpec | get_kegg_reaction_metadata.py:341-342 | A side parses exactly when every ` + ` piece, stripped, has a pattern match. The terms are then those matches in piece order. Otherwise the error names a piece with no match, where the source's `m.group` on `None` raises inside the `try` at :346-387. |
| Equation.ParseEquationSides | get_kegg_reaction_metadata.py:326-387 | For any equation with one `=`: an empty side is an error (`e_L[-1]` or `e_R[0]` raises). Otherwise the equation parses exactly when both sides, without the character next to the `=`, parse. The direction then comes from those two characters, as `Classify` states. A failure names a term of one side that has no match. |
| Equation.ExampleEmptySide | get_kegg_reaction_metadata.py:326-329 | `=> C00001` has nothing before the `=` and is the empty-side error. |
| Equation.ExampleNoCompound | get_kegg_reaction_metadata.py:341-387 | `C00001 <=> X` fails on its product, and the error names the term ` X`. |
| Equation.ParseRender | get_kegg_reaction_metadata.py:326-382 | Round trip: an equation rendered in KEGG's form parses back to its direction and to its terms, coefficients and order included. |
| Equation.ExampleForward | get_kegg_reaction_metadata.py:326-382 | `2 C00001 => C00004` parses as forward, with stoichiometry 2 on the left and 1 on the right. |
| Equation.ExampleReversible | get_kegg_reaction_metadata.py:326-382 | `C00001 + C00002 <=> C00003` parses as reversible, with two terms on the left and one on the right, each with stoichiometry 1. |
| KoTable.OpenTsv | get_kegg_reaction_metadata.py:39-47 | The rows are exactly the lines after the skipped ones, each with its newline removed and split on tabs. |
| KoTable.Entry | get_kegg_reaction_metadata.py:177 | `dict(zip(header, row))`: the keys are the header names, and each maps to the cell of the last column with that name. |
| KoTable.KosOfJoin | get_kegg_reaction_metadata.py:182 | Stripped, comma-free IDs joined with commas read back as exactly that set. |
| KoTable.KosOfPieces | get_kegg_reaction_metadata.py:182 | When the comma pieces of a cell are non-empty and already stripped, the IDs read are exactly those pieces. |
| KoTable.ReadKoTable | get_kegg_reaction_metadata.py:168-184 | A file with no line after the three skipped ones has no header. A missing column is reported only when the header lacks it and some row is wide enough to reach the assertions. A header with both columns always succeeds. |
| KoTable.ReadKoTableKos | get_kegg_reaction_metadata.py:168-183 | After a successful read, an ID is in the table exactly when some data row after the header is at least as wide as the header and lists it in its `KEGG_KOs` column. |
| KoTable.ReadKoTableQueries | get_kegg_reaction_metadata.py:168-184 | After a successful read, a query holds an ID exactly when one of its own data rows, at least as wide as the header, lists it. |
| KoTable.TallyKos | get_kegg_reaction_metadata.py:174-183 | An ID is collected exactly when some row at least as wide as the header lists it. |
| KoTable.TallyQueryKos | get_kegg_reaction_metadata.py:174-184 | A query's IDs are exactly those listed by its own wide rows, unioned over all of them. |
| KoTable.KosAreQueryKos | get_kegg_reaction_metadata.py:183-184 | The overall set of IDs is the union of the per-query sets. |
| KoTable.TallyKosClean | get_kegg_reaction_metadata.py:182 | Every collected ID is non-empty and stripped: empty pieces are discarded. |
| KoTable.QueryOrthologs | get_kegg_reaction_metadata.py:187-197 | The `query_ortholog` rows are every (query, ID) pair of the per-query map. |
| Store.UpsertSpec | get_kegg_reaction_metadata.py:75-161 | `INSERT OR REPLACE` batches give one row per key. A key the batch writes holds the value of its last row, and every other key keeps its value. |
| Store.UpsertKeys | get_kegg_reaction_metadata.py:75-161 | The keys after a batch are the old keys plus the keys the batch writes. |
| Store.ParticipantRows | get_kegg_reaction_metadata.py:352-382 | The `reaction_compound` rows are the left terms tagged L, then the right terms tagged R, with the terms' stoichiometries. |
| Store.BothSidesKeepsRight | get_kegg_reaction_metadata.py:95-98 | The key of `reaction_compound` has no side, so a compound on both sides ends with only its R row, holding its last right-hand stoichiometry. |
| Store.SetDirection | get_kegg_reaction_metadata.py:336-339 | The update changes only the direction of an existing reaction row. It adds no row and touches no other row. |
| EggnogAnnot.ParseField | make_eggnog_abundance_dataframe.py:220 | Only `eggNOG`, `KO` and `GO` are accepted; any other name is an error. |
| EggnogAnnot.DataLines | make_eggnog_abundance_dataframe.py:104-107 | Exactly the non-empty lines not starting with `#` are kept. |
| EggnogAnnot.DataLinesAppend | make_eggnog_abundance_dataframe.py:104-107 | Filtering two pieces of a file one after the other gives the filter of the whole file: the kept lines stay in file order. |
| EggnogAnnot.DataLinesOne | make_eggnog_abundance_dataframe.py:104-107 | A single line is kept exactly when it is a data line, and then it is kept unchanged. |
| EggnogAnnot.GroupFails | make_eggnog_abundance_dataframe.py:237-243 | Grouping fails exactly when some line is too short for the chosen column (6 for KO, 5 for GO, 1 for eggNOG), and then it fails on the first such line. |
| EggnogAnnot.GroupSpec | make_eggnog_abundance_dataframe.py:226-248 | A gene is filed under an annotation exactly when some line names the gene in column 0 and lists that non-empty annotation in the chosen column. |
| EggnogAnnot.GroupKeys | make_eggnog_abundance_dataframe.py:246-248 | No empty annotation becomes a key, and every key has at least one gene. |
| EggnogAnnot.ReadEggnogAnnotSpec | make_eggnog_abundance_dataframe.py:218-250 | Over the whole file, a gene is filed under an annotation exactly when some data line says so. Comment and empty lines contribute nothing. |
| EggnogAnnot.GroupTwice | make_eggnog_abundance_dataframe.py:223-248 | Reading the same lines twice files exactly what reading them once does. |
| EggnogAnnot.GroupGrows | make_eggnog_abundance_dataframe.py:223-248 | Reading more lines never removes a gene from an annotation. |
| CrawlStages.Parsed | get_kegg_reaction_metadata.py:52-65 | Each response text, parsed as a flat record, is what the stages read for that database and ID. |
| CrawlStages.OrthologStage | get_kegg_reaction_metadata.py:216-269 | The ortholog stage requests each ID of the chunks once, in chunk order, from `ko`. It changes no table but the ortholog and ortholog-reaction tables. |
| CrawlStages.OrthologStageKeys | get_kegg_reaction_metadata.py:216-242 | The ortholog stage adds exactly the sanitised requested IDs as keys. |
| CrawlStages.OrthologStageLinks | get_kegg_reaction_metadata.py:246-267 | The ortholog stage keeps every ortholog-reaction link, and every link it adds holds a sanitised reaction ID. |
| CrawlStages.EquationAsWritten | get_kegg_reaction_metadata.py:319-324 | The first reaction pass, as written, fails exactly on a reaction record without an EQUATION. |
| CrawlStages.EquationOf | get_kegg_reaction_metadata.py:599-605 | A reaction without an EQUATION has no equation to parse, and is skipped. Otherwise the equation is the first EQUATION line. |
| CrawlStages.MissingEquationSkipped | get_kegg_reaction_metadata.py:318-324 | For a reaction record with only an ENTRY, the as-written pass fails, while the corrected loop changes nothing. |
| CrawlStages.EquationLoop | get_kegg_reaction_metadata.py:318-409 | The equation loop keeps the reaction keys and only adds `reaction_compound` rows, whose compound keys are `(C\|G)digits` IDs. Only the first pass adds pathway links, and their two columns are sanitised. It succeeds exactly when every reaction from its position on has no EQUATION or a parsable one; a failure is a bad-equation error naming one of those reactions. |
| CrawlStages.AllParseFromSpec | get_kegg_reaction_metadata.py:317-342 | The loop's success condition holds exactly when every record from the position on has no EQUATION or one whose first line parses. |
| CrawlStages.ReactionStep | get_kegg_reaction_metadata.py:326-409 | One reaction of the loop keeps the reaction keys and only adds `reaction_compound` rows, whose compound keys are `(C\|G)digits` IDs. Only the first pass adds pathway links. |
| CrawlStages.ReactionChunk | get_kegg_reaction_metadata.py:297-409 | One chunk stores exactly the chunk's sanitised reaction IDs and succeeds exactly when each of its records gets through the equation loop; a failure names a reaction of the chunk. |
| CrawlStages.ReactionStage | get_kegg_reaction_metadata.py:284-409 | A reaction stage requests each ID once and stores exactly their sanitised IDs. It touches only the reaction, `reaction_compound` and pathway-reaction tables, and the second pass adds no pathway link. It succeeds exactly when every chunk's records get through the equation loop; a failure names a reaction it fetched. |
| CrawlStages.ChunkParses | get_kegg_reaction_metadata.py:289-319 | The records fetched for a chunk all get through the equation loop exactly when every reaction ID of the chunk, fetched from `rn`, does. |
| CrawlStages.AllChunksParseSpec | get_kegg_reaction_metadata.py:284-319 | All chunks get through the equation loop exactly when every reaction ID they hold does. |
| CrawlStages.ReactionStageSucceeds | get_kegg_reaction_metadata.py:284-342 | A reaction stage fails exactly when one of the reactions it fetches has an EQUATION that does not parse. |
| CrawlStages.PathwayStage | get_kegg_reaction_metadata.py:418-488 | The pathway stage requests each ID of the chunks once, in chunk order, from `path`. It changes no table but the pathway, pathway-reaction, pathway-compound and module-pathway tables. |
| CrawlStages.PathwayStageKeys | get_kegg_reaction_metadata.py:418-443 | The pathway stage adds exactly the sanitised requested IDs as keys. |
| CrawlStages.PathwayStageLinks | get_kegg_reaction_metadata.py:444-486 | The pathway stage keeps every pathway-reaction and module-pathway link. Every pathway-reaction link it adds starts at a stored pathway, and every link it adds is sanitised. |
| CrawlStages.ModuleStage | get_kegg_reaction_metadata.py:497-551 | The module stage requests each ID of the chunks once, in chunk order, from `md`. It changes no table but the module tables. |
| CrawlStages.ModuleStageKeys | get_kegg_reaction_metadata.py:497-521 | The module stage adds exactly the sanitised requested IDs as keys. |
| CrawlStages.ModuleStageLinks | get_kegg_reaction_metadata.py:522-550 | The module stage keeps every module-reaction link, and every link it adds holds a sanitised reaction ID. |
| CrawlStages.CompoundStage | get_kegg_reaction_metadata.py:681-739 | A compound or glycan stage stores exactly the requested IDs, as they are, and touches only the compound tables. |
| Crawl.ChunkIds | get_kegg_reaction_metadata.py:216 | Chunking the needed list fails exactly when the chunk size is zero. Otherwise the chunks hold the list, or nothing for a negative size. |
| Crawl.OrthologsNeeded | get_kegg_reaction_metadata.py:200-206 | The needed orthologs are exactly the table's IDs not yet stored. |
| Crawl.ReactionsNeeded | get_kegg_reaction_metadata.py:272-276 | The needed reactions are exactly those the ortholog stage found or some ortholog links to, and not yet stored. |
| Crawl.PathwaysNeeded | get_kegg_reaction_metadata.py:412-416 | The needed pathways are exactly those the reaction stage found or some pathway-reaction link names, and not yet stored. |
| Crawl.ModulesNeeded | get_kegg_reaction_metadata.py:491-495 | The needed modules are exactly those named by module-pathway links and not yet stored. |
| Crawl.MoreReactionsNeeded | get_kegg_reaction_metadata.py:555-561 | The second-pass reactions are exactly those a module or pathway links to and not yet stored. |
| Crawl.CompoundsNeeded | get_kegg_reaction_metadata.py:671-675 | The needed compounds are exactly those some `reaction_compound` row names and not yet stored. |
| Crawl.WithPrefix | get_kegg_reaction_metadata.py:676-678 | The C and G lists hold exactly the needed IDs with that first character. |
| Crawl.FetchOrthologs | get_kegg_reaction_metadata.py:200-269 | Fails exactly for a zero chunk size and requests only orthologs the database lacked. With a positive size it stores every ortholog of a safe table, and it keeps the database clean. |
| Crawl.OrthologsCovered | get_kegg_reaction_metadata.py:200-242 | With a positive chunk size and safe IDs, every ortholog of the table is stored after the ortholog stage. |
| Crawl.FirstReactions | get_kegg_reaction_metadata.py:272-409 | Requests only missing reactions. With a positive size, every reaction an ortholog links to is stored afterwards. |
| Crawl.FirstReactionsSucceeds | get_kegg_reaction_metadata.py:272-342 | The first reaction stage, with the corrected skip of a reaction without an EQUATION, fails exactly when the chunk size is zero or, for a positive size, some needed reaction has an EQUATION that does not parse. Any other failure names a needed reaction, and the stage adds no empty compound ID. |
| Crawl.FirstReactionsCovered | get_kegg_reaction_metadata.py:272-314 | With a positive chunk size over a clean database, every reaction an ortholog links to is stored after the first reaction stage. |
| Crawl.FetchPathways | get_kegg_reaction_metadata.py:412-488 | Requests only missing pathways. With a positive size, every pathway-reaction link starts at a stored pathway afterwards. |
| Crawl.PathwaysCovered | get_kegg_reaction_metadata.py:412-443 | With a positive chunk size over a clean database, every pathway-reaction link starts at a stored pathway after the pathway stage. |
| Crawl.FetchModules | get_kegg_reaction_metadata.py:491-551 | Requests only missing modules. With a positive size, every module a pathway lists is stored afterwards. |
| Crawl.ModulesCovered | get_kegg_reaction_metadata.py:491-521 | With a positive chunk size over a clean database, every module a module-pathway link names is stored after the module stage. |
| Crawl.MoreReactions | get_kegg_reaction_metadata.py:555-668 | Requests only missing reactions. With a positive size, every reaction a module or pathway lists is stored afterwards. |
| Crawl.MoreReactionsSucceeds | get_kegg_reaction_metadata.py:555-614 | The second reaction stage fails exactly when the chunk size is zero or, for a positive size, some reaction a module or pathway lists and the database lacks has an EQUATION that does not parse. Any other failure names such a reaction, and the stage adds no empty compound ID. |
| Crawl.MoreReactionsCovered | get_kegg_reaction_metadata.py:555-594 | With a positive chunk size over a clean database, every reaction a module or pathway links to is stored after the second reaction stage. |
| Crawl.FetchCompounds | get_kegg_reaction_metadata.py:671-739 | Fails exactly for a zero chunk size or an empty needed compound ID (`c[0]`). Requests only missing C IDs from `cpd` and G IDs from `gl`. Afterwards every listed C or G compound is stored. |
| Crawl.Run | get_kegg_reaction_metadata.py:68-739 | A zero chunk size stops the run with the `range` error before anything is fetched. |
| Crawl.RunSucceeds | get_kegg_reaction_metadata.py:165-739 | Under the corrected first pass, with a positive chunk size, a starting database without empty compound IDs and KEGG answers whose equations all parse, the run does not fail. |
| Crawl.RunErrors | get_kegg_reaction_metadata.py:165-739 | Under the corrected first pass, a run stops only on a zero chunk size, an unparsable equation or an empty compound ID. |
| Crawl.GetKeggReactionMetadata | get_kegg_reaction_metadata.py:165-739 | A table that cannot be read stops the script with that error. Otherwise the script runs the stages over the parsed KEGG responses. |
| CrawlProperties.RunSaturates | get_kegg_reaction_metadata.py:165-739 | From a clean database, with a positive chunk size and IDs the sanitiser leaves alone, a successful run leaves every query link, ortholog, linked reaction, pathway, module and listed C/G compound stored. |
| CrawlProperties.RunAsksOnlyForMissing | get_kegg_reaction_metadata.py:206-678 | A run never requests a record the starting database already held, and never requests a compound ID without a C or G prefix. |
| CrawlProperties.RerunIsIdle | get_kegg_reaction_metadata.py:206-678 | Over a database with nothing left to fetch, a run requests nothing and changes nothing. |
| CrawlProperties.NothingToCompound | get_kegg_reaction_metadata.py:671-739 | With every listed C or G compound stored, the compound stages request nothing and change nothing. |
| CrawlProperties.SecondRunIdle | get_kegg_reaction_metadata.py:165-739 | After a successful run from a clean database, a second run requests nothing and leaves the database as it was, whatever KEGG now answers. |

## Left out

- The HTTP request to KEGG (get_kegg_reaction_metadata.py:53) is the parameter `response`, which gives the response text for a database and an ID. The stages read those texts parsed by `FlatRecord.ParseRecord` (`CrawlStages.Parsed`). Network errors and non-200 answers are not modelled.
- The process pool (`Pool.map`) is modelled as a sequential map over a chunk in order, which returns the same list.
- SQLite is not modelled: connections, table creation, commits, and `SELECT` ordering. The tables are maps or sets keyed by their unique index. Partial progress committed before a crash is not modelled: a failing run is just a `Failure`.
- Logging, argparse and the `__main__` blocks of both scripts are not modelled, nor gzip and file I/O. The inputs are sequences of lines.
- run_eggnog_mapper.py is not part of this model.
- The rest of make_eggnog_abundance_dataframe.py is not part of this model: the abundance tables, proportions (floating point), and S3 and gzip access.
- The order of `list(set)` is not modelled: the ghost `Crawl.Enumerate` fixes an arbitrary order. The crawl functions are therefore ghost.
- The `compound_ids` set the first reaction pass fills (get_kegg_reaction_metadata.py:283, 388) is not modelled, because nothing reads it. The second reaction stage runs with `linkPathways := false`, and `Crawl.Run` discards the `found` set it returns.
- Indexing a `defaultdict` with an absent field (`rxn['PATHWAY']`, `path_data['REACTION']`) adds an empty entry to the record. This is not modelled, because nothing reads it back.
- Equation.ParseTerm: `\d` and `\s` are taken over ASCII digits and Python's whitespace set. Python's non-ASCII decimal digits are not matched. Stoichiometry is an unbounded `nat`, not SQLite's 64-bit integer.
- CrawlProperties.RunSaturates: this requires a clean starting database and table IDs the sanitiser leaves unchanged. The needed sets compare raw IDs (from the table and from DBLINKS) with stored sanitised keys, so an unsafe ID is requested on every run, and the theorem does not hold for such IDs.
- Crawl.FirstReactions: this stage runs the corrected first pass, which skips a reaction without an EQUATION, as do `Crawl.Run`, `Crawl.FirstReactionsSucceeds`, `Crawl.RunSucceeds` and `Crawl.RunErrors`. The source as written stops the whole run on such a reaction (lines 319-324). `CrawlStages.EquationAsWritten` models that behaviour, and the row under "## Findings" records it.
- Crawl.RunSucceeds: this states only one direction. Whether a run fails on a bad equation depends on which reactions the earlier stages find, so the exact failure condition is stated stage by stage (`Crawl.FirstReactionsSucceeds`, `Crawl.MoreReactionsSucceeds`, `Crawl.FetchCompounds`) rather than for the whole run.
- EggnogAnnot.ReadEggnogAnnot: the lines are taken as given. The S3 path of `parse_gzipped_tsv` splits the text on `\n` (make_eggnog_abundance_dataframe.py:97), so its lines have no newline, and the stated properties read most naturally for that case. The local path uses `readlines()` (line 101), which keeps each line's `\n`. There a blank line is `"\n"`: it passes the empty-line test at line 105, is kept as a data line, and then fails the column lookup (`EggnogAnnot.GroupFails`, lines 226-248), and the last column of every line keeps its `\n`. The model gives the same results when handed such lines, but does not split a file into lines itself.

## Findings

| source | as written | input that shows it | evidently intended | confidence | as-written member | corrected member |
|---|---|---|---|---|---|---|
| get_kegg_reaction_metadata.py:319-324 | The first reaction pass logs a reaction without an EQUATION and then indexes `rrd['EQUATION'][0]` anyway. On the `defaultdict` this raises an IndexError and stops the whole run. | A reaction record whose text has an ENTRY line and no EQUATION line, e.g. the record `map[Some("ENTRY") := ["R00001"]]` | Skip the reaction, as the second pass does with `continue` at lines 599-603 (the comment "implicit else" says so) | not executed | CrawlStages.EquationAsWritten (shown by CrawlStages.MissingEquationSkipped) | CrawlStages.EquationOf (used by CrawlStages.EquationLoop) |

=== FILE: chunking.dfy ===
/** `chunks(l, n)` (get_kegg_reaction_metadata.py): the generator that cuts the
    list of needed IDs into batches of `chunk_size`. */
module Chunking {
  import opened Wrappers

  /** Concatenation of a list of lists. */
  function Flatten<T>(cs: seq<seq<T>>): seq<T>
  {
    if |cs| == 0 then [] else cs[0] + Flatten(cs[1..])
  }

  /** The slices `l[i:i + n]` for `i` in `range(0, len(l), n)`, for a positive `n`. */
  function Partition<T>(l: seq<T>, n: nat): (r: seq<seq<T>>)
    requires n > 0
    ensures Flatten(r) == l
    ensures forall k :: 0 <= k < |r| ==> 0 < |r[k]| <= n
    ensures forall k :: 0 <= k < |r| - 1 ==> |r[k]| == n
    decreases |l|
  {
    if |l| == 0 then []
    else if |l| <= n then [l]
    else
      var rest := Partition(l[n..], n);
      assert ([l[..n]] + rest)[1..] == rest;
      assert l == l[..n] + l[n..];
      [l[..n]] + rest
  }

  /** `chunks(l, n)` for any integer `n`: `range` with step 0 raises, which the
      model reports as `None`; a negative step gives an empty range, so no chunk. */
  function Chunks<T>(l: seq<T>, n: int): (r: Option<seq<seq<T>>>)
    ensures r.None? <==> n == 0
    ensures n < 0 ==> r == Some([])
    ensures r.Some? ==> Flatten(r.value) == (if n > 0 then l else [])
    ensures r.Some? ==> forall k :: 0 <= k < |r.value| ==> 0 < |r.value[k]| <= n
    ensures r.Some? ==> forall k :: 0 <= k < |r.value| - 1 ==> |r.value[k]| == n
  {
    if n == 0 then None
    else if n < 0 then Some([])
    else Some(Partition(l, n))
  }

  lemma {:induction false} FlattenAppend<T>(a: seq<seq<T>>, b: seq<seq<T>>)
    ensures Flatten(a + b) == Flatten(a) + Flatten(b)
    decreases |a|
  {
    if |a| == 0 {
      assert a + b == b;
    } else {
      assert (a + b)[1..] == a[1..] + b;
      FlattenAppend(a[1..], b);
    }
  }

  /** An element of the concatenation is an element of one of the chunks. */
  lemma {:induction false} FlattenHas<T>(cs: seq<seq<T>>, x: T)
    ensures x in Flatten(cs) <==> exists k :: 0 <= k < |cs| && x in cs[k]
    decreases |cs|
  {
    if |cs| > 0 {
      FlattenHas(cs[1..], x);
      assert forall k :: 0 < k < |cs| ==> cs[k] == cs[1..][k - 1];
      if exists k :: 0 <= k < |cs[1..]| && x in cs[1..][k] {
        var k :| 0 <= k < |cs[1..]| && x in cs[1..][k];
        assert x in cs[k + 1];
      }
    }
  }
}

=== FILE: crawl.dfy ===
/** The whole of `get_kegg_reaction_metadata` (get_kegg_reaction_metadata.py)
    after the input table is read: each stage works out the IDs it needs from
    what the database holds, fetches only those, and the stages run in a fixed
    order: orthologs, reactions, pathways, modules, reactions again, and
    compounds and glycans. */
module Crawl {
  import opened Wrappers
  import opened SqlSafe
  import opened Store
  import opened CrawlStages
  import Chunking
  import KoTable

  /** The elements of a set as a list. The source turns every needed set into
      a list whose order Python leaves unspecified; this fixes one order, and
      nothing below depends on which. */
  ghost function Enumerate(s: set<string>): (r: seq<string>)
    ensures |r| == |s|
    ensures forall x :: x in r <==> x in s
    decreases |s|
  {
    if s == {} then []
    else
      var x :| x in s;
      [x] + Enumerate(s - {x})
  }

  /** `chunks(ids, chunk_size)` as the stage loops use it: `range` refuses a
      zero step, and a negative step yields no chunk at all. */
  function ChunkIds(ids: seq<string>, chunkSize: int): (r: Result<seq<seq<string>>, CrawlError>)
    ensures r.Failure? <==> chunkSize == 0
    ensures r.Failure? ==> r.error == ZeroChunkSize
    ensures r.Success? ==> Chunking.Flatten(r.value) == (if chunkSize > 0 then ids else [])
    ensures r.Success? && ids == [] ==> r.value == []
  {
    match Chunking.Chunks(ids, chunkSize)
    case None => Failure(ZeroChunkSize)
    case Some(cs) => Success(cs)
  }

  // ---------------------------------------------------------------------------
  // What each stage needs

  /** `kegg_ids - existing_orthologs`. */
  function OrthologsNeeded(kos: set<string>, db: Db): (r: set<string>)
    ensures forall x :: x in r <==> x in kos && x !in db.orthologs
  {
    kos - db.orthologs.Keys
  }

  /** `reaction_ids.union(linked_reactions) - existing_reaction_ids`: the
      reactions the ortholog stage found and every reaction an ortholog links
      to, less those stored. */
  function ReactionsNeeded(found: set<string>, db: Db): (r: set<string>)
    ensures forall x :: x in r <==> (x in found || exists o :: (o, x) in db.orthologReactions) && x !in db.reactions
  {
    (found + Seconds(db.orthologReactions)) - db.reactions.Keys
  }

  /** `pathways.union(pathway_links) - existing_pathways`. */
  function PathwaysNeeded(found: set<string>, db: Db): (r: set<string>)
    ensures forall x :: x in r <==> (x in found || exists y :: (x, y) in db.pathwayReactions) && x !in db.pathways
  {
    (found + Firsts(db.pathwayReactions)) - db.pathways.Keys
  }

  /** `module_links - existing_modules`. */
  function ModulesNeeded(db: Db): (r: set<string>)
    ensures forall x :: x in r <==> (exists p :: (p, x) in db.modulePathways) && x !in db.modules
  {
    Seconds(db.modulePathways) - db.modules.Keys
  }

  /** `rxn_link_mod.union(rxn_link_path) - existing_rxn`. */
  function MoreReactionsNeeded(db: Db): (r: set<string>)
    ensures forall x :: x in r <==>
      ((exists m :: (m, x) in db.moduleReactions) || (exists p :: (p, x) in db.pathwayReactions)) && x !in db.reactions
  {
    (Seconds(db.moduleReactions) + Seconds(db.pathwayReactions)) - db.reactions.Keys
  }

  /** `linked_compound_ids - existing_compound_ids`. */
  function CompoundsNeeded(db: Db): (r: set<string>)
    ensures forall c :: c in r <==> (exists x :: (x, c) in db.reactionCompounds) && c !in db.compounds
  {
    var linked := set key | key in db.reactionCompounds :: key.1;
    assert forall x, c :: (x, c) in db.reactionCompounds ==> c in linked;
    linked - db.compounds.Keys
  }

  /** `[c for c in ids if c[0] == first]`, in order. */
  function WithPrefix(ids: seq<string>, first: char): (r: seq<string>)
    requires forall i :: 0 <= i < |ids| ==> |ids[i]| > 0
    ensures forall x :: x in r <==> x in ids && x[0] == first
    decreases |ids|
  {
    if |ids| == 0 then []
    else
      var n := |ids| - 1;
      var rest := WithPrefix(ids[..n], first);
      assert ids == ids[..n] + [ids[n]];
      if ids[n][0] == first then rest + [ids[n]] else rest
  }

  // ---------------------------------------------------------------------------
  // The database a finished run promises

  /** The links the stages read IDs from hold only sanitised IDs, so an ID read
      back from a link is the key its row is stored under. */
  predicate Clean(db: Db) {
    && (forall l :: l in db.orthologReactions ==> IsSqlSafe(l.1))
    && (forall l :: l in db.pathwayReactions ==> IsSqlSafe(l.0) && IsSqlSafe(l.1))
    && (forall l :: l in db.modulePathways ==> IsSqlSafe(l.1))
    && (forall l :: l in db.moduleReactions ==> IsSqlSafe(l.1))
  }

  /** Every ID of the table is free of the characters `sql_safe_string` removes. */
  predicate SafeIds(ids: set<string>) {
    forall x :: x in ids ==> IsSqlSafe(x)
  }

  /** Every reaction, pathway and module some stored row links to is stored. */
  predicate Linked(table: KoTable.KoTable, db: Db) {
    && (forall ko :: ko in table.kos ==> ko in db.orthologs)
    && (forall l :: l in db.orthologReactions ==> l.1 in db.reactions)
    && (forall l :: l in db.pathwayReactions ==> l.0 in db.pathways && l.1 in db.reactions)
    && (forall l :: l in db.modulePathways ==> l.1 in db.modules)
    && (forall l :: l in db.moduleReactions ==> l.1 in db.reactions)
  }

  /** Every compound a reaction lists is stored, unless its ID is neither a
      compound (`C`) nor a glycan (`G`) ID, which no stage fetches. */
  predicate CompoundsStored(db: Db) {
    forall key :: key in db.reactionCompounds ==>
      key.1 in db.compounds || (|key.1| > 0 && key.1[0] != 'C' && key.1[0] != 'G')
  }

  /** Nothing left to fetch: the tables the stages fill are closed. */
  predicate Saturated(table: KoTable.KoTable, db: Db) {
    KoTable.QueryOrthologs(table) <= db.queryOrthologs && Linked(table, db) && CompoundsStored(db)
  }

  /** A request for an ID the database did not already hold as that kind of record. */
  predicate NotStored(db: Db, request: (DataType, string)) {
    match request.0
    case Ko => request.1 !in db.orthologs
    case Rn => request.1 !in db.reactions
    case Path => request.1 !in db.pathways
    case Md => request.1 !in db.modules
    case Cpd => request.1 !in db.compounds && |request.1| > 0 && request.1[0] == 'C'
    case Gl => request.1 !in db.compounds && |request.1| > 0 && request.1[0] == 'G'
  }

  /** Every request of a log is for something the database did not hold. */
  predicate OnlyMissing(db: Db, log: Log) {
    forall i :: 0 <= i < |log| ==> NotStored(db, log[i])
  }

  // ---------------------------------------------------------------------------
  // Facts every stage shares

  /** The IDs a stage fetches are its needed IDs, all of them when the chunk
      size is positive. */
  lemma FetchedNeeded(needed: set<string>, chunkSize: int, cs: seq<seq<string>>)
    requires ChunkIds(Enumerate(needed), chunkSize) == Success(cs)
    ensures forall x :: x in Chunking.Flatten(cs) ==> x in needed
    ensures chunkSize > 0 ==> forall x :: x in Chunking.Flatten(cs) <==> x in needed
  {
  }

  /** Requests of one kind for IDs the database lacks. */
  lemma OnlyMissingRequests(db: Db, t: DataType, ids: seq<string>)
    requires forall x :: x in ids ==> NotStored(db, (t, x))
    ensures OnlyMissing(db, Requests(t, ids))
  {
    var log := Requests(t, ids);
    forall i | 0 <= i < |log| ensures NotStored(db, log[i]) {
      assert log[i] == (t, ids[i]);
    }
  }

  /** A stage asks only for IDs the database lacks. */
  lemma StageRequests(db: Db, t: DataType, needed: set<string>, chunkSize: int, cs: seq<seq<string>>)
    requires ChunkIds(Enumerate(needed), chunkSize) == Success(cs)
    requires forall x :: x in needed ==> NotStored(db, (t, x))
    ensures OnlyMissing(db, Requests(t, Chunking.Flatten(cs)))
  {
    FetchedNeeded(needed, chunkSize, cs);
    OnlyMissingRequests(db, t, Chunking.Flatten(cs));
  }

  /** With a positive chunk size, a stage stores every ID of a set of safe IDs
      that was not stored before and is needed. */
  lemma StageCovers(ids: set<string>, before: set<string>, needed: set<string>, chunkSize: int, cs: seq<seq<string>>, after: set<string>)
    requires ChunkIds(Enumerate(needed), chunkSize) == Success(cs)
    requires chunkSize > 0 && SafeIds(ids)
    requires forall x :: x in ids && x !in before ==> x in needed
    requires after == before + Safe(Chunking.Flatten(cs))
    ensures forall x :: x in ids ==> x in after
  {
    FetchedNeeded(needed, chunkSize, cs);
    forall x | x in ids && x !in before ensures x in after {
      SqlSafeStringSpec(x);
      assert x in Chunking.Flatten(cs);
      assert SqlSafeString(x) in Safe(Chunking.Flatten(cs));
    }
  }

  /** A stage whose new links are all sanitised keeps the database clean. */
  lemma CleanStep(db: Db, db': Db)
    requires forall l :: l in db'.orthologReactions && l !in db.orthologReactions ==> IsSqlSafe(l.1)
    requires forall l :: l in db'.pathwayReactions && l !in db.pathwayReactions ==> IsSqlSafe(l.0) && IsSqlSafe(l.1)
    requires forall l :: l in db'.modulePathways && l !in db.modulePathways ==> IsSqlSafe(l.1)
    requires forall l :: l in db'.moduleReactions && l !in db.moduleReactions ==> IsSqlSafe(l.1)
    ensures Clean(db) ==> Clean(db')
  {
  }

  lemma SecondsSafe(links: set<Link>)
    requires forall l :: l in links ==> IsSqlSafe(l.1)
    ensures SafeIds(Seconds(links))
  {
    forall y | y in Seconds(links) ensures IsSqlSafe(y) {
      var x :| (x, y) in links;
    }
  }

  lemma FirstsSafe(links: set<Link>)
    requires forall l :: l in links ==> IsSqlSafe(l.0)
    ensures SafeIds(Firsts(links))
  {
    forall x | x in Firsts(links) ensures IsSqlSafe(x) {
      var y :| (x, y) in links;
    }
  }

  /** Every second column of a link table names a key when the keys cover the column. */
  lemma SecondsIn(links: set<Link>, keys: set<string>)
    requires forall y :: y in Seconds(links) ==> y in keys
    ensures forall l :: l in links ==> l.1 in keys
  {
    forall l | l in links ensures l.1 in keys {
      assert (l.0, l.1) in links;
    }
  }

  lemma FirstsIn(links: set<Link>, keys: set<string>)
    requires forall x :: x in Firsts(links) ==> x in keys
    ensures forall l :: l in links ==> l.0 in keys
  {
    forall l | l in links ensures l.0 in keys {
      assert (l.0, l.1) in links;
    }
  }

  // ---------------------------------------------------------------------------
  // The stages in turn

  /** The `query_ortholog` rows of the table. */
  function WithQueries(table: KoTable.KoTable, db: Db): (r: Db)
    ensures r == db.(queryOrthologs := r.queryOrthologs)
    ensures KoTable.QueryOrthologs(table) <= r.queryOrthologs && db.queryOrthologs <= r.queryOrthologs
  {
    db.(queryOrthologs := db.queryOrthologs + KoTable.QueryOrthologs(table))
  }

  /** The ortholog stage: the table's orthologs the database lacks. */
  ghost function FetchOrthologs(fetch: Fetch, table: KoTable.KoTable, chunkSize: int, db: Db): (r: Result<Step, CrawlError>)
    ensures r.Failure? <==> chunkSize == 0
    ensures r.Success? ==> r.value.db == db.(orthologs := r.value.db.orthologs, orthologReactions := r.value.db.orthologReactions)
    ensures r.Success? ==> db.orthologs.Keys <= r.value.db.orthologs.Keys
    ensures r.Success? && Clean(db) ==> Clean(r.value.db)
    ensures r.Success? && chunkSize > 0 && SafeIds(table.kos) ==> forall ko :: ko in table.kos ==> ko in r.value.db.orthologs
    ensures r.Success? ==> OnlyMissing(db, r.value.log)
  {
    var needed := OrthologsNeeded(table.kos, db);
    match ChunkIds(Enumerate(needed), chunkSize)
    case Failure(e) => Failure(e)
    case Success(cs) =>
      var s := OrthologStage(fetch, db, cs);
      OrthologStageLinks(fetch, db, cs);
      OrthologStageKeys(fetch, db, cs);
      StageRequests(db, Ko, needed, chunkSize, cs);
      CleanStep(db, s.db);
      if chunkSize > 0 && SafeIds(table.kos) then
        OrthologsCovered(fetch, table, chunkSize, db, cs);
        Success(s)
      else
        Success(s)
  }

  /** With a positive chunk size and safe IDs, the ortholog stage stores
      every ortholog of the table. */
  lemma OrthologsCovered(fetch: Fetch, table: KoTable.KoTable, chunkSize: int, db: Db, cs: seq<seq<string>>)
    requires ChunkIds(Enumerate(OrthologsNeeded(table.kos, db)), chunkSize) == Success(cs)
    requires chunkSize > 0 && SafeIds(table.kos)
    ensures forall ko :: ko in table.kos ==> ko in OrthologStage(fetch, db, cs).db.orthologs
  {
    var after := OrthologStage(fetch, db, cs).db.orthologs.Keys;
    OrthologStageKeys(fetch, db, cs);
    StageCovers(table.kos, db.orthologs.Keys, OrthologsNeeded(table.kos, db), chunkSize, cs, after);
  }

  /** The first reaction stage: the reactions the orthologs link to, with
      their pathway links. */
  ghost function FirstReactions(fetch: Fetch, chunkSize: int, db: Db, found: set<string>): (r: Result<Step, CrawlError>)
    ensures chunkSize == 0 ==> r == Failure(ZeroChunkSize)
    ensures r.Success? ==> r.value.db == db.(reactions := r.value.db.reactions, reactionCompounds := r.value.db.reactionCompounds,
                                             pathwayReactions := r.value.db.pathwayReactions)
    ensures r.Success? ==> db.reactions.Keys <= r.value.db.reactions.Keys
    ensures r.Success? && Clean(db) ==> Clean(r.value.db)
    ensures r.Success? && chunkSize > 0 && Clean(db) ==> forall l :: l in db.orthologReactions ==> l.1 in r.value.db.reactions
    ensures r.Success? ==> OnlyMissing(db, r.value.log)
  {
    var needed := ReactionsNeeded(found, db);
    match ChunkIds(Enumerate(needed), chunkSize)
    case Failure(e) => Failure(e)
    case Success(cs) =>
      var s :- ReactionStage(fetch, db, cs, true, {});
      StageRequests(db, Rn, needed, chunkSize, cs);
      CleanStep(db, s.db);
      if chunkSize > 0 && Clean(db) then
        FirstReactionsCovered(fetch, chunkSize, db, found, cs);
        Success(s)
      else
        Success(s)
  }

  /** With a positive chunk size, the first reaction stage stores every
      reaction an ortholog links to. */
  lemma FirstReactionsCovered(fetch: Fetch, chunkSize: int, db: Db, found: set<string>, cs: seq<seq<string>>)
    requires ChunkIds(Enumerate(ReactionsNeeded(found, db)), chunkSize) == Success(cs)
    requires ReactionStage(fetch, db, cs, true, {}).Success?
    requires chunkSize > 0 && Clean(db)
    ensures forall l :: l in db.orthologReactions ==> l.1 in ReactionStage(fetch, db, cs, true, {}).value.db.reactions
  {
    var after := ReactionStage(fetch, db, cs, true, {}).value.db.reactions.Keys;
    SecondsSafe(db.orthologReactions);
    StageCovers(Seconds(db.orthologReactions), db.reactions.Keys, ReactionsNeeded(found, db), chunkSize, cs, after);
    SecondsIn(db.orthologReactions, after);
  }

  /** The pathway stage: the pathways the first reaction stage found and every
      pathway a reaction is linked to. */
  ghost function FetchPathways(fetch: Fetch, chunkSize: int, db: Db, found: set<string>): (r: Result<Step, CrawlError>)
    ensures r.Failure? <==> chunkSize == 0
    ensures r.Success? ==> r.value.db == db.(pathways := r.value.db.pathways, pathwayReactions := r.value.db.pathwayReactions,
                                             pathwayCompounds := r.value.db.pathwayCompounds, modulePathways := r.value.db.modulePathways)
    ensures r.Success? ==> db.pathways.Keys <= r.value.db.pathways.Keys
    ensures r.Success? && Clean(db) ==> Clean(r.value.db)
    ensures r.Success? && chunkSize > 0 && Clean(db) ==> forall l :: l in r.value.db.pathwayReactions ==> l.0 in r.value.db.pathways
    ensures r.Success? ==> OnlyMissing(db, r.value.log)
  {
    var needed := PathwaysNeeded(found, db);
    match ChunkIds(Enumerate(needed), chunkSize)
    case Failure(e) => Failure(e)
    case Success(cs) =>
      var s := PathwayStage(fetch, db, cs);
      PathwayStageLinks(fetch, db, cs);
      PathwayStageKeys(fetch, db, cs);
      StageRequests(db, Path, needed, chunkSize, cs);
      CleanStep(db, s.db);
      if chunkSize > 0 && Clean(db) then
        PathwaysCovered(fetch, chunkSize, db, found, cs);
        Success(s)
      else
        Success(s)
  }

  /** With a positive chunk size, the pathway stage stores every pathway a
      link names, the links it adds itself included. */
  lemma PathwaysCovered(fetch: Fetch, chunkSize: int, db: Db, found: set<string>, cs: seq<seq<string>>)
    requires ChunkIds(Enumerate(PathwaysNeeded(found, db)), chunkSize) == Success(cs)
    requires chunkSize > 0 && Clean(db)
    ensures forall l :: l in PathwayStage(fetch, db, cs).db.pathwayReactions ==> l.0 in PathwayStage(fetch, db, cs).db.pathways
  {
    var after := PathwayStage(fetch, db, cs).db.pathways.Keys;
    PathwayStageKeys(fetch, db, cs);
    PathwayStageLinks(fetch, db, cs);
    FirstsSafe(db.pathwayReactions);
    StageCovers(Firsts(db.pathwayReactions), db.pathways.Keys, PathwaysNeeded(found, db), chunkSize, cs, after);
    FirstsIn(db.pathwayReactions, after);
  }

  /** The module stage: every module a pathway lists. */
  ghost function FetchModules(fetch: Fetch, chunkSize: int, db: Db): (r: Result<Step, CrawlError>)
    ensures r.Failure? <==> chunkSize == 0
    ensures r.Success? ==> r.value.db == db.(modules := r.value.db.modules, moduleCompounds := r.value.db.moduleCompounds,
                                             moduleReactions := r.value.db.moduleReactions)
    ensures r.Success? ==> db.modules.Keys <= r.value.db.modules.Keys
    ensures r.Success? && Clean(db) ==> Clean(r.value.db)
    ensures r.Success? && chunkSize > 0 && Clean(db) ==> forall l :: l in db.modulePathways ==> l.1 in r.value.db.modules
    ensures r.Success? ==> OnlyMissing(db, r.value.log)
  {
    var needed := ModulesNeeded(db);
    match ChunkIds(Enumerate(needed), chunkSize)
    case Failure(e) => Failure(e)
    case Success(cs) =>
      var s := ModuleStage(fetch, db, cs);
      ModuleStageLinks(fetch, db, cs);
      ModuleStageKeys(fetch, db, cs);
      StageRequests(db, Md, needed, chunkSize, cs);
      CleanStep(db, s.db);
      if chunkSize > 0 && Clean(db) then
        ModulesCovered(fetch, chunkSize, db, cs);
        Success(s)
      else
        Success(s)
  }

  /** With a positive chunk size, the module stage stores every module a
      pathway lists. */
  lemma ModulesCovered(fetch: Fetch, chunkSize: int, db: Db, cs: seq<seq<string>>)
    requires ChunkIds(Enumerate(ModulesNeeded(db)), chunkSize) == Success(cs)
    requires chunkSize > 0 && Clean(db)
    ensures forall l :: l in db.modulePathways ==> l.1 in ModuleStage(fetch, db, cs).db.modules
  {
    var after := ModuleStage(fetch, db, cs).db.modules.Keys;
    ModuleStageKeys(fetch, db, cs);
    SecondsSafe(db.modulePathways);
    StageCovers(Seconds(db.modulePathways), db.modules.Keys, ModulesNeeded(db), chunkSize, cs, after);
    SecondsIn(db.modulePathways, after);
  }

  /** The second reaction stage: every reaction a pathway or a module lists,
      without following their pathways further. */
  ghost function MoreReactions(fetch: Fetch, chunkSize: int, db: Db): (r: Result<Step, CrawlError>)
    ensures chunkSize == 0 ==> r == Failure(ZeroChunkSize)
    ensures r.Success? ==> r.value.db == db.(reactions := r.value.db.reactions, reactionCompounds := r.value.db.reactionCompounds)
    ensures r.Success? ==> db.reactions.Keys <= r.value.db.reactions.Keys
    ensures r.Success? && Clean(db) ==> Clean(r.value.db)
    ensures r.Success? && chunkSize > 0 && Clean(db) ==>
      (forall l :: l in db.moduleReactions ==> l.1 in r.value.db.reactions) &&
      (forall l :: l in db.pathwayReactions ==> l.1 in r.value.db.reactions)
    ensures r.Success? ==> OnlyMissing(db, r.value.log)
  {
    var needed := MoreReactionsNeeded(db);
    match ChunkIds(Enumerate(needed), chunkSize)
    case Failure(e) => Failure(e)
    case Success(cs) =>
      var s :- ReactionStage(fetch, db, cs, false, {});
      StageRequests(db, Rn, needed, chunkSize, cs);
      CleanStep(db, s.db);
      if chunkSize > 0 && Clean(db) then
        MoreReactionsCovered(fetch, chunkSize, db, cs);
        Success(s)
      else
        Success(s)
  }

  /** No `reaction_compound` key names an empty compound ID, the one case in
      which the compound stage fails on a positive chunk size. */
  predicate NoEmptyCompound(db: Db) {
    forall key :: key in db.reactionCompounds ==> key.1 != ""
  }

  /** Keys a reaction stage adds name compound IDs, which are never empty. */
  lemma NoEmptyStep(db: Db, db1: Db)
    requires db.reactionCompounds.Keys <= db1.reactionCompounds.Keys
    requires forall key :: key in db1.reactionCompounds && key !in db.reactionCompounds ==> Equation.IsCompoundId(key.1)
    ensures NoEmptyCompound(db) ==> NoEmptyCompound(db1)
  {
  }

  /** The first reaction stage fails exactly when the chunk size is zero or a
      reaction it needs has an EQUATION that does not parse; the error then
      names such a reaction. */
  lemma FirstReactionsSucceeds(fetch: Fetch, chunkSize: int, db: Db, found: set<string>)
    ensures FirstReactions(fetch, chunkSize, db, found).Success? <==>
      chunkSize != 0 && (chunkSize < 0 || forall id :: id in ReactionsNeeded(found, db) ==> ReactionParses(fetch, id))
    ensures FirstReactions(fetch, chunkSize, db, found).Failure? && chunkSize != 0 ==>
      FirstReactions(fetch, chunkSize, db, found).error.BadEquation? &&
      FirstReactions(fetch, chunkSize, db, found).error.reaction in ReactionsNeeded(found, db)
    ensures FirstReactions(fetch, chunkSize, db, found).Success? && NoEmptyCompound(db) ==>
      NoEmptyCompound(FirstReactions(fetch, chunkSize, db, found).value.db)
  {
    var needed := ReactionsNeeded(found, db);
    match ChunkIds(Enumerate(needed), chunkSize)
    case Failure(_) =>
    case Success(cs) =>
      FetchedNeeded(needed, chunkSize, cs);
      AllChunksParseSpec(fetch, cs);
      var r := ReactionStage(fetch, db, cs, true, {});
      if r.Success? {
        NoEmptyStep(db, r.value.db);
      }
  }

  /** The second reaction stage fails exactly when the chunk size is zero or a
      reaction a module or a pathway lists, and the database lacks, has an
      EQUATION that does not parse; the error then names such a reaction. */
  lemma MoreReactionsSucceeds(fetch: Fetch, chunkSize: int, db: Db)
    ensures MoreReactions(fetch, chunkSize, db).Success? <==>
      chunkSize != 0 && (chunkSize < 0 || forall id :: id in MoreReactionsNeeded(db) ==> ReactionParses(fetch, id))
    ensures MoreReactions(fetch, chunkSize, db).Failure? && chunkSize != 0 ==>
      MoreReactions(fetch, chunkSize, db).error.BadEquation? &&
      MoreReactions(fetch, chunkSize, db).error.reaction in MoreReactionsNeeded(db)
    ensures MoreReactions(fetch, chunkSize, db).Success? && NoEmptyCompound(db) ==>
      NoEmptyCompound(MoreReactions(fetch, chunkSize, db).value.db)
  {
    var needed := MoreReactionsNeeded(db);
    match ChunkIds(Enumerate(needed), chunkSize)
    case Failure(_) =>
    case Success(cs) =>
      FetchedNeeded(needed, chunkSize, cs);
      AllChunksParseSpec(fetch, cs);
      var r := ReactionStage(fetch, db, cs, false, {});
      if r.Success? {
        NoEmptyStep(db, r.value.db);
      }
  }

  /** With a positive chunk size, the second reaction stage stores every
      reaction a module or a pathway lists. */
  lemma MoreReactionsCovered(fetch: Fetch, chunkSize: int, db: Db, cs: seq<seq<string>>)
    requires ChunkIds(Enumerate(MoreReactionsNeeded(db)), chunkSize) == Success(cs)
    requires ReactionStage(fetch, db, cs, false, {}).Success?
    requires chunkSize > 0 && Clean(db)
    ensures forall l :: l in db.moduleReactions ==> l.1 in ReactionStage(fetch, db, cs, false, {}).value.db.reactions
    ensures forall l :: l in db.pathwayReactions ==> l.1 in ReactionStage(fetch, db, cs, false, {}).value.db.reactions
  {
    var after := ReactionStage(fetch, db, cs, false, {}).value.db.reactions.Keys;
    var ids := Seconds(db.moduleReactions) + Seconds(db.pathwayReactions);
    SecondsSafe(db.moduleReactions);
    SecondsSafe(db.pathwayReactions);
    StageCovers(ids, db.reactions.Keys, MoreReactionsNeeded(db), chunkSize, cs, after);
    SecondsIn(db.moduleReactions, after);
    SecondsIn(db.pathwayReactions, after);
  }

  /** The compound and glycan stages: every compound a reaction lists and the
      database lacks, `C` IDs from `cpd` and `G` IDs from `gl`. An empty ID
      among them stops the run before anything is fetched. */
  ghost function FetchCompounds(fetch: Fetch, chunkSize: int, db: Db): (r: Result<Step, CrawlError>)
    ensures r.Failure? <==> chunkSize == 0 || "" in CompoundsNeeded(db)
    ensures "" in CompoundsNeeded(db) ==> r == Failure(EmptyCompoundId)
    ensures r.Success? ==> r.value.db == db.(compounds := r.value.db.compounds, compoundNames := r.value.db.compoundNames)
    ensures r.Success? ==> db.compounds.Keys <= r.value.db.compounds.Keys
    ensures r.Success? && chunkSize > 0 ==> CompoundsStored(r.value.db)
    ensures r.Success? ==> OnlyMissing(db, r.value.log)
  {
    var needed := CompoundsNeeded(db);
    if "" in needed then Failure(EmptyCompoundId)
    else
      var list := Enumerate(needed);
      assert forall i :: 0 <= i < |list| ==> list[i] in needed;
      var cIds, gIds := WithPrefix(list, 'C'), WithPrefix(list, 'G');
      var cs :- ChunkIds(cIds, chunkSize);
      var s1 := CompoundStage(fetch, Cpd, "FORMULA", db, cs);
      var gs := ChunkIds(gIds, chunkSize).value;
      var s2 := CompoundStage(fetch, Gl, "COMPOSITION", s1.db, gs);
      CompoundRequests(db, Cpd, 'C', cIds, chunkSize, cs);
      CompoundRequests(db, Gl, 'G', gIds, chunkSize, gs);
      OnlyMissingAppend(db, s1.log, s2.log);
      if chunkSize > 0 then
        CompoundsCovered(db, cIds, gIds, s2.db);
        Success(Step(s2.db, {}, s1.log + s2.log))
      else
        Success(Step(s2.db, {}, s1.log + s2.log))
  }

  /** The requests of one compound stage are for missing IDs of its prefix. */
  lemma CompoundRequests(db: Db, t: DataType, first: char, ids: seq<string>, chunkSize: int, cs: seq<seq<string>>)
    requires t == Cpd || t == Gl
    requires first == if t == Cpd then 'C' else 'G'
    requires forall x :: x in ids ==> x in CompoundsNeeded(db) && |x| > 0 && x[0] == first
    requires ChunkIds(ids, chunkSize) == Success(cs)
    ensures OnlyMissing(db, Requests(t, Chunking.Flatten(cs)))
  {
    OnlyMissingRequests(db, t, Chunking.Flatten(cs));
  }

  /** After both compound stages every needed `C` and `G` ID is stored. */
  lemma CompoundsCovered(db: Db, cIds: seq<string>, gIds: seq<string>, db': Db)
    requires "" !in CompoundsNeeded(db)
    requires forall x :: x in CompoundsNeeded(db) && x[0] == 'C' ==> x in cIds
    requires forall x :: x in CompoundsNeeded(db) && x[0] == 'G' ==> x in gIds
    requires db'.reactionCompounds == db.reactionCompounds
    requires db.compounds.Keys + Ids(cIds) + Ids(gIds) <= db'.compounds.Keys
    ensures CompoundsStored(db')
  {
    forall key | key in db'.reactionCompounds
      ensures key.1 in db'.compounds || (|key.1| > 0 && key.1[0] != 'C' && key.1[0] != 'G')
    {
      if key.1 !in db.compounds {
        assert key.1 in CompoundsNeeded(db);
      }
    }
  }

  lemma OnlyMissingAppend(db: Db, a: Log, b: Log)
    requires OnlyMissing(db, a) && OnlyMissing(db, b)
    ensures OnlyMissing(db, a + b)
  {
    forall i | 0 <= i < |a + b| ensures NotStored(db, (a + b)[i]) {
      if i >= |a| {
        assert (a + b)[i] == b[i - |a|];
      }
    }
  }

  // ---------------------------------------------------------------------------
  // The whole run

  /** `get_kegg_reaction_metadata` after the table is read: the query links,
      then the stages in order, each on the database the previous one left.
      The result is the final database and every request, in order. */
  ghost function Run(fetch: Fetch, table: KoTable.KoTable, chunkSize: int, db0: Db): (r: Result<(Db, Log), CrawlError>)
    ensures chunkSize == 0 ==> r == Failure(ZeroChunkSize)
  {
    var d0 := WithQueries(table, db0);
    var s1 :- FetchOrthologs(fetch, table, chunkSize, d0);
    var s2 :- FirstReactions(fetch, chunkSize, s1.db, s1.found);
    // the chunk size is not zero here, so these two stages cannot fail
    var s3 := FetchPathways(fetch, chunkSize, s2.db, s2.found).value;
    var s4 := FetchModules(fetch, chunkSize, s3.db).value;
    var s5 :- MoreReactions(fetch, chunkSize, s4.db);
    var s6 :- FetchCompounds(fetch, chunkSize, s5.db);
    Success((s6.db, s1.log + s2.log + s3.log + s4.log + s5.log + s6.log))
  }

  /** A run with a positive chunk size, on a database without empty compound
      IDs, whose reactions all have parsable equations, does not fail. */
  lemma RunSucceeds(fetch: Fetch, table: KoTable.KoTable, chunkSize: int, db0: Db)
    requires chunkSize > 0
    requires forall id :: ReactionParses(fetch, id)
    requires NoEmptyCompound(db0)
    ensures Run(fetch, table, chunkSize, db0).Success?
  {
    var d0 := WithQueries(table, db0);
    var s1 := FetchOrthologs(fetch, table, chunkSize, d0).value;
    FirstReactionsSucceeds(fetch, chunkSize, s1.db, s1.found);
    var s2 := FirstReactions(fetch, chunkSize, s1.db, s1.found).value;
    var s3 := FetchPathways(fetch, chunkSize, s2.db, s2.found).value;
    var s4 := FetchModules(fetch, chunkSize, s3.db).value;
    MoreReactionsSucceeds(fetch, chunkSize, s4.db);
    var s5 := MoreReactions(fetch, chunkSize, s4.db).value;
    assert "" !in CompoundsNeeded(s5.db);
  }

  /** A run stops only on a zero chunk size, an unparsable equation or an
      empty compound ID. */
  lemma RunErrors(fetch: Fetch, table: KoTable.KoTable, chunkSize: int, db0: Db)
    ensures Run(fetch, table, chunkSize, db0).Failure? ==>
      Run(fetch, table, chunkSize, db0).error in {ZeroChunkSize, EmptyCompoundId} ||
      Run(fetch, table, chunkSize, db0).error.BadEquation?
  {
    if chunkSize != 0 {
      var d0 := WithQueries(table, db0);
      var s1 := FetchOrthologs(fetch, table, chunkSize, d0).value;
      FirstReactionsSucceeds(fetch, chunkSize, s1.db, s1.found);
      var r2 := FirstReactions(fetch, chunkSize, s1.db, s1.found);
      if r2.Success? {
        var s2 := r2.value;
        var s3 := FetchPathways(fetch, chunkSize, s2.db, s2.found).value;
        var s4 := FetchModules(fetch, chunkSize, s3.db).value;
        MoreReactionsSucceeds(fetch, chunkSize, s4.db);
      }
    }
  }

  /** The whole script: read the table, then run. */
  ghost function GetKeggReactionMetadata(response: Response, lines: seq<string>, chunkSize: int, db0: Db): (r: Result<(Db, Log), CrawlError>)
    ensures KoTable.ReadKoTable(lines).Failure? ==> r == Failure(Tsv(KoTable.ReadKoTable(lines).error))
    ensures KoTable.ReadKoTable(lines).Success? ==> r == Run(Parsed(response), KoTable.ReadKoTable(lines).value, chunkSize, db0)
  {
    match KoTable.ReadKoTable(lines)
    case Failure(e) => Failure(Tsv(e))
    case Success(table) => Run(Parsed(response), table, chunkSize, db0)
  }
}

=== FILE: crawl_properties.dfy ===
/** What a whole run of `get_kegg_reaction_metadata` promises: it asks KEGG
    only for what the database lacks, it leaves nothing linked but unfetched,
    and a second run over its result asks for nothing and changes nothing. */
module CrawlProperties {
  import opened Wrappers
  import opened Store
  import opened CrawlStages
  import opened Crawl
  import Chunking
  import KoTable

  /** The databases between the stages of a successful run. */
  datatype Trace = Trace(d0: Db, s1: Step, s2: Step, s3: Step, s4: Step, s5: Step, s6: Step)

  /** The stages of a successful run, one by one. */
  ghost function Stages(fetch: Fetch, table: KoTable.KoTable, chunkSize: int, db0: Db): (t: Trace)
    requires Run(fetch, table, chunkSize, db0).Success?
    ensures t.d0 == WithQueries(table, db0)
    ensures FetchOrthologs(fetch, table, chunkSize, t.d0) == Success(t.s1)
    ensures FirstReactions(fetch, chunkSize, t.s1.db, t.s1.found) == Success(t.s2)
    ensures FetchPathways(fetch, chunkSize, t.s2.db, t.s2.found) == Success(t.s3)
    ensures FetchModules(fetch, chunkSize, t.s3.db) == Success(t.s4)
    ensures MoreReactions(fetch, chunkSize, t.s4.db) == Success(t.s5)
    ensures FetchCompounds(fetch, chunkSize, t.s5.db) == Success(t.s6)
    ensures Run(fetch, table, chunkSize, db0).value == (t.s6.db, t.s1.log + t.s2.log + t.s3.log + t.s4.log + t.s5.log + t.s6.log)
  {
    var d0 := WithQueries(table, db0);
    var s1 := FetchOrthologs(fetch, table, chunkSize, d0).value;
    var s2 := FirstReactions(fetch, chunkSize, s1.db, s1.found).value;
    var s3 := FetchPathways(fetch, chunkSize, s2.db, s2.found).value;
    var s4 := FetchModules(fetch, chunkSize, s3.db).value;
    var s5 := MoreReactions(fetch, chunkSize, s4.db).value;
    var s6 := FetchCompounds(fetch, chunkSize, s5.db).value;
    Trace(d0, s1, s2, s3, s4, s5, s6)
  }

  /** A run from a clean database, with a positive chunk size and an input
      table whose IDs `sql_safe_string` leaves alone, stores every reaction,
      pathway and module a stored row links to, every compound and glycan a
      reaction lists, and every query link of the table; and the database
      stays clean. */
  lemma RunSaturates(fetch: Fetch, table: KoTable.KoTable, chunkSize: int, db0: Db)
    requires Run(fetch, table, chunkSize, db0).Success?
    requires chunkSize > 0 && Clean(db0) && SafeIds(table.kos)
    ensures Saturated(table, Run(fetch, table, chunkSize, db0).value.0)
    ensures Clean(Run(fetch, table, chunkSize, db0).value.0)
  {
    var t := Stages(fetch, table, chunkSize, db0);
    var db := t.s6.db;
    assert Clean(t.d0);
    assert Clean(t.s5.db);
    assert Linked(table, db);
    assert KoTable.QueryOrthologs(table) <= db.queryOrthologs;
  }

  /** Every request of a log that asks only for what a later database lacks
      also asks only for what an earlier one lacked, as no stage drops a row. */
  lemma OnlyMissingEarlier(db: Db, db': Db, log: Log)
    requires db.orthologs.Keys <= db'.orthologs.Keys && db.reactions.Keys <= db'.reactions.Keys
    requires db.pathways.Keys <= db'.pathways.Keys && db.modules.Keys <= db'.modules.Keys
    requires db.compounds.Keys <= db'.compounds.Keys
    requires OnlyMissing(db', log)
    ensures OnlyMissing(db, log)
  {
    forall i | 0 <= i < |log| ensures NotStored(db, log[i]) {
      assert NotStored(db', log[i]);
    }
  }

  /** A run never asks KEGG for a record the database already held: every
      ortholog, reaction, pathway, module, compound and glycan it requests was
      missing from the database it started from. */
  lemma RunAsksOnlyForMissing(fetch: Fetch, table: KoTable.KoTable, chunkSize: int, db0: Db)
    requires Run(fetch, table, chunkSize, db0).Success?
    ensures OnlyMissing(db0, Run(fetch, table, chunkSize, db0).value.1)
  {
    var t := Stages(fetch, table, chunkSize, db0);
    OnlyMissingEarlier(db0, t.d0, t.s1.log);
    OnlyMissingEarlier(db0, t.s1.db, t.s2.log);
    OnlyMissingEarlier(db0, t.s2.db, t.s3.log);
    OnlyMissingEarlier(db0, t.s3.db, t.s4.log);
    OnlyMissingEarlier(db0, t.s4.db, t.s5.log);
    OnlyMissingEarlier(db0, t.s5.db, t.s6.log);
    OnlyMissingAppend(db0, t.s1.log, t.s2.log);
    OnlyMissingAppend(db0, t.s1.log + t.s2.log, t.s3.log);
    OnlyMissingAppend(db0, t.s1.log + t.s2.log + t.s3.log, t.s4.log);
    OnlyMissingAppend(db0, t.s1.log + t.s2.log + t.s3.log + t.s4.log, t.s5.log);
    OnlyMissingAppend(db0, t.s1.log + t.s2.log + t.s3.log + t.s4.log + t.s5.log, t.s6.log);
  }

  /** Running again over a database with nothing left to fetch asks for
      nothing and leaves the database as it was. */
  lemma RerunIsIdle(fetch: Fetch, table: KoTable.KoTable, chunkSize: int, db: Db)
    requires Saturated(table, db) && chunkSize != 0
    ensures Run(fetch, table, chunkSize, db) == Success((db, []))
  {
    assert WithQueries(table, db) == db;
    IdleOrthologs(fetch, table, chunkSize, db);
    IdleFirstReactions(fetch, chunkSize, db);
    IdlePathways(fetch, chunkSize, db);
    IdleModules(fetch, chunkSize, db);
    IdleMoreReactions(fetch, chunkSize, db);
    NothingToCompound(fetch, chunkSize, db);
  }

  /** Nothing needed: the stage's chunk list is empty. */
  lemma NoChunks(needed: set<string>, chunkSize: int)
    requires needed == {} && chunkSize != 0
    ensures ChunkIds(Enumerate(needed), chunkSize) == Success([])
  {
    assert Enumerate(needed) == [];
  }

  /** With every ortholog of the table stored, the ortholog stage fetches nothing. */
  lemma IdleOrthologs(fetch: Fetch, table: KoTable.KoTable, chunkSize: int, db: Db)
    requires Linked(table, db) && chunkSize != 0
    ensures FetchOrthologs(fetch, table, chunkSize, db) == Success(Step(db, {}, []))
  {
    assert OrthologsNeeded(table.kos, db) == {};
    NoChunks(OrthologsNeeded(table.kos, db), chunkSize);
  }

  /** With every linked reaction stored, the first reaction stage fetches nothing. */
  lemma IdleFirstReactions(fetch: Fetch, chunkSize: int, db: Db)
    requires (forall l :: l in db.orthologReactions ==> l.1 in db.reactions) && chunkSize != 0
    ensures FirstReactions(fetch, chunkSize, db, {}) == Success(Step(db, {}, []))
  {
    assert ReactionsNeeded({}, db) == {};
    NoChunks(ReactionsNeeded({}, db), chunkSize);
  }

  /** With every linked pathway stored, the pathway stage fetches nothing. */
  lemma IdlePathways(fetch: Fetch, chunkSize: int, db: Db)
    requires (forall l :: l in db.pathwayReactions ==> l.0 in db.pathways) && chunkSize != 0
    ensures FetchPathways(fetch, chunkSize, db, {}) == Success(Step(db, {}, []))
  {
    assert PathwaysNeeded({}, db) == {};
    NoChunks(PathwaysNeeded({}, db), chunkSize);
  }

  /** With every listed module stored, the module stage fetches nothing. */
  lemma IdleModules(fetch: Fetch, chunkSize: int, db: Db)
    requires (forall l :: l in db.modulePathways ==> l.1 in db.modules) && chunkSize != 0
    ensures FetchModules(fetch, chunkSize, db) == Success(Step(db, {}, []))
  {
    assert ModulesNeeded(db) == {};
    NoChunks(ModulesNeeded(db), chunkSize);
  }

  /** With every reaction a module or pathway lists stored, the second
      reaction stage fetches nothing. */
  lemma IdleMoreReactions(fetch: Fetch, chunkSize: int, db: Db)
    requires (forall l :: l in db.moduleReactions ==> l.1 in db.reactions) && chunkSize != 0
    requires forall l :: l in db.pathwayReactions ==> l.1 in db.reactions
    ensures MoreReactions(fetch, chunkSize, db) == Success(Step(db, {}, []))
  {
    assert MoreReactionsNeeded(db) == {};
    NoChunks(MoreReactionsNeeded(db), chunkSize);
  }

  /** Running twice is running once: after a successful run from a clean
      database, a second run, whatever KEGG now answers, asks for nothing
      and changes nothing. */
  lemma SecondRunIdle(fetch: Fetch, later: Fetch, table: KoTable.KoTable, chunkSize: int, db0: Db)
    requires Run(fetch, table, chunkSize, db0).Success?
    requires chunkSize > 0 && Clean(db0) && SafeIds(table.kos)
    ensures Run(later, table, chunkSize, Run(fetch, table, chunkSize, db0).value.0) ==
      Success((Run(fetch, table, chunkSize, db0).value.0, []))
  {
    RunSaturates(fetch, table, chunkSize, db0);
    RerunIsIdle(later, table, chunkSize, Run(fetch, table, chunkSize, db0).value.0);
  }

  /** With every listed `C` and `G` compound stored, the compound stages fetch nothing. */
  lemma NothingToCompound(fetch: Fetch, chunkSize: int, db: Db)
    requires CompoundsStored(db) && chunkSize != 0
    ensures FetchCompounds(fetch, chunkSize, db) == Success(Step(db, {}, []))
  {
    var list := Enumerate(CompoundsNeeded(db));
    NoCompoundPrefix(db, list);
    NoneWithPrefix(list, 'C');
    NoneWithPrefix(list, 'G');
    assert CompoundStage(fetch, Cpd, "FORMULA", db, []) == Step(db, {}, []);
    assert CompoundStage(fetch, Gl, "COMPOSITION", db, []) == Step(db, {}, []);
  }

  /** With every listed `C` and `G` compound stored, no needed ID starts with `C` or `G`. */
  lemma NoCompoundPrefix(db: Db, list: seq<string>)
    requires CompoundsStored(db) && list == Enumerate(CompoundsNeeded(db))
    ensures "" !in CompoundsNeeded(db)
    ensures forall i :: 0 <= i < |list| ==> |list[i]| > 0 && list[i][0] != 'C' && list[i][0] != 'G'
  {
    assert forall i :: 0 <= i < |list| ==> list[i] in CompoundsNeeded(db);
  }

  /** No ID starts with `first`, so the filter keeps nothing. */
  lemma {:induction false} NoneWithPrefix(ids: seq<string>, first: char)
    requires forall i :: 0 <= i < |ids| ==> |ids[i]| > 0 && ids[i][0] != first
    ensures WithPrefix(ids, first) == []
    decreases |ids|
  {
    if |ids| > 0 {
      NoneWithPrefix(ids[..|ids| - 1], first);
    }
  }
}

=== FILE: crawl_stages.dfy ===
/** The fetch-and-store stages of `get_kegg_reaction_metadata`
    (get_kegg_reaction_metadata.py). Each stage takes the chunks of one list of
    needed IDs, fetches every record of a chunk, and writes the chunk's rows
    and links before moving to the next chunk. */
module CrawlStages {
  import opened Wrappers
  import opened SqlSafe
  import opened FlatRecord
  import opened Store
  import Chunking
  import Links
  import Equation
  import KoTable

  /** The KEGG database a record is fetched from: the `data_type` of
      `fetch_kegg_api` (`ko`, `rn`, `path`, `md`, `cpd`, `gl`). */
  datatype DataType = Ko | Rn | Path | Md | Cpd | Gl

  /** The text of the KEGG REST response for a database and an ID. The HTTP
      call is outside the model; a run receives it as a parameter. */
  type Response = (DataType, string) -> string

  /** Every field of a fetched record has at least one line. */
  predicate NoEmptyField(rec: Record) {
    forall k :: k in rec ==> |rec[k]| > 0
  }

  /** `fetch_kegg_api(id, data_type)` as the stages see it: a response already
      parsed as a flat record, which never has an empty field. */
  type Fetch = f: (DataType, string) -> Record | forall t, id :: NoEmptyField(f(t, id))
    witness (t: DataType, id: string) => map[]

  /** `fetch_kegg_api` over the responses: the flat-record parser applied to
      each one. */
  function Parsed(response: Response): (f: Fetch)
    ensures forall t, id :: f(t, id) == ParseRecord(response(t, id))
  {
    assert forall t, id :: NoEmptyField(ParseRecord(response(t, id)));
    (t: DataType, id: string) => ParseRecord(response(t, id))
  }

  /** The records of a chunk, in chunk order (`kegg_pool.map`). */
  function Records(fetch: Fetch, t: DataType, chunk: seq<string>): (r: seq<Record>)
    ensures |r| == |chunk|
    ensures forall i :: 0 <= i < |chunk| ==> r[i] == fetch(t, chunk[i]) && NoEmptyField(r[i])
  {
    seq(|chunk|, i requires 0 <= i < |chunk| => fetch(t, chunk[i]))
  }

  /** The requests a run makes, in order. */
  type Log = seq<(DataType, string)>

  function Requests(t: DataType, ids: seq<string>): (r: Log)
    ensures |r| == |ids|
    ensures forall i :: 0 <= i < |ids| ==> r[i] == (t, ids[i])
  {
    seq(|ids|, i requires 0 <= i < |ids| => (t, ids[i]))
  }

  lemma RequestsAppend(t: DataType, a: seq<string>, b: seq<string>)
    ensures Requests(t, a + b) == Requests(t, a) + Requests(t, b)
  {
  }

  /** The sanitised form of every ID of a list: the keys its rows are stored under. */
  function Safe(ids: seq<string>): (r: set<string>)
    ensures forall x :: x in r <==> exists id :: id in ids && SqlSafeString(id) == x
  {
    set id | id in ids :: SqlSafeString(id)
  }

  /** The IDs of a list, as a set. */
  function Ids(ids: seq<string>): (r: set<string>)
    ensures forall x :: x in r <==> x in ids
  {
    set id | id in ids
  }

  lemma IdsAppend(a: seq<string>, b: seq<string>)
    ensures Ids(a + b) == Ids(a) + Ids(b)
  {
    assert forall id :: id in a + b <==> id in a || id in b;
  }

  lemma SafeAppend(a: seq<string>, b: seq<string>)
    ensures Safe(a + b) == Safe(a) + Safe(b)
  {
    assert forall id :: id in a + b <==> id in a || id in b;
  }

  /** Adding two batches of keys one after the other adds their union. */
  lemma KeysStep(k0: set<string>, k1: set<string>, k2: set<string>, a: set<string>, b: set<string>, ab: set<string>)
    requires k1 == k0 + a && k2 == k1 + b && ab == a + b
    ensures k2 == k0 + ab
  {
  }

  /** Why a run stops. */
  datatype CrawlError =
    | Tsv(tsvError: KoTable.TsvError)                                    // reading the input table
    | ZeroChunkSize                                                     // `range` with step 0
    | BadEquation(reaction: string, equationError: Equation.EquationError)     // parsing an EQUATION
    | EmptyCompoundId                                                   // `c[0]` on an empty compound ID
    | MissingEquation(reaction: string)                                 // `rrd['EQUATION'][0]` on an empty list

  /** What a stage leaves: the database, the IDs it gathered for a later
      stage, and the requests it made. */
  datatype Step = Step(db: Db, found: set<string>, log: Log)

  /** A batch keyed by the sanitised IDs of a chunk writes exactly those keys. */
  lemma SafeKeys<V>(rows: seq<(string, V)>, chunk: seq<string>)
    requires |rows| == |chunk|
    requires forall i :: 0 <= i < |chunk| ==> rows[i].0 == SqlSafeString(chunk[i])
    ensures BatchKeys(rows) == Safe(chunk)
  {
    forall x | x in Safe(chunk) ensures x in BatchKeys(rows) {
      var id :| id in chunk && SqlSafeString(id) == x;
      var i :| 0 <= i < |chunk| && chunk[i] == id;
      assert rows[i].0 == x;
    }
  }

  // ---------------------------------------------------------------------------
  // Orthologs (`ko`)

  /** The `ortholog` rows of a chunk: sanitised ID, first NAME line and first
      DEFINITION line, each empty when the field is absent. */
  function OrthologRows(chunk: seq<string>, recs: seq<Record>): (rows: seq<(string, Ortholog)>)
    requires |recs| == |chunk|
    ensures BatchKeys(rows) == Safe(chunk)
  {
    var rows := seq(|chunk|, i requires 0 <= i < |chunk| =>
      (SqlSafeString(chunk[i]), Ortholog(SqlSafeString(FirstOr(recs[i], "NAME")), SqlSafeString(FirstOr(recs[i], "DEFINITION")))));
    SafeKeys(rows, chunk);
    rows
  }

  /** `ortholog_reactions`: every ortholog of the chunk whose DBLINKS has an
      `RN: ` line, with the reaction IDs of its last such line. */
  function OrthologLinks(chunk: seq<string>, recs: seq<Record>): (r: map<string, set<string>>)
    requires |recs| == |chunk|
    ensures forall o :: o in r ==> o in chunk
    decreases |chunk|
  {
    if |chunk| == 0 then map[]
    else
      var n := |chunk| - 1;
      var m := OrthologLinks(chunk[..n], recs[..n]);
      match Links.RnLinks(Field(recs[n], "DBLINKS"))
      case None => m
      case Some(ids) => m[chunk[n] := ids]
  }

  /** One chunk of orthologs: the rows, the sanitised ortholog-reaction links,
      and the raw reaction IDs for the reaction stage. */
  function OrthologChunk(db: Db, chunk: seq<string>, recs: seq<Record>): (r: Step)
    requires |recs| == |chunk|
    ensures r.db == db.(orthologs := r.db.orthologs, orthologReactions := r.db.orthologReactions)
    ensures r.db.orthologs.Keys == db.orthologs.Keys + Safe(chunk)
    ensures db.orthologReactions <= r.db.orthologReactions
    ensures forall l :: l in r.db.orthologReactions && l !in db.orthologReactions ==> IsSqlSafe(l.1)
  {
    var rows := OrthologRows(chunk, recs);
    var links := OrthologLinks(chunk, recs);
    var pairs := set o, x | o in links && x in links[o] :: (SqlSafeString(o), SqlSafeString(x));
    var raw := set o, x | o in links && x in links[o] :: x;
    UpsertKeys(db.orthologs, rows);
    SqlSafeOutputs();
    Step(db.(orthologs := Upsert(db.orthologs, rows), orthologReactions := db.orthologReactions + pairs), raw, [])
  }

  /** The ortholog stage over all chunks. */
  function OrthologStage(fetch: Fetch, db: Db, chunks: seq<seq<string>>): (r: Step)
    ensures r.db == db.(orthologs := r.db.orthologs, orthologReactions := r.db.orthologReactions)
    ensures r.log == Requests(Ko, Chunking.Flatten(chunks))
    decreases |chunks|
  {
    if |chunks| == 0 then Step(db, {}, [])
    else
      var s := OrthologChunk(db, chunks[0], Records(fetch, Ko, chunks[0]));
      var t := OrthologStage(fetch, s.db, chunks[1..]);
      RequestsAppend(Ko, chunks[0], Chunking.Flatten(chunks[1..]));
      Step(t.db, s.found + t.found, Requests(Ko, chunks[0]) + t.log)
  }

  /** The ortholog stage stores exactly the sanitised IDs it requested as new keys. */
  lemma {:induction false} OrthologStageKeys(fetch: Fetch, db: Db, chunks: seq<seq<string>>)
    ensures OrthologStage(fetch, db, chunks).db.orthologs.Keys == db.orthologs.Keys + Safe(Chunking.Flatten(chunks))
    decreases |chunks|
  {
    if |chunks| > 0 {
      var c, rest := chunks[0], chunks[1..];
      var s := OrthologChunk(db, c, Records(fetch, Ko, c));
      OrthologStageKeys(fetch, s.db, rest);
      assert OrthologStage(fetch, db, chunks).db == OrthologStage(fetch, s.db, rest).db;
      SafeAppend(c, Chunking.Flatten(rest));
      KeysStep(db.orthologs.Keys, s.db.orthologs.Keys, OrthologStage(fetch, s.db, rest).db.orthologs.Keys,
               Safe(c), Safe(Chunking.Flatten(rest)), Safe(Chunking.Flatten(chunks)));
    }
  }

  /** The ortholog stage keeps every ortholog-reaction link, and the links
      it adds hold sanitised reaction IDs. */
  lemma {:induction false} OrthologStageLinks(fetch: Fetch, db: Db, chunks: seq<seq<string>>)
    ensures db.orthologReactions <= OrthologStage(fetch, db, chunks).db.orthologReactions
    ensures forall l :: l in OrthologStage(fetch, db, chunks).db.orthologReactions && l !in db.orthologReactions ==> IsSqlSafe(l.1)
    decreases |chunks|
  {
    if |chunks| > 0 {
      var c, rest := chunks[0], chunks[1..];
      var s := OrthologChunk(db, c, Records(fetch, Ko, c));
      OrthologStageLinks(fetch, s.db, rest);
      assert OrthologStage(fetch, db, chunks).db == OrthologStage(fetch, s.db, rest).db;
    }
  }

  // ---------------------------------------------------------------------------
  // Reactions (`rn`)

  /** The `reaction` rows of a chunk; `direction` is left NULL, so a replaced
      row loses the direction it had. */
  function ReactionRows(chunk: seq<string>, recs: seq<Record>): (rows: seq<(string, Reaction)>)
    requires |recs| == |chunk|
    ensures BatchKeys(rows) == Safe(chunk)
  {
    var rows := seq(|chunk|, i requires 0 <= i < |chunk| =>
      (SqlSafeString(chunk[i]), Reaction(SqlSafeString(FirstOr(recs[i], "DEFINITION")),
                                          SqlSafeString(FirstOr(recs[i], "EQUATION")),
                                          SqlSafeString(FirstOr(recs[i], "ENZYME")), None)));
    SafeKeys(rows, chunk);
    rows
  }

  /** `rxn_pathway`: the first token of every PATHWAY line of every reaction
      of the chunk, as sanitised (pathway, reaction) links. */
  function ChunkPathwayLinks(chunk: seq<string>, recs: seq<Record>): (r: set<Link>)
    requires |recs| == |chunk|
    ensures forall l :: l in r ==> IsSqlSafe(l.0) && IsSqlSafe(l.1)
  {
    SqlSafeOutputs();
    set i, p | 0 <= i < |chunk| && p in Field(recs[i], "PATHWAY") :: (SqlSafeString(Links.PathwayId(p)), SqlSafeString(chunk[i]))
  }

  /** The keys of a reaction's `reaction_compound` rows name compound IDs. */
  lemma ParticipantKeys(reaction: string, p: Equation.Parsed)
    requires forall j :: 0 <= j < |p.left| ==> Equation.IsCompoundId(p.left[j].compound)
    requires forall j :: 0 <= j < |p.right| ==> Equation.IsCompoundId(p.right[j].compound)
    ensures forall key :: key in BatchKeys(ParticipantRows(reaction, p)) ==> Equation.IsCompoundId(key.1)
  {
    var rows := ParticipantRows(reaction, p);
    var n := |p.left|;
    forall i | 0 <= i < |rows| ensures Equation.IsCompoundId(rows[i].0.1) {
      if i < n {
        CompoundIdIsSafe(p.left[i].compound);
      } else {
        var j := i - n;
        assert rows[i] == rows[n + j];
        CompoundIdIsSafe(p.right[j].compound);
      }
    }
  }

  /** The first pass over a reaction as written: a reaction without an
      EQUATION is only logged, and then the empty list of the `defaultdict` is
      indexed, which fails. */
  function EquationAsWritten(id: string, rec: Record): (r: Result<string, CrawlError>)
    requires NoEmptyField(rec)
    ensures r.Failure? <==> Some("EQUATION") !in rec
    ensures r.Failure? ==> r.error == MissingEquation(id)
    ensures r.Success? ==> r.value == rec[Some("EQUATION")][0]
  {
    var equation := Field(rec, "EQUATION");
    if |equation| == 0 then Failure(MissingEquation(id)) else Success(equation[0])
  }

  /** The equation of a reaction, or nothing when it has no EQUATION: the
      reaction is then skipped, as the second pass does with `continue`. */
  function EquationOf(rec: Record): (r: Option<string>)
    requires NoEmptyField(rec)
    ensures r.None? <==> Some("EQUATION") !in rec
    ensures r.Some? ==> r.value == rec[Some("EQUATION")][0]
  {
    var equation := Field(rec, "EQUATION");
    if |equation| == 0 then None else Some(equation[0])
  }

  /** A reaction record the equation loop gets through: it has no EQUATION,
      or the first line of its EQUATION parses. */
  predicate EquationParses(rec: Record)
    requires NoEmptyField(rec)
  {
    Some("EQUATION") !in rec || Equation.ParseEquation(rec[Some("EQUATION")][0]).Success?
  }

  /** Every reaction record from position `k` on gets through the equation loop. */
  predicate AllParseFrom(recs: seq<Record>, k: nat)
    requires forall i :: 0 <= i < |recs| ==> NoEmptyField(recs[i])
    decreases |recs| - k
  {
    k >= |recs| || (EquationParses(recs[k]) && AllParseFrom(recs, k + 1))
  }

  lemma {:induction false} AllParseFromSpec(recs: seq<Record>, k: nat)
    requires forall i :: 0 <= i < |recs| ==> NoEmptyField(recs[i])
    ensures AllParseFrom(recs, k) <==> forall i :: k <= i < |recs| ==> EquationParses(recs[i])
    decreases |recs| - k
  {
    if k < |recs| {
      AllParseFromSpec(recs, k + 1);
    }
  }

  /** The equation loop over the reactions of a chunk from position `k` on.
      A reaction without an EQUATION is skipped; any other reaction sets its direction, writes its compounds, and, in the first
      pass, writes the pathway links of the whole chunk. */
  function EquationLoop(chunk: seq<string>, recs: seq<Record>, k: nat, linkPathways: bool, db: Db, found: set<string>)
    : (r: Result<(Db, set<string>), CrawlError>)
    requires |recs| == |chunk| && k <= |chunk|
    requires forall i :: 0 <= i < |recs| ==> NoEmptyField(recs[i])
    ensures r.Success? ==> r.value.0 == db.(reactions := r.value.0.reactions,
                                            reactionCompounds := r.value.0.reactionCompounds,
                                            pathwayReactions := r.value.0.pathwayReactions)
    ensures r.Success? ==> r.value.0.reactions.Keys == db.reactions.Keys
    ensures r.Success? ==> db.reactionCompounds.Keys <= r.value.0.reactionCompounds.Keys
    ensures r.Success? ==> forall key :: key in r.value.0.reactionCompounds && key !in db.reactionCompounds ==>
      Equation.IsCompoundId(key.1)
    ensures r.Success? ==> db.pathwayReactions <= r.value.0.pathwayReactions
    ensures r.Success? ==> forall l :: l in r.value.0.pathwayReactions && l !in db.pathwayReactions ==>
      IsSqlSafe(l.0) && IsSqlSafe(l.1)
    ensures r.Success? && !linkPathways ==> r.value.0.pathwayReactions == db.pathwayReactions && r.value.1 == found
    ensures r.Success? <==> AllParseFrom(recs, k)
    ensures r.Failure? ==> r.error.BadEquation? && r.error.reaction in chunk[k..]
    decreases |chunk| - k
  {
    if k == |chunk| then Success((db, found))
    else
      match EquationOf(recs[k])
      case None => EquationLoop(chunk, recs, k + 1, linkPathways, db, found)
      case Some(equation) =>
        match Equation.ParseEquation(equation)
        case Failure(err) => Failure(BadEquation(chunk[k], err))
        case Success(p) =>
          var s := ReactionStep(chunk, recs, chunk[k], p, linkPathways, db, found);
          EquationLoop(chunk, recs, k + 1, linkPathways, s.0, s.1)
  }

  /** One reaction with a parsed equation: its direction, its
      `reaction_compound` rows, and in the first pass the pathway links of
      the whole chunk with the pathways they name. */
  function ReactionStep(chunk: seq<string>, recs: seq<Record>, id: string, p: Equation.Parsed, linkPathways: bool, db: Db, found: set<string>)
    : (r: (Db, set<string>))
    requires |recs| == |chunk|
    requires forall j :: 0 <= j < |p.left| ==> Equation.IsCompoundId(p.left[j].compound)
    requires forall j :: 0 <= j < |p.right| ==> Equation.IsCompoundId(p.right[j].compound)
    ensures r.0 == db.(reactions := r.0.reactions, reactionCompounds := r.0.reactionCompounds,
                       pathwayReactions := r.0.pathwayReactions)
    ensures r.0.reactions.Keys == db.reactions.Keys
    ensures db.reactionCompounds.Keys <= r.0.reactionCompounds.Keys
    ensures forall key :: key in r.0.reactionCompounds && key !in db.reactionCompounds ==> Equation.IsCompoundId(key.1)
    ensures db.pathwayReactions <= r.0.pathwayReactions
    ensures forall l :: l in r.0.pathwayReactions && l !in db.pathwayReactions ==> IsSqlSafe(l.0) && IsSqlSafe(l.1)
    ensures !linkPathways ==> r.0.pathwayReactions == db.pathwayReactions && r.1 == found
  {
    var rows := ParticipantRows(id, p);
    UpsertKeys(db.reactionCompounds, rows);
    ParticipantKeys(id, p);
    var db1 := db.(reactions := SetDirection(db.reactions, id, p.direction),
                   reactionCompounds := Upsert(db.reactionCompounds, rows));
    if linkPathways then
      var links := ChunkPathwayLinks(chunk, recs);
      (db1.(pathwayReactions := db1.pathwayReactions + links), found + Firsts(links))
    else
      (db1, found)
  }

  /** A reaction record without an EQUATION: the first pass as written fails
      on it, while the loop of the model skips it and changes nothing. */
  lemma MissingEquationSkipped(db: Db)
    ensures EquationAsWritten("R00001", map[Some("ENTRY") := ["R00001"]]) == Failure(MissingEquation("R00001"))
    ensures EquationLoop(["R00001"], [map[Some("ENTRY") := ["R00001"]]], 0, true, db, {}) == Success((db, {}))
  {
    var rec: Record := map[Some("ENTRY") := ["R00001"]];
    assert Some("EQUATION") !in rec;
    assert EquationOf(rec) == None;
  }

  /** One chunk of reactions: the rows first, then the equation loop. */
  function ReactionChunk(db: Db, chunk: seq<string>, recs: seq<Record>, linkPathways: bool, found: set<string>)
    : (r: Result<(Db, set<string>), CrawlError>)
    requires |recs| == |chunk|
    requires forall i :: 0 <= i < |recs| ==> NoEmptyField(recs[i])
    ensures r.Success? ==> r.value.0 == db.(reactions := r.value.0.reactions,
                                            reactionCompounds := r.value.0.reactionCompounds,
                                            pathwayReactions := r.value.0.pathwayReactions)
    ensures r.Success? ==> r.value.0.reactions.Keys == db.reactions.Keys + Safe(chunk)
    ensures r.Success? ==> db.reactionCompounds.Keys <= r.value.0.reactionCompounds.Keys
    ensures r.Success? ==> forall key :: key in r.value.0.reactionCompounds && key !in db.reactionCompounds ==>
      Equation.IsCompoundId(key.1)
    ensures r.Success? ==> db.pathwayReactions <= r.value.0.pathwayReactions
    ensures r.Success? ==> forall l :: l in r.value.0.pathwayReactions && l !in db.pathwayReactions ==>
      IsSqlSafe(l.0) && IsSqlSafe(l.1)
    ensures r.Success? && !linkPathways ==> r.value.0.pathwayReactions == db.pathwayReactions && r.value.1 == found
    ensures r.Success? <==> AllParseFrom(recs, 0)
    ensures r.Failure? ==> r.error.BadEquation? && r.error.reaction in chunk
  {
    var rows := ReactionRows(chunk, recs);
    UpsertKeys(db.reactions, rows);
    EquationLoop(chunk, recs, 0, linkPathways, db.(reactions := Upsert(db.reactions, rows)), found)
  }

  /** A reaction stage over all chunks; `linkPathways` is true for the first
      pass only, and `found` gathers the pathway IDs it links. */
  function ReactionStage(fetch: Fetch, db: Db, chunks: seq<seq<string>>, linkPathways: bool, found: set<string>)
    : (r: Result<Step, CrawlError>)
    ensures r.Success? ==> r.value.db == db.(reactions := r.value.db.reactions,
                                             reactionCompounds := r.value.db.reactionCompounds,
                                             pathwayReactions := r.value.db.pathwayReactions)
    ensures r.Success? ==> r.value.db.reactions.Keys == db.reactions.Keys + Safe(Chunking.Flatten(chunks))
    ensures r.Success? ==> db.reactionCompounds.Keys <= r.value.db.reactionCompounds.Keys
    ensures r.Success? ==> forall key :: key in r.value.db.reactionCompounds && key !in db.reactionCompounds ==>
      Equation.IsCompoundId(key.1)
    ensures r.Success? ==> db.pathwayReactions <= r.value.db.pathwayReactions
    ensures r.Success? ==> forall l :: l in r.value.db.pathwayReactions && l !in db.pathwayReactions ==>
      IsSqlSafe(l.0) && IsSqlSafe(l.1)
    ensures r.Success? && !linkPathways ==> r.value.db.pathwayReactions == db.pathwayReactions
    ensures r.Success? ==> r.value.log == Requests(Rn, Chunking.Flatten(chunks))
    ensures r.Success? <==> AllChunksParse(fetch, chunks)
    ensures r.Failure? ==> r.error.BadEquation? && r.error.reaction in Chunking.Flatten(chunks)
    decreases |chunks|
  {
    if |chunks| == 0 then Success(Step(db, found, []))
    else
      var c :- ReactionChunk(db, chunks[0], Records(fetch, Rn, chunks[0]), linkPathways, found);
      var t :- ReactionStage(fetch, c.0, chunks[1..], linkPathways, c.1);
      RequestsAppend(Rn, chunks[0], Chunking.Flatten(chunks[1..]));
      SafeAppend(chunks[0], Chunking.Flatten(chunks[1..]));
      Success(Step(t.db, t.found, Requests(Rn, chunks[0]) + t.log))
  }

  /** The reaction `id` as fetched gets through the equation loop. */
  predicate ReactionParses(fetch: Fetch, id: string) {
    EquationParses(fetch(Rn, id))
  }

  /** Every chunk's records get through the equation loop. */
  predicate AllChunksParse(fetch: Fetch, chunks: seq<seq<string>>)
    decreases |chunks|
  {
    |chunks| == 0 || (AllParseFrom(Records(fetch, Rn, chunks[0]), 0) && AllChunksParse(fetch, chunks[1..]))
  }

  /** The records of a chunk all get through the loop exactly when its IDs do. */
  lemma ChunkParses(fetch: Fetch, chunk: seq<string>)
    ensures AllParseFrom(Records(fetch, Rn, chunk), 0) <==> forall id :: id in chunk ==> ReactionParses(fetch, id)
  {
    var recs := Records(fetch, Rn, chunk);
    AllParseFromSpec(recs, 0);
    if forall i :: 0 <= i < |chunk| ==> EquationParses(recs[i]) {
      forall id | id in chunk ensures ReactionParses(fetch, id) {
        var i :| 0 <= i < |chunk| && chunk[i] == id;
      }
    }
    if forall id :: id in chunk ==> ReactionParses(fetch, id) {
      forall i | 0 <= i < |chunk| ensures EquationParses(recs[i]) {
        assert chunk[i] in chunk;
      }
    }
  }

  /** All chunks get through exactly when every reaction they name does. */
  lemma {:induction false} AllChunksParseSpec(fetch: Fetch, chunks: seq<seq<string>>)
    ensures AllChunksParse(fetch, chunks) <==> forall id :: id in Chunking.Flatten(chunks) ==> ReactionParses(fetch, id)
    decreases |chunks|
  {
    if |chunks| > 0 {
      ChunkParses(fetch, chunks[0]);
      AllChunksParseSpec(fetch, chunks[1..]);
    }
  }

  /** A reaction stage fails exactly when one of the reactions it fetches has
      an EQUATION that does not parse. */
  lemma ReactionStageSucceeds(fetch: Fetch, db: Db, chunks: seq<seq<string>>, linkPathways: bool, found: set<string>)
    ensures ReactionStage(fetch, db, chunks, linkPathways, found).Success? <==>
      forall id :: id in Chunking.Flatten(chunks) ==> ReactionParses(fetch, id)
  {
    AllChunksParseSpec(fetch, chunks);
  }

  // ---------------------------------------------------------------------------
  // Pathways (`path`)

  function PathwayRows(chunk: seq<string>, recs: seq<Record>): (rows: seq<(string, Pathway)>)
    requires |recs| == |chunk|
    ensures BatchKeys(rows) == Safe(chunk)
  {
    var rows := seq(|chunk|, i requires 0 <= i < |chunk| =>
      (SqlSafeString(chunk[i]), Pathway(SqlSafeString(FirstOr(recs[i], "NAME")),
                                         SqlSafeString(FirstOr(recs[i], "CLASS")),
                                         SqlSafeString(FirstOr(recs[i], "DESCRIPTION")))));
    SafeKeys(rows, chunk);
    rows
  }

  /** The (record, ID) links of a chunk read from one field with `read`, both sides sanitised. */
  function FieldLinks(chunk: seq<string>, recs: seq<Record>, name: string, read: string -> seq<string>): (r: set<Link>)
    requires |recs| == |chunk|
    ensures forall l :: l in r ==> l.0 in Safe(chunk) && IsSqlSafe(l.0) && IsSqlSafe(l.1)
  {
    SqlSafeOutputs();
    set i, line, x | 0 <= i < |chunk| && line in Field(recs[i], name) && x in read(line) :: (SqlSafeString(chunk[i]), SqlSafeString(x))
  }

  /** The single ID a COMPOUND or MODULE line starts with. */
  function LeadingIdOnly(line: string): seq<string> {
    [Links.LeadingId(line)]
  }

  /** One chunk of pathways: rows, pathway-reaction links from REACTION lines,
      pathway-compound links from COMPOUND lines, and pathway-module links
      from MODULE lines. */
  function PathwayChunk(db: Db, chunk: seq<string>, recs: seq<Record>): (r: Db)
    requires |recs| == |chunk|
    ensures r == db.(pathways := r.pathways, pathwayReactions := r.pathwayReactions,
                     pathwayCompounds := r.pathwayCompounds, modulePathways := r.modulePathways)
    ensures r.pathways.Keys == db.pathways.Keys + Safe(chunk)
    ensures db.pathwayReactions <= r.pathwayReactions && db.modulePathways <= r.modulePathways
    ensures forall l :: l in r.pathwayReactions && l !in db.pathwayReactions ==>
      l.0 in r.pathways && IsSqlSafe(l.0) && IsSqlSafe(l.1)
    ensures forall l :: l in r.modulePathways && l !in db.modulePathways ==> IsSqlSafe(l.1)
  {
    var rows := PathwayRows(chunk, recs);
    UpsertKeys(db.pathways, rows);
    db.(pathways := Upsert(db.pathways, rows),
        pathwayReactions := db.pathwayReactions + FieldLinks(chunk, recs, "REACTION", Links.ReactionIds),
        pathwayCompounds := db.pathwayCompounds + FieldLinks(chunk, recs, "COMPOUND", LeadingIdOnly),
        modulePathways := db.modulePathways + FieldLinks(chunk, recs, "MODULE", LeadingIdOnly))
  }

  /** The pathway stage over all chunks. */
  function PathwayStage(fetch: Fetch, db: Db, chunks: seq<seq<string>>): (r: Step)
    ensures r.db == db.(pathways := r.db.pathways, pathwayReactions := r.db.pathwayReactions,
                        pathwayCompounds := r.db.pathwayCompounds, modulePathways := r.db.modulePathways)
    ensures r.log == Requests(Path, Chunking.Flatten(chunks))
    decreases |chunks|
  {
    if |chunks| == 0 then Step(db, {}, [])
    else
      var db1 := PathwayChunk(db, chunks[0], Records(fetch, Path, chunks[0]));
      var t := PathwayStage(fetch, db1, chunks[1..]);
      RequestsAppend(Path, chunks[0], Chunking.Flatten(chunks[1..]));
      Step(t.db, {}, Requests(Path, chunks[0]) + t.log)
  }

  /** The pathway stage stores exactly the sanitised IDs it requested as new keys. */
  lemma {:induction false} PathwayStageKeys(fetch: Fetch, db: Db, chunks: seq<seq<string>>)
    ensures PathwayStage(fetch, db, chunks).db.pathways.Keys == db.pathways.Keys + Safe(Chunking.Flatten(chunks))
    decreases |chunks|
  {
    if |chunks| > 0 {
      var c, rest := chunks[0], chunks[1..];
      var db1 := PathwayChunk(db, c, Records(fetch, Path, c));
      PathwayStageKeys(fetch, db1, rest);
      assert PathwayStage(fetch, db, chunks).db == PathwayStage(fetch, db1, rest).db;
      SafeAppend(c, Chunking.Flatten(rest));
      KeysStep(db.pathways.Keys, db1.pathways.Keys, PathwayStage(fetch, db1, rest).db.pathways.Keys,
               Safe(c), Safe(Chunking.Flatten(rest)), Safe(Chunking.Flatten(chunks)));
    }
  }

  /** The pathway stage keeps every pathway-reaction and module-pathway
      link. Every pathway-reaction link it adds starts at a stored pathway,
      and every link it adds is sanitised. */
  lemma {:induction false} PathwayStageLinks(fetch: Fetch, db: Db, chunks: seq<seq<string>>)
    ensures db.pathwayReactions <= PathwayStage(fetch, db, chunks).db.pathwayReactions
    ensures db.modulePathways <= PathwayStage(fetch, db, chunks).db.modulePathways
    ensures forall l :: l in PathwayStage(fetch, db, chunks).db.pathwayReactions && l !in db.pathwayReactions ==>
      l.0 in PathwayStage(fetch, db, chunks).db.pathways && IsSqlSafe(l.0) && IsSqlSafe(l.1)
    ensures forall l :: l in PathwayStage(fetch, db, chunks).db.modulePathways && l !in db.modulePathways ==> IsSqlSafe(l.1)
    decreases |chunks|
  {
    if |chunks| > 0 {
      var c, rest := chunks[0], chunks[1..];
      var db1 := PathwayChunk(db, c, Records(fetch, Path, c));
      PathwayStageLinks(fetch, db1, rest);
      PathwayStageKeys(fetch, db1, rest);
      var r := PathwayStage(fetch, db1, rest).db;
      assert PathwayStage(fetch, db, chunks).db == r;
      assert db1.pathways.Keys <= r.pathways.Keys;
    }
  }

  // ---------------------------------------------------------------------------
  // Modules (`md`)

  function ModuleRows(chunk: seq<string>, recs: seq<Record>): (rows: seq<(string, KeggModule)>)
    requires |recs| == |chunk|
    ensures BatchKeys(rows) == Safe(chunk)
  {
    var rows := seq(|chunk|, i requires 0 <= i < |chunk| =>
      (SqlSafeString(chunk[i]), KeggModule(SqlSafeString(FirstOr(recs[i], "NAME")), SqlSafeString(FirstOr(recs[i], "CLASS")))));
    SafeKeys(rows, chunk);
    rows
  }

  /** One chunk of modules: rows, module-compound links from COMPOUND lines
      and module-reaction links from REACTION lines. */
  function ModuleChunk(db: Db, chunk: seq<string>, recs: seq<Record>): (r: Db)
    requires |recs| == |chunk|
    ensures r == db.(modules := r.modules, moduleCompounds := r.moduleCompounds, moduleReactions := r.moduleReactions)
    ensures r.modules.Keys == db.modules.Keys + Safe(chunk)
    ensures db.moduleReactions <= r.moduleReactions
    ensures forall l :: l in r.moduleReactions && l !in db.moduleReactions ==> IsSqlSafe(l.1)
  {
    var rows := ModuleRows(chunk, recs);
    UpsertKeys(db.modules, rows);
    db.(modules := Upsert(db.modules, rows),
        moduleCompounds := db.moduleCompounds + FieldLinks(chunk, recs, "COMPOUND", LeadingIdOnly),
        moduleReactions := db.moduleReactions + FieldLinks(chunk, recs, "REACTION", Links.ReactionIds))
  }

  /** The module stage over all chunks. */
  function ModuleStage(fetch: Fetch, db: Db, chunks: seq<seq<string>>): (r: Step)
    ensures r.db == db.(modules := r.db.modules, moduleCompounds := r.db.moduleCompounds, moduleReactions := r.db.moduleReactions)
    ensures r.log == Requests(Md, Chunking.Flatten(chunks))
    decreases |chunks|
  {
    if |chunks| == 0 then Step(db, {}, [])
    else
      var db1 := ModuleChunk(db, chunks[0], Records(fetch, Md, chunks[0]));
      var t := ModuleStage(fetch, db1, chunks[1..]);
      RequestsAppend(Md, chunks[0], Chunking.Flatten(chunks[1..]));
      Step(t.db, {}, Requests(Md, chunks[0]) + t.log)
  }

  /** The module stage stores exactly the sanitised IDs it requested as new keys. */
  lemma {:induction false} ModuleStageKeys(fetch: Fetch, db: Db, chunks: seq<seq<string>>)
    ensures ModuleStage(fetch, db, chunks).db.modules.Keys == db.modules.Keys + Safe(Chunking.Flatten(chunks))
    decreases |chunks|
  {
    if |chunks| > 0 {
      var c, rest := chunks[0], chunks[1..];
      var db1 := ModuleChunk(db, c, Records(fetch, Md, c));
      ModuleStageKeys(fetch, db1, rest);
      assert ModuleStage(fetch, db, chunks).db == ModuleStage(fetch, db1, rest).db;
      SafeAppend(c, Chunking.Flatten(rest));
      KeysStep(db.modules.Keys, db1.modules.Keys, ModuleStage(fetch, db1, rest).db.modules.Keys,
               Safe(c), Safe(Chunking.Flatten(rest)), Safe(Chunking.Flatten(chunks)));
    }
  }

  /** The module stage keeps every module-reaction link, and the links it
      adds hold sanitised reaction IDs. */
  lemma {:induction false} ModuleStageLinks(fetch: Fetch, db: Db, chunks: seq<seq<string>>)
    ensures db.moduleReactions <= ModuleStage(fetch, db, chunks).db.moduleReactions
    ensures forall l :: l in ModuleStage(fetch, db, chunks).db.moduleReactions && l !in db.moduleReactions ==> IsSqlSafe(l.1)
    decreases |chunks|
  {
    if |chunks| > 0 {
      var c, rest := chunks[0], chunks[1..];
      var db1 := ModuleChunk(db, c, Records(fetch, Md, c));
      ModuleStageLinks(fetch, db1, rest);
      assert ModuleStage(fetch, db, chunks).db == ModuleStage(fetch, db1, rest).db;
    }
  }

  // ---------------------------------------------------------------------------
  // Compounds (`cpd`) and glycans (`gl`)

  /** The `compound` rows of a chunk, keyed by the ID as it is (not
      sanitised), holding the first line of `formula` (FORMULA for compounds,
      COMPOSITION for glycans). */
  function CompoundRows(chunk: seq<string>, recs: seq<Record>, formula: string): (rows: seq<(string, string)>)
    requires |recs| == |chunk|
    ensures BatchKeys(rows) == Ids(chunk)
  {
    var rows := seq(|chunk|, i requires 0 <= i < |chunk| => (chunk[i], FirstOr(recs[i], formula)));
    assert forall i :: 0 <= i < |chunk| ==> rows[i].0 == chunk[i];
    rows
  }

  /** The `compound_name` rows of a chunk: every NAME line with `;` removed. */
  function CompoundNames(chunk: seq<string>, recs: seq<Record>): set<Link>
    requires |recs| == |chunk|
  {
    set i, name | 0 <= i < |chunk| && name in Field(recs[i], "NAME") :: (chunk[i], RemoveChar(name, ';'))
  }

  function CompoundChunk(db: Db, chunk: seq<string>, recs: seq<Record>, formula: string): (r: Db)
    requires |recs| == |chunk|
    ensures r == db.(compounds := r.compounds, compoundNames := r.compoundNames)
    ensures r.compounds.Keys == db.compounds.Keys + Ids(chunk)
  {
    var rows := CompoundRows(chunk, recs, formula);
    UpsertKeys(db.compounds, rows);
    db.(compounds := Upsert(db.compounds, rows), compoundNames := db.compoundNames + CompoundNames(chunk, recs))
  }

  /** The compound or glycan stage over all chunks. */
  function CompoundStage(fetch: Fetch, t: DataType, formula: string, db: Db, chunks: seq<seq<string>>): (r: Step)
    ensures r.db == db.(compounds := r.db.compounds, compoundNames := r.db.compoundNames)
    ensures r.db.compounds.Keys == db.compounds.Keys + Ids(Chunking.Flatten(chunks))
    ensures r.log == Requests(t, Chunking.Flatten(chunks))
    decreases |chunks|
  {
    if |chunks| == 0 then Step(db, {}, [])
    else
      var db1 := CompoundChunk(db, chunks[0], Records(fetch, t, chunks[0]), formula);
      var s := CompoundStage(fetch, t, formula, db1, chunks[1..]);
      RequestsAppend(t, chunks[0], Chunking.Flatten(chunks[1..]));
      IdsAppend(chunks[0], Chunking.Flatten(chunks[1..]));
      Step(s.db, {}, Requests(t, chunks[0]) + s.log)
  }
}

=== FILE: eggnog_annot.dfy ===
/** Grouping genes by annotation (make_eggnog_abundance_dataframe.py,
    `read_eggnog_annot` over the line filter of `parse_gzipped_tsv`): every
    data line of the eggNOG-mapper output names a gene in its first column, and
    the gene is filed under each non-empty annotation of the chosen column. */
module EggnogAnnot {
  import opened Wrappers
  import opened Text

  /** The annotation the genes are grouped by. */
  datatype AnnotField = EggNog | Ko | Go {

    /** The tab-separated column the annotation is read from. */
    function Column(): nat {
      match this
      case EggNog => 1
      case Go => 5
      case Ko => 6
    }

    /** The command-line spelling of the field. */
    function Name(): string {
      match this
      case EggNog => "eggNOG"
      case Ko => "KO"
      case Go => "GO"
    }
  }

  datatype AnnotError =
    | UnknownField(name: string)            // the assertion on the field name fails
    | ShortLine(line: string, column: nat)  // `line[column]` raises IndexError

  /** Annotation to the set of genes filed under it. */
  type Index = map<string, set<string>>

  /** The field named on the command line; any other name is an error. */
  function ParseField(name: string): (r: Result<AnnotField, AnnotError>)
    ensures r.Success? <==> name == "eggNOG" || name == "KO" || name == "GO"
    ensures r.Success? ==> r.value.Name() == name
    ensures r.Failure? ==> r.error == UnknownField(name)
  {
    if name == "eggNOG" then Success(EggNog)
    else if name == "KO" then Success(Ko)
    else if name == "GO" then Success(Go)
    else Failure(UnknownField(name))
  }

  /** A line `parse_gzipped_tsv` yields: not empty and not a `#` comment. */
  predicate IsDataLine(line: string) {
    |line| > 0 && line[0] != '#'
  }

  /** The data lines, in order. */
  function DataLines(lines: seq<string>): (r: seq<string>)
    ensures forall x :: x in r <==> x in lines && IsDataLine(x)
    ensures |r| <= |lines|
    decreases |lines|
  {
    if |lines| == 0 then []
    else
      var rest := DataLines(lines[..|lines| - 1]);
      var last := lines[|lines| - 1];
      assert lines == lines[..|lines| - 1] + [last];
      if IsDataLine(last) then rest + [last] else rest
  }

  /** One line is kept exactly when it is a data line. */
  lemma DataLinesOne(x: string)
    ensures DataLines([x]) == if IsDataLine(x) then [x] else []
  {
    assert [x][..0] == [];
  }

  /** The filter keeps file order: the data lines of two stretches of a file
      are those of the first followed by those of the second. */
  lemma {:induction false} DataLinesAppend(a: seq<string>, b: seq<string>)
    ensures DataLines(a + b) == DataLines(a) + DataLines(b)
    decreases |b|
  {
    if |b| == 0 {
      assert a + b == a;
    } else {
      var init := b[..|b| - 1];
      var x := b[|b| - 1];
      var s := a + b;
      assert s[..|s| - 1] == a + init;
      assert s[|s| - 1] == x;
      assert b[..|b| - 1] == init;
      DataLinesAppend(a, init);
    }
  }

  /** `line.split("\t")`. */
  function Columns(line: string): seq<string> {
    Split(line, "\t")
  }

  /** The annotations of a line: the comma-separated entries of the KO or GO
      column, or the single eggNOG column. */
  function Annotations(f: AnnotField, cols: seq<string>): seq<string>
    requires |cols| > f.Column()
  {
    match f
    case Ko => Split(cols[6], ",")
    case Go => Split(cols[5], ",")
    case EggNog => [cols[1]]
  }

  /** `eggnog_annot[a]` of a `defaultdict(set)`. */
  function Lookup(idx: Index, a: string): set<string> {
    if a in idx then idx[a] else {}
  }

  /** Files `gene` under every non-empty annotation of `annots`. */
  function Add(idx: Index, gene: string, annots: seq<string>): Index
    decreases |annots|
  {
    if |annots| == 0 then idx
    else
      var idx' := Add(idx, gene, annots[..|annots| - 1]);
      var a := annots[|annots| - 1];
      if |a| > 0 then idx'[a := Lookup(idx', a) + {gene}] else idx'
  }

  /** Line by line, in file order; the first line too short for the column
      ends the run. */
  function Group(f: AnnotField, lines: seq<string>): Result<Index, AnnotError>
    decreases |lines|
  {
    if |lines| == 0 then Success(map[])
    else
      var idx :- Group(f, lines[..|lines| - 1]);
      var line := lines[|lines| - 1];
      var cols := Columns(line);
      if |cols| <= f.Column() then Failure(ShortLine(line, f.Column()))
      else Success(Add(idx, cols[0], Annotations(f, cols)))
  }

  /** `read_eggnog_annot(fp, field)` over the lines of the file. */
  function ReadEggnogAnnot(name: string, lines: seq<string>): (r: Result<Index, AnnotError>)
    ensures ParseField(name).Failure? ==> r == Failure(UnknownField(name))
  {
    var f :- ParseField(name);
    Group(f, DataLines(lines))
  }

  /** The line names `gene` first and lists `a` as a non-empty annotation. */
  predicate Files(f: AnnotField, line: string, a: string, gene: string) {
    var cols := Columns(line);
    |cols| > f.Column() && cols[0] == gene && |a| > 0 && a in Annotations(f, cols)
  }

  /** The line is too short for the column. */
  predicate Short(f: AnnotField, line: string) {
    |Columns(line)| <= f.Column()
  }

  /** Line `i` is the first line too short for the column. */
  predicate FirstShort(f: AnnotField, lines: seq<string>, i: int) {
    0 <= i < |lines| && Short(f, lines[i]) && forall j :: 0 <= j < i ==> !Short(f, lines[j])
  }

  lemma {:induction false} AddSpec(idx: Index, gene: string, annots: seq<string>, a: string, g: string)
    ensures g in Lookup(Add(idx, gene, annots), a) <==> g in Lookup(idx, a) || (g == gene && |a| > 0 && a in annots)
    decreases |annots|
  {
    if |annots| > 0 {
      var init := annots[..|annots| - 1];
      AddSpec(idx, gene, init, a, g);
      assert annots == init + [annots[|annots| - 1]];
    }
  }

  lemma {:induction false} AddKeys(idx: Index, gene: string, annots: seq<string>)
    requires forall a :: a in idx ==> |a| > 0 && idx[a] != {}
    ensures forall a :: a in Add(idx, gene, annots) ==> |a| > 0 && Add(idx, gene, annots)[a] != {}
    decreases |annots|
  {
    if |annots| > 0 {
      AddKeys(idx, gene, annots[..|annots| - 1]);
    }
  }

  /** The run fails exactly when some line is too short for the column, and
      then with the first such line. */
  lemma {:induction false} GroupFails(f: AnnotField, lines: seq<string>)
    ensures Group(f, lines).Success? ==> forall i :: 0 <= i < |lines| ==> !Short(f, lines[i])
    ensures Group(f, lines).Failure? ==>
      exists i :: FirstShort(f, lines, i) && Group(f, lines).error == ShortLine(lines[i], f.Column())
    decreases |lines|
  {
    if |lines| > 0 {
      var n := |lines| - 1;
      var init := lines[..n];
      GroupFails(f, init);
      assert forall j :: 0 <= j < n ==> init[j] == lines[j];
      if Group(f, init).Failure? {
        var i :| FirstShort(f, init, i) && Group(f, init).error == ShortLine(init[i], f.Column());
        assert Group(f, lines) == Failure(Group(f, init).error);
        assert FirstShort(f, lines, i);
      } else if Short(f, lines[n]) {
        assert Group(f, lines) == Failure(ShortLine(lines[n], f.Column()));
        assert FirstShort(f, lines, n);
      } else {
        assert Group(f, lines).Success?;
        assert forall i :: 0 <= i < n ==> !Short(f, lines[i]);
      }
    }
  }

  /** A gene is filed under an annotation exactly when some line names the
      gene and lists that annotation. */
  lemma {:induction false} GroupSpec(f: AnnotField, lines: seq<string>, a: string, g: string)
    requires Group(f, lines).Success?
    ensures g in Lookup(Group(f, lines).value, a) <==> exists i :: 0 <= i < |lines| && Files(f, lines[i], a, g)
    decreases |lines|
  {
    if |lines| > 0 {
      var init := lines[..|lines| - 1];
      var line := lines[|lines| - 1];
      var cols := Columns(line);
      assert Group(f, init).Success? && |cols| > f.Column();
      var idx := Group(f, init).value;
      assert Group(f, lines).value == Add(idx, cols[0], Annotations(f, cols));
      GroupSpec(f, init, a, g);
      AddSpec(idx, cols[0], Annotations(f, cols), a, g);
      assert forall j :: 0 <= j < |init| ==> init[j] == lines[j];
      assert lines == init + [line];
    }
  }

  /** No empty annotation is ever a key, and every key has at least one gene. */
  lemma {:induction false} GroupKeys(f: AnnotField, lines: seq<string>)
    requires Group(f, lines).Success?
    ensures forall a :: a in Group(f, lines).value ==> |a| > 0 && Group(f, lines).value[a] != {}
    decreases |lines|
  {
    if |lines| > 0 {
      var init := lines[..|lines| - 1];
      GroupKeys(f, init);
      var cols := Columns(lines[|lines| - 1]);
      AddKeys(Group(f, init).value, cols[0], Annotations(f, cols));
    }
  }

  /** Comment and empty lines change nothing: the whole reader files a gene
      under an annotation exactly when some data line says so. */
  lemma ReadEggnogAnnotSpec(name: string, lines: seq<string>, a: string, g: string)
    requires ReadEggnogAnnot(name, lines).Success?
    ensures g in Lookup(ReadEggnogAnnot(name, lines).value, a) <==>
      exists line :: line in lines && IsDataLine(line) && Files(ParseField(name).value, line, a, g)
    ensures a in ReadEggnogAnnot(name, lines).value ==> |a| > 0
  {
    var f := ParseField(name).value;
    var data := DataLines(lines);
    GroupSpec(f, data, a, g);
    GroupKeys(f, data);
    if exists line :: line in lines && IsDataLine(line) && Files(f, line, a, g) {
      var line :| line in lines && IsDataLine(line) && Files(f, line, a, g);
      assert line in data;
      var i :| 0 <= i < |data| && data[i] == line;
    }
  }

  /** Reading the same lines twice files nothing new: duplicated lines are harmless. */
  lemma GroupTwice(f: AnnotField, lines: seq<string>, a: string, g: string)
    requires Group(f, lines).Success?
    ensures Group(f, lines + lines).Success?
    ensures g in Lookup(Group(f, lines + lines).value, a) <==> g in Lookup(Group(f, lines).value, a)
  {
    var both := lines + lines;
    GroupFails(f, lines);
    GroupFails(f, both);
    forall i | 0 <= i < |both| ensures !Short(f, both[i]) {
      var j := if i < |lines| then i else i - |lines|;
      assert both[i] == lines[j];
    }
    GroupSpec(f, lines, a, g);
    GroupSpec(f, both, a, g);
    if exists i :: 0 <= i < |both| && Files(f, both[i], a, g) {
      var i :| 0 <= i < |both| && Files(f, both[i], a, g);
      var j := if i < |lines| then i else i - |lines|;
      assert both[i] == lines[j];
    }
    if exists i :: 0 <= i < |lines| && Files(f, lines[i], a, g) {
      var i :| 0 <= i < |lines| && Files(f, lines[i], a, g);
      assert both[i] == lines[i];
    }
  }

  /** Accumulation only adds: reading further lines never removes a gene from
      an annotation. */
  lemma GroupGrows(f: AnnotField, lines: seq<string>, more: seq<string>, a: string, g: string)
    requires Group(f, lines + more).Success?
    ensures Group(f, lines).Success?
    ensures g in Lookup(Group(f, lines).value, a) ==> g in Lookup(Group(f, lines + more).value, a)
  {
    var all := lines + more;
    GroupFails(f, lines);
    GroupFails(f, all);
    forall i | 0 <= i < |lines| ensures !Short(f, lines[i]) {
      assert all[i] == lines[i];
    }
    GroupSpec(f, lines, a, g);
    GroupSpec(f, all, a, g);
    if g in Lookup(Group(f, lines).value, a) {
      var i :| 0 <= i < |lines| && Files(f, lines[i], a, g);
      assert all[i] == lines[i];
    }
  }
}

=== FILE: equation.dfy ===
/** The reaction-equation parser of get_kegg_reaction_metadata.py: the EQUATION
    field `C00001 + 2 C00002 <=> C00003` is split at its one `=`, the characters
    next to the `=` give the direction, and each ` + `-separated term is searched
    for `(digits whitespace)? (C|G)digits`, the pattern compiled as `re_compound`. */
module Equation {
  import opened Wrappers
  import opened Text

  /** Reaction direction and the integer code the `reaction.direction` column holds. */
  datatype Direction = Reversible | BackwardOnly | ForwardOnly | Unknown {
    function Code(): int {
      match this
      case Reversible => 2
      case BackwardOnly => 1
      case ForwardOnly => 0
      case Unknown => -1
    }
  }

  /** One compound term: the compound (or glycan) ID and its stoichiometry. */
  datatype Term = Term(compound: string, stoichiometry: nat)

  datatype Parsed = Parsed(direction: Direction, left: seq<Term>, right: seq<Term>)

  /** Why the source's parsing code raises. */
  datatype EquationError =
    | NotOneSeparator(separators: nat)   // `e_L, e_R = e.split("=")` cannot unpack
    | EmptySide                          // `e_L[-1]` or `e_R[0]` on an empty side
    | NoCompound(term: string)           // `re_compound.search` found nothing: `m.group` on None

  /** The letter that starts a compound (`C`) or glycan (`G`) ID. */
  predicate IsTypeLetter(c: char) {
    c == 'C' || c == 'G'
  }

  /** `(C|G)\d+` matched in full. */
  predicate IsCompoundId(s: string) {
    |s| >= 2 && IsTypeLetter(s[0]) && forall i :: 1 <= i < |s| ==> IsDigit(s[i])
  }

  predicate AllDigits(s: string) {
    forall i :: 0 <= i < |s| ==> IsDigit(s[i])
  }

  /** Length of the longest run of digits starting at `p` (the greedy `\d+`). */
  function DigitRun(s: string, p: nat): (n: nat)
    requires p <= |s|
    ensures p + n <= |s|
    ensures forall i :: p <= i < p + n ==> IsDigit(s[i])
    ensures p + n == |s| || !IsDigit(s[p + n])
    decreases |s| - p
  {
    if p < |s| && IsDigit(s[p]) then 1 + DigitRun(s, p + 1) else 0
  }

  /** Length of the longest run of whitespace starting at `p` (the greedy `\s+`). */
  function SpaceRun(s: string, p: nat): (n: nat)
    requires p <= |s|
    ensures p + n <= |s|
    ensures forall i :: p <= i < p + n ==> IsSpace(s[i])
    ensures p + n == |s| || !IsSpace(s[p + n])
    decreases |s| - p
  {
    if p < |s| && IsSpace(s[p]) then 1 + SpaceRun(s, p + 1) else 0
  }

  /** The integer a digit string denotes (`int(ds)`, which is what the INT
      column makes of the stoichiometry text). */
  function DecimalValue(ds: string): nat
    requires AllDigits(ds)
  {
    if |ds| == 0 then 0
    else DecimalValue(ds[..|ds| - 1]) * 10 + (ds[|ds| - 1] as int - '0' as int)
  }

  /** The compound ID that starts at `q`, if a type letter and at least one digit are there. */
  function CompoundAt(t: string, q: nat): (r: Option<string>)
    requires q <= |t|
    ensures r.Some? ==> IsCompoundId(r.value) && q + |r.value| <= |t| && t[q..q + |r.value|] == r.value
  {
    if q < |t| && IsTypeLetter(t[q]) && DigitRun(t, q + 1) > 0 then
      Some(t[q..q + 1 + DigitRun(t, q + 1)])
    else None
  }

  /** The pattern anchored at `p`. The first alternative, digits then
      whitespace then a compound, is tried before the empty one; greedy runs
      need no backtracking because a shorter digit run would be followed by a
      digit and a shorter whitespace run by whitespace, neither of which can
      continue the pattern. */
  function MatchAt(t: string, p: nat): (r: Option<Term>)
    requires p <= |t|
    ensures r.Some? ==> IsCompoundId(r.value.compound)
  {
    var d := DigitRun(t, p);
    var w := SpaceRun(t, p + d);
    if d > 0 && w > 0 && CompoundAt(t, p + d + w).Some? then
      Some(Term(CompoundAt(t, p + d + w).value, DecimalValue(t[p..p + d])))
    else if CompoundAt(t, p).Some? then
      Some(Term(CompoundAt(t, p).value, 1))
    else None
  }

  /** `re_compound.search(t)` from position `p`: the match at the leftmost
      position where the pattern matches. */
  function SearchFrom(t: string, p: nat): (r: Option<Term>)
    requires p <= |t|
    ensures r.Some? ==> IsCompoundId(r.value.compound)
    decreases |t| - p
  {
    if MatchAt(t, p).Some? then MatchAt(t, p)
    else if p == |t| then None
    else SearchFrom(t, p + 1)
  }

  /** The search finds a match exactly when the pattern matches somewhere
      from `p` on, and then it is the match at the leftmost such position. */
  lemma {:induction false} SearchFromSpec(t: string, p: nat)
    requires p <= |t|
    ensures SearchFrom(t, p).Some? ==>
      exists q :: p <= q <= |t| && MatchAt(t, q) == SearchFrom(t, p) && NoMatchBetween(t, p, q)
    ensures SearchFrom(t, p).None? <==> NoMatchBetween(t, p, |t| + 1)
    decreases |t| - p
  {
    if MatchAt(t, p).Some? {
      assert NoMatchBetween(t, p, p);
    } else if p < |t| {
      SearchFromSpec(t, p + 1);
      var r := SearchFrom(t, p + 1);
      assert SearchFrom(t, p) == r;
      if r.Some? {
        var q :| p + 1 <= q <= |t| && MatchAt(t, q) == r && NoMatchBetween(t, p + 1, q);
        assert NoMatchBetween(t, p, q);
      }
    }
  }

  /** The pattern matches at no position in `[from, to)`. */
  predicate NoMatchBetween(t: string, from: nat, to: nat) {
    forall q :: from <= q < to && q <= |t| ==> MatchAt(t, q).None?
  }

  function Search(t: string): Option<Term> {
    SearchFrom(t, 0)
  }

  /** `re_compound.search(c.strip())` for one term, failing as `m.group` would. */
  function ParseTerm(term: string): (r: Result<Term, EquationError>)
    ensures r.Success? ==> IsCompoundId(r.value.compound)
    ensures r.Failure? ==> r.error == NoCompound(term)
  {
    match Search(Strip(term, IsSpace))
    case Some(m) => Success(m)
    case None => Failure(NoCompound(term))
  }

  /** The values of a list of results, failing with the first failure in it. */
  function Collect<T>(rs: seq<Result<T, EquationError>>): (r: Result<seq<T>, EquationError>)
    ensures r.Success? <==> forall k :: 0 <= k < |rs| ==> rs[k].Success?
    ensures r.Success? ==> |r.value| == |rs| && forall k :: 0 <= k < |rs| ==> rs[k] == Success(r.value[k])
    ensures r.Failure? ==> exists k :: 0 <= k < |rs| && rs[k] == Failure(r.error)
    decreases |rs|
  {
    if |rs| == 0 then Success([])
    else match rs[0]
      case Failure(e) => Failure(e)
      case Success(t) =>
        var rest := Collect(rs[1..]);
        assert forall k :: 0 < k < |rs| ==> rs[k] == rs[1..][k - 1];
        match rest
        case Failure(e) =>
          assert exists k :: 0 <= k < |rs| && rs[k] == Failure(e) by {
            var k :| 0 <= k < |rs[1..]| && rs[1..][k] == Failure(e);
            assert rs[k + 1] == Failure(e);
          }
          Failure(e)
        case Success(ts) => Success([t] + ts)
  }

  /** The terms of one side, in order, failing at the first that does not match. */
  function ParseTerms(pieces: seq<string>): Result<seq<Term>, EquationError> {
    Collect(seq(|pieces|, k requires 0 <= k < |pieces| => ParseTerm(pieces[k])))
  }

  /** Parsed terms name well-formed compound IDs. */
  lemma ParsedTermsWellFormed(pieces: seq<string>)
    requires ParseTerms(pieces).Success?
    ensures forall k :: 0 <= k < |ParseTerms(pieces).value| ==> IsCompoundId(ParseTerms(pieces).value[k].compound)
  {
    var rs := seq(|pieces|, k requires 0 <= k < |pieces| => ParseTerm(pieces[k]));
    assert ParseTerms(pieces) == Collect(rs);
    var ts := Collect(rs).value;
    forall k | 0 <= k < |ts| ensures IsCompoundId(ts[k].compound) {
      assert rs[k] == ParseTerm(pieces[k]);
      assert ParseTerm(pieces[k]) == Success(ts[k]);
    }
  }

  /** `[re_compound.search(c.strip()) for c in side.split(' + ')]`. */
  function ParseSide(side: string): Result<seq<Term>, EquationError> {
    ParseTerms(Split(side, " + "))
  }

  /** The characters next to the `=` decide the direction: `<` before and `>`
      after is reversible, `<` alone backward, `>` alone forward, neither unknown. */
  function Classify(eL: string, eR: string): (d: Direction)
    requires |eL| > 0 && |eR| > 0
    ensures d == Reversible <==> eL[|eL| - 1] == '<' && eR[0] == '>'
    ensures d == BackwardOnly <==> eL[|eL| - 1] == '<' && eR[0] != '>'
    ensures d == ForwardOnly <==> eL[|eL| - 1] != '<' && eR[0] == '>'
    ensures d == Unknown <==> eL[|eL| - 1] != '<' && eR[0] != '>'
  {
    if eL[|eL| - 1] == '<' && eR[0] == '>' then Reversible
    else if eL[|eL| - 1] == '<' then BackwardOnly
    else if eR[0] == '>' then ForwardOnly
    else Unknown
  }

  /** The whole equation: exactly one `=`, non-empty text on both sides of it,
      and every term matching the pattern; the arrow character next to the `=`
      is dropped from each side before the terms are split. */
  function ParseEquation(e: string): (r: Result<Parsed, EquationError>)
    ensures Count(e, '=') != 1 ==> r == Failure(NotOneSeparator(Count(e, '=')))
    ensures r.Success? ==> Count(e, '=') == 1
    ensures r.Success? ==> forall k :: 0 <= k < |r.value.left| ==> IsCompoundId(r.value.left[k].compound)
    ensures r.Success? ==> forall k :: 0 <= k < |r.value.right| ==> IsCompoundId(r.value.right[k].compound)
  {
    var parts := Split(e, "=");
    SplitCharPieces(e, '=');
    if |parts| != 2 then Failure(NotOneSeparator(|parts| - 1))
    else
      var eL, eR := parts[0], parts[1];
      if |eL| == 0 || |eR| == 0 then Failure(EmptySide)
      else
        var left :- ParseSide(eL[..|eL| - 1]);
        var right :- ParseSide(eR[1..]);
        ParsedTermsWellFormed(Split(eL[..|eL| - 1], " + "));
        ParsedTermsWellFormed(Split(eR[1..], " + "));
        Success(Parsed(Classify(eL, eR), left, right))
  }

  // ---------------------------------------------------------------------------
  // Writing an equation the way KEGG does, as the partner of the parser.

  function DigitChar(d: nat): (c: char)
    requires d < 10
    ensures IsDigit(c) && c as int - '0' as int == d
  {
    ('0' as int + d) as char
  }

  /** Decimal text of a natural number, without leading zeros. */
  function NatToDecimal(n: nat): (s: string)
    ensures |s| > 0 && AllDigits(s)
    decreases n
  {
    if n < 10 then [DigitChar(n)] else NatToDecimal(n / 10) + [DigitChar(n % 10)]
  }

  lemma {:induction false} DecimalRoundTrip(n: nat)
    ensures DecimalValue(NatToDecimal(n)) == n
    decreases n
  {
    if n >= 10 {
      DecimalRoundTrip(n / 10);
      var s := NatToDecimal(n);
      assert s[..|s| - 1] == NatToDecimal(n / 10);
    }
  }

  /** A term as KEGG writes it: the coefficient is omitted when it is 1. */
  function RenderTerm(t: Term): string {
    if t.stoichiometry == 1 then t.compound
    else NatToDecimal(t.stoichiometry) + " " + t.compound
  }

  function RenderTerms(ts: seq<Term>): (r: seq<string>)
    ensures |r| == |ts|
    ensures forall k :: 0 <= k < |ts| ==> r[k] == RenderTerm(ts[k])
    decreases |ts|
  {
    if |ts| == 0 then [] else [RenderTerm(ts[0])] + RenderTerms(ts[1..])
  }

  function Arrow(d: Direction): string {
    match d
    case Reversible => "<=>"
    case BackwardOnly => "<="
    case ForwardOnly => "=>"
    case Unknown => "="
  }

  function Render(p: Parsed): string {
    Join(RenderTerms(p.left), " + ") + " " + Arrow(p.direction) + " " + Join(RenderTerms(p.right), " + ")
  }

  /** An equation the renderer can write unambiguously: both sides non-empty
      and every compound a well-formed ID. */
  predicate Renderable(p: Parsed) {
    && |p.left| > 0 && |p.right| > 0
    && (forall k :: 0 <= k < |p.left| ==> IsCompoundId(p.left[k].compound))
    && (forall k :: 0 <= k < |p.right| ==> IsCompoundId(p.right[k].compound))
  }

  /** Characters a rendered term is made of. */
  predicate TermChar(c: char) {
    IsDigit(c) || c == ' ' || IsTypeLetter(c)
  }

  lemma RenderTermShape(t: Term)
    requires IsCompoundId(t.compound)
    ensures forall i :: 0 <= i < |RenderTerm(t)| ==> TermChar(RenderTerm(t)[i])
    ensures |RenderTerm(t)| > 0
    ensures !IsSpace(RenderTerm(t)[0]) && !IsSpace(RenderTerm(t)[|RenderTerm(t)| - 1])
  {
    var s := RenderTerm(t);
    var c := t.compound;
    if t.stoichiometry != 1 {
      var ds := NatToDecimal(t.stoichiometry);
      assert s == ds + " " + c;
      forall i | 0 <= i < |s| ensures TermChar(s[i]) {
        if i < |ds| {
          assert s[i] == ds[i];
        } else if i > |ds| {
          assert s[i] == c[i - |ds| - 1];
        }
      }
      assert s[0] == ds[0];
      assert s[|s| - 1] == c[|c| - 1];
    }
  }

  /** The pattern finds a rendered term, coefficient included. */
  lemma SearchRenderedTerm(t: Term)
    requires IsCompoundId(t.compound)
    ensures Search(RenderTerm(t)) == Some(t)
  {
    if t.stoichiometry == 1 {
      SearchBareTerm(t.compound);
    } else {
      SearchScaledTerm(t);
    }
  }

  /** A compound ID alone matches the empty-coefficient alternative at position 0. */
  lemma SearchBareTerm(c: string)
    requires IsCompoundId(c)
    ensures MatchAt(c, 0) == Some(Term(c, 1))
    ensures Search(c) == Some(Term(c, 1))
  {
    assert DigitRun(c, 0) == 0;
    DigitRunExact(c, 1, |c| - 1);
    assert c[0..|c|] == c;
    assert CompoundAt(c, 0) == Some(c);
  }

  /** `n C…` matches the coefficient alternative at position 0. */
  lemma SearchScaledTerm(t: Term)
    requires IsCompoundId(t.compound) && t.stoichiometry != 1
    ensures MatchAt(RenderTerm(t), 0) == Some(t)
    ensures Search(RenderTerm(t)) == Some(t)
  {
    var c := t.compound;
    var ds := NatToDecimal(t.stoichiometry);
    var s := ds + " " + c;
    assert RenderTerm(t) == s;
    var q := |ds| + 1;
    forall i | 0 <= i < |ds| ensures IsDigit(s[i]) {
      assert s[i] == ds[i];
    }
    assert s[|ds|] == ' ';
    DigitRunExact(s, 0, |ds|);
    assert s[q] == c[0];
    assert SpaceRun(s, |ds|) == 1;
    forall i | q + 1 <= i < q + |c| ensures IsDigit(s[i]) {
      assert s[i] == c[i - q];
    }
    DigitRunExact(s, q + 1, |c| - 1);
    assert s[q..q + |c|] == c;
    assert CompoundAt(s, q) == Some(c);
    assert s[0..|ds|] == ds;
    DecimalRoundTrip(t.stoichiometry);
  }

  /** The greedy digit run is the one that stops at the first non-digit. */
  lemma {:induction false} DigitRunExact(s: string, p: nat, k: nat)
    requires p + k <= |s|
    requires forall i :: p <= i < p + k ==> IsDigit(s[i])
    requires p + k == |s| || !IsDigit(s[p + k])
    ensures DigitRun(s, p) == k
    decreases k
  {
    if k > 0 {
      DigitRunExact(s, p + 1, k - 1);
    }
  }

  /** A space-only text. */
  predicate Blanks(s: string) {
    forall i :: 0 <= i < |s| ==> s[i] == ' '
  }

  /** A rendered term with blanks around it is a clean ` + ` piece and parses
      back to the term. */
  lemma PieceParses(a: string, t: Term, b: string)
    requires IsCompoundId(t.compound)
    requires Blanks(a) && Blanks(b)
    ensures CleanPiece(a + RenderTerm(t) + b, " + ")
    ensures ParseTerm(a + RenderTerm(t) + b) == Success(t)
  {
    var s := RenderTerm(t);
    var piece := a + s + b;
    RenderTermShape(t);
    forall i | 0 <= i < |piece| ensures piece[i] != '+' {
      if i < |a| {
        assert piece[i] == a[i];
      } else if i < |a| + |s| {
        assert piece[i] == s[i - |a|];
        assert TermChar(s[i - |a|]);
      } else {
        assert piece[i] == b[i - |a| - |s|];
      }
    }
    CleanWithoutMiddle(piece, '+');
    StripPadded(a, s, b, IsSpace);
    SearchRenderedTerm(t);
  }

  /** `pre` glued to the first piece and `post` to the last. */
  function Padded(rs: seq<string>, pre: string, post: string): (r: seq<string>)
    requires |rs| > 0
    ensures |r| == |rs|
    ensures forall k :: 0 <= k < |rs| ==>
      r[k] == (if k == 0 then pre else "") + rs[k] + (if k == |rs| - 1 then post else "")
  {
    var front := [pre + rs[0]] + rs[1..];
    front[..|front| - 1] + [front[|front| - 1] + post]
  }

  /** Gluing text to the last piece glues it to the end of the join. */
  lemma {:induction false} JoinGlueLast(ps: seq<string>, post: string, sep: string)
    requires |ps| > 0
    ensures Join(ps[..|ps| - 1] + [ps[|ps| - 1] + post], sep) == Join(ps, sep) + post
    decreases |ps|
  {
    if |ps| > 1 {
      var tail := ps[1..];
      JoinGlueLast(tail, post, sep);
      var glued := tail[..|tail| - 1] + [tail[|tail| - 1] + post];
      assert ps[..|ps| - 1] + [ps[|ps| - 1] + post] == [ps[0]] + glued;
      JoinCons(ps[0], glued, sep);
      assert ps == [ps[0]] + tail;
      JoinCons(ps[0], tail, sep);
    } else {
      assert ps[..|ps| - 1] + [ps[|ps| - 1] + post] == [ps[0] + post];
    }
  }

  /** Gluing text to the first piece glues it to the start of the join. */
  lemma JoinGlueFirst(rs: seq<string>, pre: string, sep: string)
    requires |rs| > 0
    ensures Join([pre + rs[0]] + rs[1..], sep) == pre + Join(rs, sep)
  {
    if |rs| > 1 {
      JoinCons(pre + rs[0], rs[1..], sep);
      assert rs == [rs[0]] + rs[1..];
      JoinCons(rs[0], rs[1..], sep);
    }
  }

  lemma JoinPadded(rs: seq<string>, pre: string, post: string)
    requires |rs| > 0
    ensures Join(Padded(rs, pre, post), " + ") == pre + Join(rs, " + ") + post
  {
    var front := [pre + rs[0]] + rs[1..];
    assert Padded(rs, pre, post) == front[..|front| - 1] + [front[|front| - 1] + post];
    JoinGlueFirst(rs, pre, " + ");
    JoinGlueLast(front, post, " + ");
  }

  /** Parsing pieces that each parse to the matching term gives all the terms. */
  lemma ParseTermsAll(pieces: seq<string>, ts: seq<Term>)
    requires |pieces| == |ts|
    requires forall k :: 0 <= k < |ts| ==> ParseTerm(pieces[k]) == Success(ts[k])
    ensures ParseTerms(pieces) == Success(ts)
  {
    var rs := seq(|pieces|, k requires 0 <= k < |pieces| => ParseTerm(pieces[k]));
    assert forall k :: 0 <= k < |rs| ==> rs[k] == Success(ts[k]);
    assert Collect(rs).value == ts;
  }

  /** Rendered terms joined with ` + `, with blanks around the whole, split and
      parsed back. */
  lemma ParseTermsPadded(ts: seq<Term>, pre: string, post: string)
    requires |ts| > 0
    requires forall k :: 0 <= k < |ts| ==> IsCompoundId(ts[k].compound)
    requires Blanks(pre) && Blanks(post)
    ensures ParseSide(pre + Join(RenderTerms(ts), " + ") + post) == Success(ts)
  {
    var rs := RenderTerms(ts);
    var pieces := Padded(rs, pre, post);
    JoinPadded(rs, pre, post);
    forall k | 0 <= k < |ts| ensures CleanPiece(pieces[k], " + ") && ParseTerm(pieces[k]) == Success(ts[k]) {
      PieceParses(if k == 0 then pre else "", ts[k], if k == |ts| - 1 then post else "");
    }
    SplitJoin(pieces, " + ");
    ParseTermsAll(pieces, ts);
  }

  /** No `=` in a joined side. */
  lemma SideAvoidsEquals(ts: seq<Term>)
    requires forall k :: 0 <= k < |ts| ==> IsCompoundId(ts[k].compound)
    ensures '=' !in Join(RenderTerms(ts), " + ")
  {
    var rs := RenderTerms(ts);
    forall k | 0 <= k < |rs| ensures '=' !in rs[k] {
      TermAvoidsEquals(ts[k]);
    }
    JoinAvoids(rs, " + ", '=');
  }

  /** No `=` in a rendered term. */
  lemma TermAvoidsEquals(t: Term)
    requires IsCompoundId(t.compound)
    ensures '=' !in RenderTerm(t)
  {
    var s := RenderTerm(t);
    RenderTermShape(t);
    forall i | 0 <= i < |s| ensures s[i] != '=' {
      assert TermChar(s[i]);
    }
  }

  /** The arrow character a direction writes before the `=`. */
  function ArrowBefore(d: Direction): string {
    if d == Reversible || d == BackwardOnly then "<" else ""
  }

  /** The arrow character a direction writes after the `=`. */
  function ArrowAfter(d: Direction): string {
    if d == Reversible || d == ForwardOnly then ">" else ""
  }

  /** The rendered text before the `=`. */
  function LeftText(p: Parsed): string {
    Join(RenderTerms(p.left), " + ") + " " + ArrowBefore(p.direction)
  }

  /** The rendered text after the `=`. */
  function RightText(p: Parsed): string {
    ArrowAfter(p.direction) + " " + Join(RenderTerms(p.right), " + ")
  }

  /** A rendered equation has exactly one `=`, between its two sides. */
  lemma SplitRendered(p: Parsed)
    requires Renderable(p)
    ensures Split(Render(p), "=") == [LeftText(p), RightText(p)]
  {
    var eL, eR := LeftText(p), RightText(p);
    assert Arrow(p.direction) == ArrowBefore(p.direction) + "=" + ArrowAfter(p.direction);
    assert Render(p) == eL + "=" + eR;
    SideAvoidsEquals(p.left);
    SideAvoidsEquals(p.right);
    CleanWithoutChar(eL, '=');
    CleanWithoutChar(eR, '=');
    JoinCons(eL, [eR], "=");
    SplitJoin([eL, eR], "=");
  }

  /** The left side, its arrow character dropped, parses to the left terms. */
  lemma LeftParses(p: Parsed)
    requires Renderable(p)
    ensures ParseSide(LeftText(p)[..|LeftText(p)| - 1]) == Success(p.left)
  {
    var jl := Join(RenderTerms(p.left), " + ");
    if ArrowBefore(p.direction) == "<" {
      assert LeftText(p)[..|LeftText(p)| - 1] == "" + jl + " ";
      ParseTermsPadded(p.left, "", " ");
    } else {
      assert LeftText(p)[..|LeftText(p)| - 1] == "" + jl + "";
      ParseTermsPadded(p.left, "", "");
    }
  }

  /** The right side, its arrow character dropped, parses to the right terms. */
  lemma RightParses(p: Parsed)
    requires Renderable(p)
    ensures ParseSide(RightText(p)[1..]) == Success(p.right)
  {
    var jr := Join(RenderTerms(p.right), " + ");
    if ArrowAfter(p.direction) == ">" {
      assert RightText(p)[1..] == " " + jr + "";
      ParseTermsPadded(p.right, " ", "");
    } else {
      assert RightText(p)[1..] == "" + jr + "";
      ParseTermsPadded(p.right, "", "");
    }
  }

  /** Round trip: parsing a rendered equation gives back its direction and its
      terms, coefficients and order included. */
  lemma ParseRender(p: Parsed)
    requires Renderable(p)
    ensures ParseEquation(Render(p)) == Success(p)
  {
    var eL, eR := LeftText(p), RightText(p);
    SplitRendered(p);
    LeftParses(p);
    RightParses(p);
    ClassifyRendered(p);
    ParseEquationOfSides(Render(p), eL, eR, p.left, p.right);
  }

  /** The arrow characters next to the `=` give back the direction. */
  lemma ClassifyRendered(p: Parsed)
    ensures |LeftText(p)| > 0 && |RightText(p)| > 0
    ensures Classify(LeftText(p), RightText(p)) == p.direction
  {
    var eL, eR := LeftText(p), RightText(p);
    var jl, jr := Join(RenderTerms(p.left), " + "), Join(RenderTerms(p.right), " + ");
    assert eL == jl + " " + ArrowBefore(p.direction);
    assert eR == ArrowAfter(p.direction) + " " + jr;
    assert eL[|eL| - 1] == '<' <==> ArrowBefore(p.direction) == "<";
    assert eR[0] == '>' <==> ArrowAfter(p.direction) == ">";
  }

  /** An equation whose one `=` separates two non-empty sides that parse. */
  lemma ParseEquationOfSides(e: string, eL: string, eR: string, left: seq<Term>, right: seq<Term>)
    requires Split(e, "=") == [eL, eR] && |eL| > 0 && |eR| > 0
    requires ParseSide(eL[..|eL| - 1]) == Success(left)
    requires ParseSide(eR[1..]) == Success(right)
    ensures ParseEquation(e) == Success(Parsed(Classify(eL, eR), left, right))
  {
  }

  /** One side parses exactly when every ` + ` piece, stripped, has a match;
      the terms are then those matches in order, and otherwise the error names
      a piece without one. */
  lemma ParseSideSpec(side: string)
    ensures var ps := Split(side, " + ");
      ParseSide(side).Success? <==> forall k :: 0 <= k < |ps| ==> Search(Strip(ps[k], IsSpace)).Some?
    ensures var ps := Split(side, " + ");
      ParseSide(side).Success? ==>
        |ParseSide(side).value| == |ps| &&
        forall k :: 0 <= k < |ps| ==> Search(Strip(ps[k], IsSpace)) == Some(ParseSide(side).value[k])
    ensures var ps := Split(side, " + ");
      ParseSide(side).Failure? ==>
        exists k :: 0 <= k < |ps| && Search(Strip(ps[k], IsSpace)).None? && ParseSide(side).error == NoCompound(ps[k])
  {
    var ps := Split(side, " + ");
    var rs := seq(|ps|, k requires 0 <= k < |ps| => ParseTerm(ps[k]));
    assert ParseSide(side) == Collect(rs);
    forall k | 0 <= k < |ps|
      ensures rs[k].Success? <==> Search(Strip(ps[k], IsSpace)).Some?
      ensures rs[k].Success? ==> Search(Strip(ps[k], IsSpace)) == Some(rs[k].value)
      ensures rs[k].Failure? ==> rs[k].error == NoCompound(ps[k])
    {
      assert rs[k] == ParseTerm(ps[k]);
    }
    if ParseSide(side).Success? {
      var ts := ParseSide(side).value;
      forall k | 0 <= k < |ps| ensures Search(Strip(ps[k], IsSpace)) == Some(ts[k]) {
        assert rs[k] == Success(ts[k]);
      }
    } else {
      var k :| 0 <= k < |rs| && rs[k] == Failure(ParseSide(side).error);
      assert k < |ps| && rs[k].Failure?;
      assert Search(Strip(ps[k], IsSpace)).None? && ParseSide(side).error == NoCompound(ps[k]);
      assert !forall j :: 0 <= j < |ps| ==> Search(Strip(ps[j], IsSpace)).Some?;
      assert !ParseSide(side).Success?;
      assert ps == Split(side, " + ");
    }
  }

  /** Any equation with one `=`: an empty side is an error; otherwise it parses
      exactly when both sides, less the arrow character next to the `=`, parse,
      its direction is read from those two characters, and a failure names a
      term of one side without a match. */
  lemma ParseEquationSides(e: string, eL: string, eR: string)
    requires Split(e, "=") == [eL, eR]
    ensures |eL| == 0 || |eR| == 0 ==> ParseEquation(e) == Failure(EmptySide)
    ensures |eL| > 0 && |eR| > 0 ==>
      (ParseEquation(e).Success? <==> ParseSide(eL[..|eL| - 1]).Success? && ParseSide(eR[1..]).Success?)
    ensures |eL| > 0 && |eR| > 0 && ParseEquation(e).Success? ==>
      ParseEquation(e).value == Parsed(Classify(eL, eR), ParseSide(eL[..|eL| - 1]).value, ParseSide(eR[1..]).value)
    ensures |eL| > 0 && |eR| > 0 && ParseEquation(e).Failure? ==>
      ParseEquation(e).error.NoCompound? &&
      ParseEquation(e).error.term in Split(eL[..|eL| - 1], " + ") + Split(eR[1..], " + ")
  {
    if |eL| == 0 || |eR| == 0 {
      ParseEquationEmptySide(e, eL, eR);
    } else {
      ParseEquationBody(e, eL, eR);
      SideFailureNamesPiece(eL[..|eL| - 1]);
      SideFailureNamesPiece(eR[1..]);
    }
  }

  /** A side that fails names one of its own ` + ` pieces. */
  lemma SideFailureNamesPiece(side: string)
    ensures ParseSide(side).Failure? ==>
      ParseSide(side).error.NoCompound? && ParseSide(side).error.term in Split(side, " + ")
  {
    ParseSideSpec(side);
  }

  /** An empty side, before or after the one `=`, is an error. */
  lemma ParseEquationEmptySide(e: string, eL: string, eR: string)
    requires Split(e, "=") == [eL, eR] && (|eL| == 0 || |eR| == 0)
    ensures ParseEquation(e) == Failure(EmptySide)
  {
    var parts := Split(e, "=");
    assert |parts| == 2 && parts[0] == eL && parts[1] == eR;
  }

  /** What the parser does once the one `=` has split the equation into two
      non-empty sides. */
  lemma ParseEquationBody(e: string, eL: string, eR: string)
    requires Split(e, "=") == [eL, eR] && |eL| > 0 && |eR| > 0
    ensures ParseSide(eL[..|eL| - 1]).Failure? ==> ParseEquation(e) == Failure(ParseSide(eL[..|eL| - 1]).error)
    ensures ParseSide(eL[..|eL| - 1]).Success? && ParseSide(eR[1..]).Failure? ==>
      ParseEquation(e) == Failure(ParseSide(eR[1..]).error)
    ensures ParseSide(eL[..|eL| - 1]).Success? && ParseSide(eR[1..]).Success? ==>
      ParseEquation(e) == Success(Parsed(Classify(eL, eR), ParseSide(eL[..|eL| - 1]).value, ParseSide(eR[1..]).value))
  {
    var l, r := eL[..|eL| - 1], eR[1..];
    var parts := Split(e, "=");
    assert |parts| == 2 && parts[0] == eL && parts[1] == eR;
    if ParseSide(l).Failure? {
      assert ParseEquation(e) == Failure(ParseSide(l).error);
    } else if ParseSide(r).Failure? {
      assert ParseEquation(e) == Failure(ParseSide(r).error);
    }
  }

  /** Two `=`-free texts joined by one `=` split back into those two. */
  lemma SplitAtOneEquals(a: string, b: string)
    requires '=' !in a && '=' !in b
    ensures Split(a + "=" + b, "=") == [a, b]
  {
    CleanWithoutChar(a, '=');
    CleanWithoutChar(b, '=');
    JoinCons(a, [b], "=");
    SplitJoin([a, b], "=");
  }

  /** Nothing before the `=`: the empty left side is an error. */
  lemma ExampleEmptySide()
    ensures ParseEquation("=> C00001") == Failure(EmptySide)
  {
    assert "=> C00001" == "" + "=" + "> C00001";
    SplitAtOneEquals("", "> C00001");
    ParseEquationSides("=> C00001", "", "> C00001");
  }

  /** A product that is not a compound ID: the error names that term. */
  lemma ExampleNoCompound()
    ensures ParseEquation("C00001 <=> X") == Failure(NoCompound(" X"))
  {
    var e, eL, eR := "C00001 <=> X", "C00001 <", "> X";
    assert e == eL + "=" + eR;
    SplitAtOneEquals(eL, eR);
    assert eL[..|eL| - 1] == "C00001 ";
    assert eR[1..] == " X";
    LoneSubstrateParses();
    LoneXFails();
    ParseEquationBody(e, eL, eR);
  }

  /** The left side of the example: one bare compound and a trailing blank. */
  lemma LoneSubstrateParses()
    ensures ParseSide("C00001 ") == Success([Term("C00001", 1)])
  {
    var t := Term("C00001", 1);
    assert RenderTerm(t) == "C00001";
    assert "C00001 " == "" + RenderTerm(t) + " ";
    PieceParses("", t, " ");
    SplitJoin(["C00001 "], " + ");
    ParseTermsAll(["C00001 "], [t]);
  }

  /** The right side of the example: a term with no compound ID in it. */
  lemma LoneXFails()
    ensures ParseSide(" X") == Failure(NoCompound(" X"))
  {
    CleanWithoutMiddle(" X", '+');
    SplitJoin([" X"], " + ");
    assert " X" == " " + "X" + "";
    StripPadded(" ", "X", "", IsSpace);
    assert MatchAt("X", 1).None?;
    assert SearchFrom("X", 1).None?;
    assert MatchAt("X", 0).None?;
    assert Search("X").None?;
    ParseSideSpec(" X");
  }

  /** A reversible reaction with two substrates and one product, all
      coefficients 1. */
  const ReversibleExample := Parsed(Reversible, [Term("C00001", 1), Term("C00002", 1)], [Term("C00003", 1)])

  lemma ExampleReversible()
    ensures ParseEquation("C00001 + C00002 <=> C00003") == Success(ReversibleExample)
  {
    ReversibleExampleRendered();
    ParseRender(ReversibleExample);
  }

  lemma ReversibleExampleRendered()
    ensures Renderable(ReversibleExample)
    ensures Render(ReversibleExample) == "C00001 + C00002 <=> C00003"
  {
    var p := ReversibleExample;
    assert RenderTerms(p.left) == ["C00001", "C00002"];
    assert RenderTerms(p.right) == ["C00003"];
    assert Join(["C00001", "C00002"], " + ") == "C00001 + C00002";
  }

  /** A forward-only reaction whose substrate has coefficient 2. */
  const ForwardExample := Parsed(ForwardOnly, [Term("C00001", 2)], [Term("C00004", 1)])

  lemma ExampleForward()
    ensures ParseEquation("2 C00001 => C00004") == Success(ForwardExample)
  {
    ForwardExampleRendered();
    ParseRender(ForwardExample);
  }

  lemma ForwardExampleRendered()
    ensures Renderable(ForwardExample)
    ensures Render(ForwardExample) == "2 C00001 => C00004"
  {
    var p := ForwardExample;
    assert NatToDecimal(2) == "2";
    assert RenderTerm(p.left[0]) == "2 C00001";
    assert RenderTerms(p.left) == ["2 C00001"];
    assert RenderTerms(p.right) == ["C00004"];
  }
}

=== FILE: flat_record.dfy ===
/** The flat-record parser in the body of `fetch_kegg_api`
    (get_kegg_reaction_metadata.py): a KEGG record is a block of lines whose
    first twelve columns hold a field label, or are blank on continuation lines;
    the parser files every line's value under the label in force. */
module FlatRecord {
  import opened Wrappers
  import opened Text

  /** Field label (`None` for lines before the first label) to the ordered value lines. */
  type Record = map<Option<string>, seq<string>>

  /** Width of the label column. */
  const Margin: nat := 12

  /** `line[:12]`. */
  function Head(line: string): string {
    if |line| < Margin then line else line[..Margin]
  }

  /** `line[12:]`, empty when the line is not longer than the margin. */
  function ValueOf(line: string): string {
    if |line| <= Margin then "" else line[Margin..]
  }

  /** The label a line sets, if its label column is not blank. */
  function LabelOf(line: string): Option<string> {
    var head := Head(line);
    if |RStrip(head, IsBlank)| > 0 then Some(Strip(head, IsBlank)) else None
  }

  /** A line sets a label exactly when its label column holds a non-space
      character; the label is that column stripped, and never empty. */
  lemma LabelOfSpec(line: string)
    ensures LabelOf(line).Some? <==> exists i :: 0 <= i < |Head(line)| && Head(line)[i] != ' '
    ensures LabelOf(line).Some? ==> LabelOf(line).value == Strip(Head(line), IsBlank) && |LabelOf(line).value| > 0
  {
    var head := Head(line);
    RStripSpec(head, IsBlank);
    StripSpec(head, IsBlank);
    if |RStrip(head, IsBlank)| > 0 {
      assert head[|RStrip(head, IsBlank)| - 1] != ' ';
    } else {
      assert forall i :: 0 <= i < |head| ==> head[i] == ' ';
    }
  }

  /** The label in force on each line, starting from `current`: a line with a
      label sets it, any other line keeps the previous one. */
  function CarryLabels(lines: seq<string>, current: Option<string>): (r: seq<Option<string>>)
    ensures |r| == |lines|
    decreases |lines|
  {
    if |lines| == 0 then []
    else
      var l := if LabelOf(lines[0]).Some? then LabelOf(lines[0]) else current;
      [l] + CarryLabels(lines[1..], l)
  }

  /** A line that sets a label has that label in force. */
  lemma {:induction false} CarrySets(lines: seq<string>, current: Option<string>, i: nat)
    requires i < |lines| && LabelOf(lines[i]).Some?
    ensures CarryLabels(lines, current)[i] == LabelOf(lines[i])
    decreases i
  {
    if i > 0 {
      var l := if LabelOf(lines[0]).Some? then LabelOf(lines[0]) else current;
      assert lines[1..][i - 1] == lines[i];
      CarrySets(lines[1..], l, i - 1);
    }
  }

  /** A line that sets no label keeps the label of the line before it, or
      `current` on the first line. */
  lemma {:induction false} CarryKeeps(lines: seq<string>, current: Option<string>, i: nat)
    requires i < |lines| && LabelOf(lines[i]).None?
    ensures CarryLabels(lines, current)[i] == if i == 0 then current else CarryLabels(lines, current)[i - 1]
    decreases i
  {
    if i > 0 {
      var l := if LabelOf(lines[0]).Some? then LabelOf(lines[0]) else current;
      assert lines[1..][i - 1] == lines[i];
      CarryKeeps(lines[1..], l, i - 1);
    }
  }

  /** The value part of every line. */
  function Values(lines: seq<string>): (r: seq<string>)
    ensures |r| == |lines|
    ensures forall i :: 0 <= i < |lines| ==> r[i] == ValueOf(lines[i])
    decreases |lines|
  {
    if |lines| == 0 then []
    else
      var rest := Values(lines[1..]);
      assert forall i :: 0 < i < |lines| ==> lines[i] == lines[1..][i - 1];
      [ValueOf(lines[0])] + rest
  }

  /** The values whose label is `key`, in line order. */
  function Group(labels: seq<Option<string>>, values: seq<string>, key: Option<string>): seq<string>
    requires |labels| == |values|
  {
    if |labels| == 0 then []
    else (if labels[0] == key then [values[0]] else []) + Group(labels[1..], values[1..], key)
  }

  /** `data[key]` of a `defaultdict(list)`. */
  function Lookup(data: Record, key: Option<string>): seq<string> {
    if key in data then data[key] else []
  }

  /** The parsing loop, from the label `current` and the record built so far:
      every line appends its value to the list of the label in force. */
  function ParseFrom(lines: seq<string>, current: Option<string>, acc: Record): Record
    decreases |lines|
  {
    if |lines| == 0 then acc
    else
      var l := if LabelOf(lines[0]).Some? then LabelOf(lines[0]) else current;
      ParseFrom(lines[1..], l, acc[l := Lookup(acc, l) + [ValueOf(lines[0])]])
  }

  lemma GroupCons(l: Option<string>, labels: seq<Option<string>>, v: string, values: seq<string>, k: Option<string>)
    requires |labels| == |values|
    ensures Group([l] + labels, [v] + values, k) == (if l == k then [v] else []) + Group(labels, values, k)
  {
    assert ([l] + labels)[1..] == labels;
    assert ([v] + values)[1..] == values;
  }

  /** The keys after the loop are those already present plus the labels in force. */
  lemma {:induction false} ParseFromKeys(lines: seq<string>, current: Option<string>, acc: Record)
    ensures forall k :: k in ParseFrom(lines, current, acc) <==> k in acc || k in CarryLabels(lines, current)
    decreases |lines|
  {
    if |lines| > 0 {
      var l := if LabelOf(lines[0]).Some? then LabelOf(lines[0]) else current;
      var acc' := acc[l := Lookup(acc, l) + [ValueOf(lines[0])]];
      ParseFromKeys(lines[1..], l, acc');
      assert CarryLabels(lines, current) == [l] + CarryLabels(lines[1..], l);
    }
  }

  /** The loop files every line under the label in force: each key's list
      grows by the values of its lines, in order. */
  lemma {:induction false} ParseFromValue(lines: seq<string>, current: Option<string>, acc: Record, k: Option<string>)
    requires k in ParseFrom(lines, current, acc)
    ensures ParseFrom(lines, current, acc)[k] == Lookup(acc, k) + Group(CarryLabels(lines, current), Values(lines), k)
    decreases |lines|
  {
    if |lines| > 0 {
      var l := if LabelOf(lines[0]).Some? then LabelOf(lines[0]) else current;
      var v := ValueOf(lines[0]);
      var acc' := acc[l := Lookup(acc, l) + [v]];
      assert ParseFrom(lines, current, acc) == ParseFrom(lines[1..], l, acc');
      ParseFromValue(lines[1..], l, acc', k);
      var labels := CarryLabels(lines[1..], l);
      var values := Values(lines[1..]);
      assert CarryLabels(lines, current) == [l] + labels;
      assert Values(lines) == [v] + values;
      GroupCons(l, labels, v, values, k);
      AppendValue(acc, l, v, k, Group(labels, values, k));
    }
  }

  /** Appending `v` under `l` and then the later values `g` of `k`. */
  lemma AppendValue(acc: Record, l: Option<string>, v: string, k: Option<string>, g: seq<string>)
    ensures Lookup(acc[l := Lookup(acc, l) + [v]], k) + g == Lookup(acc, k) + ((if l == k then [v] else []) + g)
  {
    if l == k {
      assert Lookup(acc, k) + [v] + g == Lookup(acc, k) + ([v] + g);
    }
  }

  /** A label in force on some line has at least that line's value. */
  lemma {:induction false} GroupNonEmpty(labels: seq<Option<string>>, values: seq<string>, key: Option<string>)
    requires |labels| == |values| && key in labels
    ensures |Group(labels, values, key)| > 0
    decreases |labels|
  {
    if labels[0] != key {
      assert key in labels[1..];
      GroupNonEmpty(labels[1..], values[1..], key);
    }
  }

  /** The lines of a record in a list, as `text.split("\n")`. */
  function Lines(text: string): seq<string> {
    Split(text, "\n")
  }

  /** `fetch_kegg_api` after the HTTP call: every label in force on some line
      becomes a key, and no key is left with an empty list. */
  function ParseRecord(text: string): (r: Record)
    ensures forall k :: k in r ==> |r[k]| > 0
  {
    var r := ParseFrom(Lines(text), None, map[]);
    ParseFromKeys(Lines(text), None, map[]);
    forall k | k in r ensures |r[k]| > 0 {
      ParseFromValue(Lines(text), None, map[], k);
      GroupNonEmpty(CarryLabels(Lines(text), None), Values(Lines(text)), k);
    }
    r
  }

  /** The keys of a parsed record are exactly the labels in force on some
      line, and each key holds the values of its lines in order. */
  lemma ParseRecordSpec(text: string)
    ensures forall k :: k in ParseRecord(text) <==> k in CarryLabels(Lines(text), None)
    ensures forall k :: k in ParseRecord(text) ==>
      ParseRecord(text)[k] == Group(CarryLabels(Lines(text), None), Values(Lines(text)), k)
  {
    var lines := Lines(text);
    assert ParseRecord(text) == ParseFrom(lines, None, map[]);
    ParseFromKeys(lines, None, map[]);
    forall k | k in ParseFrom(lines, None, map[])
      ensures ParseFrom(lines, None, map[])[k] == Group(CarryLabels(lines, None), Values(lines), k)
    {
      ParseFromValue(lines, None, map[], k);
    }
  }

  /** A field's lines, empty when the field is absent (`data.get(name, [])`). */
  function Field(rec: Record, name: string): seq<string> {
    Lookup(rec, Some(name))
  }

  /** `data.get(name, [""])[0]`. */
  function FirstOr(rec: Record, name: string): string {
    var f := Field(rec, name);
    if |f| > 0 then f[0] else ""
  }

  /** Sum of the list lengths over a set of keys. */
  ghost function SumSizes(data: Record, keys: set<Option<string>>): nat
    requires keys <= data.Keys
  {
    if keys == {} then 0
    else
      var k :| k in keys;
      |data[k]| + SumSizes(data, keys - {k})
  }

  /** Total number of values stored in a record. */
  ghost function TotalValues(data: Record): nat {
    SumSizes(data, data.Keys)
  }

  lemma {:induction false} SumSizesRemove(data: Record, keys: set<Option<string>>, k: Option<string>)
    requires keys <= data.Keys && k in keys
    ensures SumSizes(data, keys) == |data[k]| + SumSizes(data, keys - {k})
    decreases |keys|
  {
    var j :| j in keys && SumSizes(data, keys) == |data[j]| + SumSizes(data, keys - {j});
    if j != k {
      SumSizesRemove(data, keys - {j}, k);
      SumSizesRemove(data, keys - {k}, j);
      assert keys - {j} - {k} == keys - {k} - {j};
    }
  }

  lemma {:induction false} SumSizesSame(a: Record, b: Record, keys: set<Option<string>>)
    requires keys <= a.Keys && keys <= b.Keys
    requires forall k :: k in keys ==> |a[k]| == |b[k]|
    ensures SumSizes(a, keys) == SumSizes(b, keys)
    decreases |keys|
  {
    if keys != {} {
      var k :| k in keys;
      SumSizesRemove(a, keys, k);
      SumSizesRemove(b, keys, k);
      SumSizesSame(a, b, keys - {k});
    }
  }

  /** Appending one value to one label's list adds one to the total. */
  lemma AppendAddsOne(acc: Record, l: Option<string>, v: string)
    ensures TotalValues(acc[l := Lookup(acc, l) + [v]]) == TotalValues(acc) + 1
  {
    var acc' := acc[l := Lookup(acc, l) + [v]];
    var rest := acc.Keys - {l};
    assert acc'.Keys - {l} == rest;
    SumSizesRemove(acc', acc'.Keys, l);
    SumSizesSame(acc, acc', rest);
    if l in acc {
      SumSizesRemove(acc, acc.Keys, l);
    } else {
      assert acc.Keys == rest;
    }
  }

  lemma {:induction false} ParseFromCount(lines: seq<string>, current: Option<string>, acc: Record)
    ensures TotalValues(ParseFrom(lines, current, acc)) == TotalValues(acc) + |lines|
    decreases |lines|
  {
    if |lines| > 0 {
      var l := if LabelOf(lines[0]).Some? then LabelOf(lines[0]) else current;
      var acc' := acc[l := Lookup(acc, l) + [ValueOf(lines[0])]];
      AppendAddsOne(acc, l, ValueOf(lines[0]));
      ParseFromCount(lines[1..], l, acc');
    }
  }

  /** Every line contributes exactly one value: the record holds as many values
      as the text has lines. */
  lemma ParseRecordCount(text: string)
    ensures TotalValues(ParseRecord(text)) == |Lines(text)|
  {
    ParseFromCount(Lines(text), None, map[]);
    assert TotalValues(map[]) == 0;
  }
}

=== FILE: ko_table.dfy ===
/** Reading the eggNOG-mapper annotation table at the start of
    `get_kegg_reaction_metadata` (get_kegg_reaction_metadata.py): skip three
    comment lines, take the next row as the header, and collect, from every row
    at least as wide as the header, the KEGG orthologs of its `KEGG_KOs` column,
    both overall and per query. */
module KoTable {
  import opened Wrappers
  import opened Text

  /** Lines the reader skips before the header. */
  const SkipLines: nat := 3

  const KoColumn: string := "KEGG_KOs"
  const QueryColumn: string := "#query_name"

  type Row = seq<string>

  datatype TsvError =
    | NoHeader                   // `next(f)` on a file with nothing after the skipped lines
    | MissingColumn(name: string) // an `assert "<name>" in entry` fails

  /** The KEGG IDs of the table, and the IDs each query is annotated with. A
      query whose rows name no ID still gets an (empty) entry, as a
      `defaultdict(set)` does on access. */
  datatype KoTable = KoTable(kos: set<string>, queries: map<string, set<string>>)

  function IsNewline(c: char): bool {
    c == '\n'
  }

  /** `line.rstrip("\n").split("\t")`. */
  function Fields(line: string): Row {
    Split(RStrip(line, IsNewline), "\t")
  }

  /** `open_tsv(fp, skip)`: the rows after the first `skip` lines. */
  function OpenTsv(lines: seq<string>, skip: nat): (rows: seq<Row>)
    ensures |rows| == if |lines| <= skip then 0 else |lines| - skip
    ensures forall i :: 0 <= i < |rows| ==> rows[i] == Fields(lines[skip + i])
  {
    if |lines| <= skip then []
    else seq(|lines| - skip, i requires 0 <= i < |lines| - skip => Fields(lines[skip + i]))
  }

  /** No later column of the header has the same name as column `j`. */
  predicate LastNamed(header: Row, j: nat) {
    forall j' :: j < j' < |header| ==> header[j'] != header[j]
  }

  /** `dict(zip(header, row))` for a row at least as wide as the header: every
      column name maps to the cell of its last column of that name. */
  function Entry(header: Row, row: Row): (e: map<string, string>)
    requires |row| >= |header|
    ensures forall h :: h in e <==> h in header
    ensures forall j :: 0 <= j < |header| && LastNamed(header, j) ==> e[header[j]] == row[j]
    decreases |header|
  {
    if |header| == 0 then map[]
    else
      var n := |header| - 1;
      var e := Entry(header[..n], row);
      assert forall j :: 0 <= j < n ==> header[..n][j] == header[j];
      e[header[n] := row[n]]
  }

  /** `{ko.strip() for ko in kos.split(',') if not ko.strip() == ''}`. */
  function KosOf(cell: string): (r: set<string>)
    ensures forall ko :: ko in r ==> |ko| > 0 && !IsSpace(ko[0]) && !IsSpace(ko[|ko| - 1])
  {
    forall p | p in Split(cell, ",") ensures |Strip(p, IsSpace)| > 0 ==> !IsSpace(Strip(p, IsSpace)[0]) {
      StripSpec(p, IsSpace);
    }
    forall p | p in Split(cell, ",") ensures |Strip(p, IsSpace)| > 0 ==> !IsSpace(Strip(p, IsSpace)[|Strip(p, IsSpace)| - 1]) {
      StripSpec(p, IsSpace);
    }
    set p | p in Split(cell, ",") && Strip(p, IsSpace) != "" :: Strip(p, IsSpace)
  }

  /** Round trip: IDs that are already stripped and comma-free, joined with
      commas, read back as exactly those IDs. */
  lemma KosOfJoin(kos: seq<string>)
    requires |kos| > 0
    requires forall k :: 0 <= k < |kos| ==> |kos[k]| > 0 && ',' !in kos[k]
    requires forall k :: 0 <= k < |kos| ==> !IsSpace(kos[k][0]) && !IsSpace(kos[k][|kos[k]| - 1])
    ensures KosOf(Join(kos, ",")) == set k | 0 <= k < |kos| :: kos[k]
  {
    forall k | 0 <= k < |kos| ensures CleanPiece(kos[k], ",") && Strip(kos[k], IsSpace) == kos[k] {
      CleanKo(kos[k]);
    }
    SplitJoin(kos, ",");
    KosOfPieces(Join(kos, ","), kos);
  }

  /** A stripped, comma-free ID is a piece `split(',')` keeps whole and `strip` leaves alone. */
  lemma CleanKo(ko: string)
    requires |ko| > 0 && ',' !in ko && !IsSpace(ko[0]) && !IsSpace(ko[|ko| - 1])
    ensures CleanPiece(ko, ",") && Strip(ko, IsSpace) == ko
  {
    CleanWithoutChar(ko, ',');
    StripPadded("", ko, "", IsSpace);
    assert "" + ko + "" == ko;
  }

  /** A cell whose pieces are all stripped and non-empty names exactly those pieces. */
  lemma KosOfPieces(cell: string, ps: seq<string>)
    requires Split(cell, ",") == ps
    requires forall k :: 0 <= k < |ps| ==> |ps[k]| > 0 && Strip(ps[k], IsSpace) == ps[k]
    ensures KosOf(cell) == set k | 0 <= k < |ps| :: ps[k]
  {
    var want := set k | 0 <= k < |ps| :: ps[k];
    forall ko | ko in KosOf(cell) ensures ko in want {
      var p :| p in Split(cell, ",") && Strip(p, IsSpace) != "" && Strip(p, IsSpace) == ko;
      var k :| 0 <= k < |ps| && ps[k] == p;
      assert ko == ps[k];
    }
    forall ko | ko in want ensures ko in KosOf(cell) {
      var k :| 0 <= k < |ps| && ps[k] == ko;
      assert ko in Split(cell, ",") && Strip(ko, IsSpace) == ko && ko != "";
    }
  }

  /** A data row the reader uses: one at least as wide as the header. */
  predicate Wide(header: Row, row: Row) {
    |row| >= |header|
  }

  /** The header names both columns the reader asserts. */
  predicate HasColumns(header: Row) {
    KoColumn in header && QueryColumn in header
  }

  function RowKos(header: Row, row: Row): set<string>
    requires Wide(header, row) && HasColumns(header)
  {
    KosOf(Entry(header, row)[KoColumn])
  }

  function RowQuery(header: Row, row: Row): string
    requires Wide(header, row) && HasColumns(header)
  {
    Entry(header, row)[QueryColumn]
  }

  /** What one data row contributes: its query and its KEGG IDs, or nothing
      when the row is narrower than the header. */
  datatype Annotated = Annotated(query: string, kos: set<string>)

  function Annotate(header: Row, row: Row): Option<Annotated>
    requires HasColumns(header)
  {
    if Wide(header, row) then Some(Annotated(RowQuery(header, row), RowKos(header, row))) else None
  }

  /** `query_keggs[q]` of a `defaultdict(set)`. */
  function Lookup(queries: map<string, set<string>>, q: string): set<string> {
    if q in queries then queries[q] else {}
  }

  /** The reading loop over the rows' contributions, in file order. */
  function Tally(items: seq<Option<Annotated>>): KoTable
    decreases |items|
  {
    if |items| == 0 then KoTable({}, map[])
    else
      var t := Tally(items[..|items| - 1]);
      match items[|items| - 1]
      case None => t
      case Some(a) => KoTable(t.kos + a.kos, t.queries[a.query := Lookup(t.queries, a.query) + a.kos])
  }

  /** Some data row is wide enough for the reader to use (and so to assert on). */
  predicate HasWideRow(header: Row, rows: seq<Row>) {
    exists i :: 0 <= i < |rows| && Wide(header, rows[i])
  }

  /** The contributions of the data rows. */
  function AnnotateAll(header: Row, rows: seq<Row>): (r: seq<Option<Annotated>>)
    requires HasColumns(header)
    ensures |r| == |rows|
    ensures forall i :: 0 <= i < |rows| ==> r[i] == Annotate(header, rows[i])
  {
    seq(|rows|, i requires 0 <= i < |rows| => Annotate(header, rows[i]))
  }

  /** The whole reader: the header follows the skipped lines, and a missing
      column is an error as soon as a row reaches the assertions. */
  function ReadKoTable(lines: seq<string>): (r: Result<KoTable, TsvError>)
    ensures |lines| <= SkipLines ==> r == Failure(NoHeader)
    ensures r.Failure? && r.error.MissingColumn? ==>
      r.error.name !in OpenTsv(lines, SkipLines)[0] && HasWideRow(OpenTsv(lines, SkipLines)[0], OpenTsv(lines, SkipLines)[1..])
    ensures |lines| > SkipLines && HasColumns(OpenTsv(lines, SkipLines)[0]) ==> r.Success?
  {
    var rows := OpenTsv(lines, SkipLines);
    if |rows| == 0 then Failure(NoHeader)
    else
      var header, data := rows[0], rows[1..];
      if !HasWideRow(header, data) then Success(KoTable({}, map[]))
      else if KoColumn !in header then Failure(MissingColumn(KoColumn))
      else if QueryColumn !in header then Failure(MissingColumn(QueryColumn))
      else Success(Tally(AnnotateAll(header, data)))
  }

  /** The data row lists `ko` in its KEGG column and is wide enough to be read. */
  predicate RowLists(header: Row, row: Row, ko: string) {
    Wide(header, row) && HasColumns(header) && ko in RowKos(header, row)
  }

  /** The data row is for query `q`, lists `ko`, and is wide enough to be read. */
  predicate RowLinks(header: Row, row: Row, q: string, ko: string) {
    RowLists(header, row, ko) && RowQuery(header, row) == q
  }

  /** What a successful read collects: an ID is in the table exactly when some
      data row after the header lists it. */
  lemma ReadKoTableKos(lines: seq<string>, ko: string)
    requires ReadKoTable(lines).Success?
    ensures |OpenTsv(lines, SkipLines)| > 0
    ensures ko in ReadKoTable(lines).value.kos <==>
      exists i :: 1 <= i < |OpenTsv(lines, SkipLines)| && RowLists(OpenTsv(lines, SkipLines)[0], OpenTsv(lines, SkipLines)[i], ko)
  {
    var rows := OpenTsv(lines, SkipLines);
    var header, data := rows[0], rows[1..];
    ShiftRows(rows);
    if HasWideRow(header, data) {
      TableKos(header, data, ko);
    }
  }

  /** What a successful read maps each query to: query `q` holds an ID exactly
      when one of its own data rows lists it. */
  lemma ReadKoTableQueries(lines: seq<string>, q: string, ko: string)
    requires ReadKoTable(lines).Success?
    ensures |OpenTsv(lines, SkipLines)| > 0
    ensures ko in Lookup(ReadKoTable(lines).value.queries, q) <==>
      exists i :: 1 <= i < |OpenTsv(lines, SkipLines)| && RowLinks(OpenTsv(lines, SkipLines)[0], OpenTsv(lines, SkipLines)[i], q, ko)
  {
    var rows := OpenTsv(lines, SkipLines);
    var header, data := rows[0], rows[1..];
    ShiftRows(rows);
    if HasWideRow(header, data) {
      TableQueryKos(header, data, q, ko);
    }
  }

  /** The data rows are the rows after the header, one place earlier. */
  lemma ShiftRows(rows: seq<Row>)
    requires |rows| > 0
    ensures forall i :: 1 <= i < |rows| ==> rows[i] == rows[1..][i - 1]
  {
  }

  /** The table of the data rows holds an ID exactly when one of them lists it. */
  lemma TableKos(header: Row, data: seq<Row>, ko: string)
    requires HasColumns(header)
    ensures ko in Tally(AnnotateAll(header, data)).kos <==> exists i :: 0 <= i < |data| && RowLists(header, data[i], ko)
  {
    var items := AnnotateAll(header, data);
    TallyKos(items, ko);
    if SomeRowHasKo(items, ko) {
      var i :| 0 <= i < |items| && items[i].Some? && ko in items[i].value.kos;
      assert RowLists(header, data[i], ko);
    }
  }

  /** The table of the data rows maps `q` to an ID exactly when one of `q`'s rows lists it. */
  lemma TableQueryKos(header: Row, data: seq<Row>, q: string, ko: string)
    requires HasColumns(header)
    ensures ko in Lookup(Tally(AnnotateAll(header, data)).queries, q) <==> exists i :: 0 <= i < |data| && RowLinks(header, data[i], q, ko)
  {
    var items := AnnotateAll(header, data);
    TallyQueryKos(items, q, ko);
    if SomeRowLinks(items, q, ko) {
      var i :| 0 <= i < |items| && items[i].Some? && items[i].value.query == q && ko in items[i].value.kos;
      assert RowLinks(header, data[i], q, ko);
    }
  }

  /** Some row contributes `ko`. */
  predicate SomeRowHasKo(items: seq<Option<Annotated>>, ko: string) {
    exists i :: 0 <= i < |items| && items[i].Some? && ko in items[i].value.kos
  }

  /** Some row is for query `q`. */
  predicate SomeRowIsFor(items: seq<Option<Annotated>>, q: string) {
    exists i :: 0 <= i < |items| && items[i].Some? && items[i].value.query == q
  }

  /** Some row is for query `q` and contributes `ko`. */
  predicate SomeRowLinks(items: seq<Option<Annotated>>, q: string, ko: string) {
    exists i :: 0 <= i < |items| && items[i].Some? && items[i].value.query == q && ko in items[i].value.kos
  }

  /** The KEGG IDs collected are those of the wide rows. */
  lemma {:induction false} TallyKos(items: seq<Option<Annotated>>, ko: string)
    ensures ko in Tally(items).kos <==> SomeRowHasKo(items, ko)
    decreases |items|
  {
    if |items| > 0 {
      var init := items[..|items| - 1];
      TallyKos(init, ko);
      assert forall i :: 0 <= i < |init| ==> init[i] == items[i];
    }
  }

  /** The queries with an entry are those named by a wide row. */
  lemma {:induction false} TallyQueries(items: seq<Option<Annotated>>, q: string)
    ensures q in Tally(items).queries <==> SomeRowIsFor(items, q)
    decreases |items|
  {
    if |items| > 0 {
      var init := items[..|items| - 1];
      TallyQueries(init, q);
      assert forall i :: 0 <= i < |init| ==> init[i] == items[i];
    }
  }

  /** A query's IDs are the union of the IDs of its own wide rows. */
  lemma {:induction false} TallyQueryKos(items: seq<Option<Annotated>>, q: string, ko: string)
    ensures ko in Lookup(Tally(items).queries, q) <==> SomeRowLinks(items, q, ko)
    decreases |items|
  {
    if |items| > 0 {
      var init := items[..|items| - 1];
      TallyQueryKos(init, q, ko);
      assert forall i :: 0 <= i < |init| ==> init[i] == items[i];
    }
  }

  /** The overall set is the union of the per-query sets: the orthologs the
      metadata stages fetch are exactly those some query is annotated with. */
  lemma KosAreQueryKos(items: seq<Option<Annotated>>, ko: string)
    ensures ko in Tally(items).kos <==>
      exists q :: q in Tally(items).queries && ko in Tally(items).queries[q]
  {
    var t := Tally(items);
    TallyKos(items, ko);
    if ko in t.kos {
      var i :| 0 <= i < |items| && items[i].Some? && ko in items[i].value.kos;
      var q := items[i].value.query;
      assert SomeRowIsFor(items, q);
      assert SomeRowLinks(items, q, ko);
      TallyQueries(items, q);
      TallyQueryKos(items, q, ko);
    }
    if exists q :: q in t.queries && ko in t.queries[q] {
      var q :| q in t.queries && ko in t.queries[q];
      TallyQueryKos(items, q, ko);
      var i :| 0 <= i < |items| && items[i].Some? && items[i].value.query == q && ko in items[i].value.kos;
      assert SomeRowHasKo(items, ko);
    }
  }

  /** Every ID read is stripped and non-empty. */
  lemma {:induction false} TallyKosClean(header: Row, rows: seq<Row>)
    requires HasColumns(header)
    ensures forall ko :: ko in Tally(AnnotateAll(header, rows)).kos ==>
      |ko| > 0 && !IsSpace(ko[0]) && !IsSpace(ko[|ko| - 1])
  {
    var items := AnnotateAll(header, rows);
    forall ko | ko in Tally(items).kos ensures |ko| > 0 && !IsSpace(ko[0]) && !IsSpace(ko[|ko| - 1]) {
      TallyKos(items, ko);
      var i :| 0 <= i < |items| && items[i].Some? && ko in items[i].value.kos;
      assert items[i] == Annotate(header, rows[i]);
      assert Wide(header, rows[i]);
      KoCellClean(Entry(header, rows[i])[KoColumn], ko);
    }
  }

  lemma KoCellClean(cell: string, ko: string)
    requires ko in KosOf(cell)
    ensures |ko| > 0 && !IsSpace(ko[0]) && !IsSpace(ko[|ko| - 1])
  {
  }

  /** The `query_ortholog` pairs: every query with every one of its IDs,
      written as read (not passed through `sql_safe_string`). */
  function QueryOrthologs(t: KoTable): (r: set<(string, string)>)
    ensures forall q, ko :: (q, ko) in r <==> q in t.queries && ko in t.queries[q]
  {
    set q, ko | q in t.queries && ko in t.queries[q] :: (q, ko)
  }
}

=== FILE: links.dfy ===
/** Link-ID extraction from the fields of fetched records
    (get_kegg_reaction_metadata.py): which reaction IDs an ortholog's DBLINKS
    name, and which pathway, reaction, compound and module IDs the PATHWAY,
    REACTION, COMPOUND and MODULE lines start with. */
module Links {
  import opened Wrappers
  import opened Text

  /** The DBLINKS prefix of the reaction database. */
  const RnPrefix: string := "RN: "

  predicate StartsWithRn(line: string) {
    RnPrefix <= line
  }

  /** No line after index `i` starts with `RN: `. */
  predicate NoRnAfter(dblinks: seq<string>, i: int) {
    forall j :: 0 <= j < |dblinks| && i < j ==> !StartsWithRn(dblinks[j])
  }

  /** The last DBLINKS line that starts with `RN: `: the dict comprehension keeps
      the value of the last such line for its ortholog. */
  function LastRnLine(dblinks: seq<string>): (r: Option<string>)
    ensures r.Some? ==> StartsWithRn(r.value)
    ensures r.Some? ==> exists i :: 0 <= i < |dblinks| && dblinks[i] == r.value && NoRnAfter(dblinks, i)
    ensures r.None? <==> forall i :: 0 <= i < |dblinks| ==> !StartsWithRn(dblinks[i])
    decreases |dblinks|
  {
    if |dblinks| == 0 then None
    else
      var last := dblinks[|dblinks| - 1];
      if StartsWithRn(last) then Some(last)
      else
        var r := LastRnLine(dblinks[..|dblinks| - 1]);
        assert forall j :: 0 <= j < |dblinks| - 1 ==> dblinks[..|dblinks| - 1][j] == dblinks[j];
        assert r.Some? ==> exists i :: 0 <= i < |dblinks| && dblinks[i] == r.value && NoRnAfter(dblinks, i) by {
          if r.Some? {
            var i :| 0 <= i < |dblinks| - 1 && dblinks[..|dblinks| - 1][i] == r.value && NoRnAfter(dblinks[..|dblinks| - 1], i);
            assert NoRnAfter(dblinks, i);
          }
        }
        r
  }

  /** `set(dblink[4:].split(' '))` for the ortholog's last `RN: ` line, or
      `None` when it has none (the ortholog then gets no entry). */
  function RnLinks(dblinks: seq<string>): (r: Option<set<string>>)
    ensures r.None? <==> forall i :: 0 <= i < |dblinks| ==> !StartsWithRn(dblinks[i])
    ensures r.Some? ==> forall id :: id in r.value ==> ' ' !in id
  {
    match LastRnLine(dblinks)
    case None => None
    case Some(line) =>
      var ids := Split(line[|RnPrefix|..], " ");
      SplitPiecesAvoidSeparator(line[|RnPrefix|..], " ");
      assert forall id :: id in ids ==> ' ' !in id by {
        forall id | id in ids ensures ' ' !in id {
          var k :| 0 <= k < |ids| && ids[k] == id;
          PieceAvoidsChar(id, ' ');
        }
      }
      Some(set id | id in ids)
  }

  /** Round trip: an `RN: ` line written as the IDs joined by single spaces
      gives back exactly that set of IDs when no later line starts with `RN: `,
      whatever the earlier lines say: the last such line wins. */
  lemma RnLinksRoundTrip(before: seq<string>, ids: seq<string>, after: seq<string>)
    requires |ids| > 0
    requires forall k :: 0 <= k < |ids| ==> ' ' !in ids[k]
    requires forall i :: 0 <= i < |after| ==> !StartsWithRn(after[i])
    ensures RnLinks(before + [RnPrefix + Join(ids, " ")] + after) == Some(set id | id in ids)
  {
    var line := RnPrefix + Join(ids, " ");
    var front := before + [line];
    assert front[|front| - 1] == line;
    assert LastRnLine(front) == Some(line);
    LastRnLineAfter(front, after);
    assert line[|RnPrefix|..] == Join(ids, " ");
    forall k | 0 <= k < |ids| ensures CleanPiece(ids[k], " ") {
      CleanWithoutChar(ids[k], ' ');
    }
    SplitJoin(ids, " ");
  }

  /** Lines without `RN: ` after the last `RN: ` line do not change it. */
  lemma {:induction false} LastRnLineAfter(front: seq<string>, after: seq<string>)
    requires forall i :: 0 <= i < |after| ==> !StartsWithRn(after[i])
    ensures LastRnLine(front + after) == LastRnLine(front)
    decreases |after|
  {
    if |after| == 0 {
      assert front + after == front;
    } else {
      var init := after[..|after| - 1];
      var s := front + after;
      assert s[..|s| - 1] == front + init;
      assert s[|s| - 1] == after[|after| - 1];
      assert !StartsWithRn(s[|s| - 1]);
      assert LastRnLine(s) == LastRnLine(front + init);
      LastRnLineAfter(front, init);
    }
  }

  /** `p.split(" ", 1)[0]`: a PATHWAY line's pathway ID. */
  function PathwayId(line: string): (r: string)
    ensures ' ' !in r && r <= line
    ensures r == line || line[|r|] == ' '
  {
    Before(line, ' ')
  }

  /** `comp.split(" ")[0].strip()`: the ID a COMPOUND or MODULE line starts with. */
  function LeadingId(line: string): (r: string)
    ensures ' ' !in r
    ensures |r| > 0 ==> !IsSpace(r[0]) && !IsSpace(r[|r| - 1])
  {
    var t := Before(line, ' ');
    StripWithin(t, IsSpace, ' ');
    StripSpec(t, IsSpace);
    Strip(t, IsSpace)
  }

  /** Round trip for COMPOUND and MODULE lines: a stripped ID without spaces,
      then a space and a name, gives back the ID. */
  lemma LeadingIdRoundTrip(id: string, name: string)
    requires ' ' !in id
    requires |id| > 0 ==> !IsSpace(id[0]) && !IsSpace(id[|id| - 1])
    ensures LeadingId(id + " " + name) == id
  {
    BeforeOnFirst(id, name, ' ');
    if |id| > 0 {
      StripPadded("", id, "", IsSpace);
      assert "" + id + "" == id;
    }
  }

  /** `rxn_block.split(' ')[0].split(',')`: the reaction IDs a REACTION line of
      a pathway or module starts with. */
  function ReactionIds(block: string): (r: seq<string>)
    ensures |r| >= 1
    ensures Join(r, ",") == Before(block, ' ')
    ensures forall k :: 0 <= k < |r| ==> ' ' !in r[k] && ',' !in r[k]
  {
    var t := Before(block, ' ');
    var r := Split(t, ",");
    JoinSplit(t, ",");
    SplitPiecesAvoidSeparator(t, ",");
    assert forall k :: 0 <= k < |r| ==> ' ' !in r[k] && ',' !in r[k] by {
      forall k | 0 <= k < |r| ensures ' ' !in r[k] && ',' !in r[k] {
        JoinedPieceWithin(r, ",", k, ' ');
        PieceAvoidsChar(r[k], ',');
      }
    }
    r
  }

  /** A piece in which the one-character separator occurs nowhere does not hold that character. */
  lemma PieceAvoidsChar(p: string, c: char)
    requires forall j :: !OccursAt(p, j, [c])
    ensures c !in p
  {
    forall j | 0 <= j < |p| ensures p[j] != c {
      assert !OccursAt(p, j, [c]);
      assert p[j..j + 1] == [p[j]];
    }
  }

  /** A character absent from the joined text is absent from every piece. */
  lemma {:induction false} JoinedPieceWithin(ps: seq<string>, sep: string, k: nat, c: char)
    requires k < |ps|
    requires c !in Join(ps, sep)
    ensures c !in ps[k]
    decreases |ps|
  {
    if |ps| > 1 {
      assert Join(ps, sep) == ps[0] + sep + Join(ps[1..], sep);
      if k > 0 {
        JoinedPieceWithin(ps[1..], sep, k - 1, c);
      }
    }
  }

  /** Round trip: a REACTION line that starts with comma-joined IDs followed by
      a space gives back exactly those IDs, in order. */
  lemma ReactionIdsRoundTrip(ids: seq<string>, rest: string)
    requires |ids| > 0
    requires forall k :: 0 <= k < |ids| ==> ' ' !in ids[k] && ',' !in ids[k]
    ensures ReactionIds(Join(ids, ",") + " " + rest) == ids
  {
    var t := Join(ids, ",");
    JoinAvoids(ids, ",", ' ');
    BeforeOnFirst(t, rest, ' ');
    forall k | 0 <= k < |ids| ensures CleanPiece(ids[k], ",") {
      CleanWithoutChar(ids[k], ',');
    }
    SplitJoin(ids, ",");
  }

  /** `Before` stops at the first `c`. */
  lemma BeforeOnFirst(t: string, rest: string, c: char)
    requires c !in t
    ensures Before(t + [c] + rest, c) == t
  {
    var s := t + [c] + rest;
    assert s[|t|..|t| + 1] == [c];
    forall j | 0 <= j < |t| ensures !OccursAt(s, j, [c]) {
      assert s[j..j + 1] == [t[j]];
    }
    IndexFromFinds(s, [c], 0, |t|);
    assert s[..|t|] == t;
  }

  /** Round trip for PATHWAY lines: an ID without spaces, then a space and a
      name, gives back the ID. */
  lemma PathwayIdRoundTrip(id: string, name: string)
    requires ' ' !in id
    ensures PathwayId(id + " " + name) == id
  {
    BeforeOnFirst(id, name, ' ');
  }
}

=== FILE: sql_safe.dfy ===
/** `sql_safe_string` (get_kegg_reaction_metadata.py): the ingestion script strips
    seven characters out of every identifier and text field before storing it. */
module SqlSafe {

  /** The characters removed, in the order the source removes them. */
  const Unsafe: seq<char> := ['[', ']', ':', ';', ',', '\'', '"']

  /** Python's `s.replace(c, "")`. */
  function RemoveChar(s: string, c: char): (r: string)
    ensures c !in r
    ensures |r| <= |s|
  {
    if |s| == 0 then "" else (if s[0] == c then "" else [s[0]]) + RemoveChar(s[1..], c)
  }

  /** The loop `for c in cs: s = s.replace(c, "")`. */
  function RemoveEach(s: string, cs: seq<char>): string
    decreases |cs|
  {
    if |cs| == 0 then s else RemoveEach(RemoveChar(s, cs[0]), cs[1..])
  }

  function SqlSafeString(s: string): (r: string)
  {
    RemoveEach(s, Unsafe)
  }

  /** The independent reading of the same operation: keep exactly the
      characters that are not unsafe, in their original order. */
  function KeepSafe(s: string): (r: string)
  {
    if |s| == 0 then "" else (if s[0] in Unsafe then "" else [s[0]]) + KeepSafe(s[1..])
  }

  /** A string that `SqlSafeString` leaves unchanged. */
  predicate IsSqlSafe(s: string) {
    forall i :: 0 <= i < |s| ==> s[i] !in Unsafe
  }

  /** Removing one character and then filtering by a set containing it is
      the same as filtering by the set. */
  lemma {:induction false} RemoveEachIsFilter(s: string, cs: seq<char>)
    ensures RemoveEach(s, cs) == KeepOutside(s, cs)
    decreases |cs|, |s|
  {
    if |cs| == 0 {
      KeepOutsideNothing(s);
    } else {
      RemoveEachIsFilter(RemoveChar(s, cs[0]), cs[1..]);
      RemoveThenKeep(s, cs[0], cs[1..]);
      assert cs == [cs[0]] + cs[1..];
    }
  }

  /** Keep the characters of `s` that are not in `cs`. */
  function KeepOutside(s: string, cs: seq<char>): string
  {
    if |s| == 0 then "" else (if s[0] in cs then "" else [s[0]]) + KeepOutside(s[1..], cs)
  }

  lemma {:induction false} KeepOutsideNothing(s: string)
    ensures KeepOutside(s, []) == s
    decreases |s|
  {
    if |s| > 0 {
      KeepOutsideNothing(s[1..]);
      assert s == [s[0]] + s[1..];
    }
  }

  lemma {:induction false} RemoveThenKeep(s: string, c: char, cs: seq<char>)
    ensures KeepOutside(RemoveChar(s, c), cs) == KeepOutside(s, [c] + cs)
    decreases |s|
  {
    if |s| > 0 {
      RemoveThenKeep(s[1..], c, cs);
      var head := if s[0] == c then "" else [s[0]];
      KeepOutsideAppend(head, RemoveChar(s[1..], c), cs);
    }
  }

  lemma {:induction false} KeepOutsideAppend(a: string, b: string, cs: seq<char>)
    ensures KeepOutside(a + b, cs) == KeepOutside(a, cs) + KeepOutside(b, cs)
    decreases |a|
  {
    if |a| == 0 {
      assert a + b == b;
    } else {
      assert (a + b)[1..] == a[1..] + b;
      KeepOutsideAppend(a[1..], b, cs);
    }
  }

  /** The source's chain of `replace` calls removes exactly the unsafe
      characters and keeps every other character, in order. */
  lemma SqlSafeKeepsTheRest(s: string)
    ensures SqlSafeString(s) == KeepSafe(s)
  {
    RemoveEachIsFilter(s, Unsafe);
    KeepOutsideIsKeepSafe(s);
  }

  lemma {:induction false} KeepOutsideIsKeepSafe(s: string)
    ensures KeepOutside(s, Unsafe) == KeepSafe(s)
    decreases |s|
  {
    if |s| > 0 {
      KeepOutsideIsKeepSafe(s[1..]);
    }
  }

  /** The output contains none of the unsafe characters, and every safe
      character of the input survives in order. */
  lemma {:induction false} KeepSafeSpec(s: string)
    ensures IsSqlSafe(KeepSafe(s))
    ensures IsSqlSafe(s) ==> KeepSafe(s) == s
    decreases |s|
  {
    if |s| > 0 {
      KeepSafeSpec(s[1..]);
      var head := if s[0] in Unsafe then "" else [s[0]];
      assert KeepSafe(s) == head + KeepSafe(s[1..]);
      if IsSqlSafe(s) {
        assert IsSqlSafe(s[1..]) by {
          forall i | 0 <= i < |s[1..]| ensures s[1..][i] !in Unsafe {
            assert s[1..][i] == s[i + 1];
          }
        }
        assert s == [s[0]] + s[1..];
      }
    }
  }

  /** Output of the sanitiser is free of unsafe characters, and the sanitiser
      leaves exactly the safe strings unchanged. */
  lemma SqlSafeStringSpec(s: string)
    ensures IsSqlSafe(SqlSafeString(s))
    ensures SqlSafeString(s) == s <==> IsSqlSafe(s)
  {
    SqlSafeKeepsTheRest(s);
    KeepSafeSpec(s);
  }

  /** Applying the sanitiser twice is the same as applying it once. */
  lemma SqlSafeIdempotent(s: string)
    ensures SqlSafeString(SqlSafeString(s)) == SqlSafeString(s)
  {
    SqlSafeStringSpec(s);
    SqlSafeStringSpec(SqlSafeString(s));
  }

  /** Every output of the sanitiser is safe, whatever the input. */
  lemma SqlSafeOutputs()
    ensures forall s :: IsSqlSafe(SqlSafeString(s))
  {
    forall s {
      SqlSafeStringSpec(s);
    }
  }
}

=== FILE: store.dfy ===
/** The SQLite database of get_kegg_reaction_metadata.py as maps keyed by each
    table's unique key. `INSERT OR REPLACE` on a key replaces the whole row, so
    a batch of inserts is a map update in which the last row for a key wins;
    a link table whose unique key is all of its columns is a set. */
module Store {
  import opened Wrappers
  import opened SqlSafe
  import Equation
  import Text

  /** The `side` column of `reaction_compound`. */
  datatype Side = L | R

  /** A row of `ortholog`, keyed by `ortholog_id`. */
  datatype Ortholog = Ortholog(name: string, definition: string)

  /** A row of `reaction`, keyed by `reaction_id`; `direction` is NULL until
      the equation is parsed. */
  datatype Reaction = Reaction(definition: string, equation: string, enzyme: string, direction: Option<int>)

  /** The non-key columns of `reaction_compound`. The stoichiometry text goes
      into an INT column, so it is stored as the number it spells. */
  datatype Participant = Participant(side: Side, stoichiometry: nat)

  /** A row of `pathway`, keyed by `pathway_id`; `category` is the CLASS field. */
  datatype Pathway = Pathway(name: string, category: string, description: string)

  /** A row of `module`, keyed by `module_id`; `category` is the CLASS field. */
  datatype KeggModule = KeggModule(name: string, category: string)

  /** Two identifiers; which two is stated at each table. */
  type Link = (string, string)

  datatype Db = Db(
    orthologs: map<string, Ortholog>,
    queryOrthologs: set<Link>,                 // (query, ortholog)
    orthologReactions: set<Link>,              // (ortholog, reaction)
    reactions: map<string, Reaction>,
    reactionCompounds: map<Link, Participant>, // keyed by (reaction, compound)
    compounds: map<string, string>,            // compound to formula
    compoundNames: set<Link>,                  // (compound, name)
    pathways: map<string, Pathway>,
    pathwayReactions: set<Link>,               // (pathway, reaction)
    pathwayCompounds: set<Link>,               // (pathway, compound)
    modulePathways: set<Link>,                 // (pathway, module)
    modules: map<string, KeggModule>,
    moduleCompounds: set<Link>,                // (module, compound)
    moduleReactions: set<Link>)                // (module, reaction)

  /** `SELECT DISTINCT` of a link table's first column. */
  function Firsts(links: set<Link>): (r: set<string>)
    ensures forall x :: x in r <==> exists y :: (x, y) in links
  {
    set l | l in links :: l.0
  }

  /** `SELECT DISTINCT` of a link table's second column. */
  function Seconds(links: set<Link>): (r: set<string>)
    ensures forall y :: y in r <==> exists x :: (x, y) in links
  {
    set l | l in links :: l.1
  }

  /** Row `i` is the last row of the batch with key `k`. */
  predicate LastFor<K(==), V>(rows: seq<(K, V)>, k: K, i: int) {
    0 <= i < |rows| && rows[i].0 == k && forall j :: i < j < |rows| ==> rows[j].0 != k
  }

  /** The keys a batch writes. */
  function BatchKeys<K(==,!new), V>(rows: seq<(K, V)>): (r: set<K>)
    ensures forall k :: k in r <==> exists i :: 0 <= i < |rows| && rows[i].0 == k
  {
    set i | 0 <= i < |rows| :: rows[i].0
  }

  /** `executemany("INSERT OR REPLACE ...", rows)`, row by row in order. */
  function Upsert<K, V>(m: map<K, V>, rows: seq<(K, V)>): map<K, V>
    decreases |rows|
  {
    if |rows| == 0 then m else Upsert(m[rows[0].0 := rows[0].1], rows[1..])
  }

  /** One row per key: the keys after a batch are the old keys and the batch's
      keys; a key the batch writes holds the value of its last row, and every
      other key keeps its value. */
  lemma {:induction false} UpsertSpec<K(!new), V>(m: map<K, V>, rows: seq<(K, V)>, k: K)
    ensures k in Upsert(m, rows) <==> k in m || k in BatchKeys(rows)
    ensures forall i :: LastFor(rows, k, i) ==> Upsert(m, rows)[k] == rows[i].1
    ensures k !in BatchKeys(rows) && k in m ==> Upsert(m, rows)[k] == m[k]
    decreases |rows|
  {
    if |rows| > 0 {
      var rest := rows[1..];
      UpsertSpec(m[rows[0].0 := rows[0].1], rest, k);
      assert forall j :: 0 < j < |rows| ==> rows[j] == rest[j - 1];
      forall i | LastFor(rows, k, i) ensures Upsert(m, rows)[k] == rows[i].1 {
        if i > 0 {
          assert LastFor(rest, k, i - 1);
        } else {
          assert k !in BatchKeys(rest);
        }
      }
    }
  }

  /** The keys after a batch. */
  lemma UpsertKeys<K(!new), V>(m: map<K, V>, rows: seq<(K, V)>)
    ensures Upsert(m, rows).Keys == m.Keys + BatchKeys(rows)
  {
    forall k | k in Upsert(m, rows).Keys + m.Keys + BatchKeys(rows)
      ensures k in Upsert(m, rows).Keys <==> k in m.Keys + BatchKeys(rows)
    {
      UpsertSpec(m, rows, k);
    }
  }

  /** The `reaction_compound` rows of one reaction: its left terms tagged `L`,
      then its right terms tagged `R`, under the key (reaction, compound). */
  function ParticipantRows(reaction: string, p: Equation.Parsed): (rows: seq<(Link, Participant)>)
    ensures |rows| == |p.left| + |p.right|
    ensures forall i :: 0 <= i < |p.left| ==>
      rows[i] == ((SqlSafeString(reaction), SqlSafeString(p.left[i].compound)), Participant(L, p.left[i].stoichiometry))
    ensures forall i :: 0 <= i < |p.right| ==>
      rows[|p.left| + i] == ((SqlSafeString(reaction), SqlSafeString(p.right[i].compound)), Participant(R, p.right[i].stoichiometry))
  {
    var id := SqlSafeString(reaction);
    seq(|p.left|, i requires 0 <= i < |p.left| => ((id, SqlSafeString(p.left[i].compound)), Participant(L, p.left[i].stoichiometry)))
    + seq(|p.right|, i requires 0 <= i < |p.right| => ((id, SqlSafeString(p.right[i].compound)), Participant(R, p.right[i].stoichiometry)))
  }

  /** The key of `reaction_compound` has no side, so a compound on both sides
      of an equation keeps only its right-hand row: the `R` rows are written
      after the `L` rows. */
  lemma BothSidesKeepsRight(m: map<Link, Participant>, reaction: string, p: Equation.Parsed, c: string, i: nat)
    requires forall j :: 0 <= j < |p.right| ==> Equation.IsCompoundId(p.right[j].compound)
    requires i < |p.right| && p.right[i].compound == c
    requires forall j :: i < j < |p.right| ==> p.right[j].compound != c
    ensures (SqlSafeString(reaction), c) in Upsert(m, ParticipantRows(reaction, p))
    ensures Upsert(m, ParticipantRows(reaction, p))[(SqlSafeString(reaction), c)] == Participant(R, p.right[i].stoichiometry)
  {
    var rows := ParticipantRows(reaction, p);
    var key := (SqlSafeString(reaction), c);
    CompoundIdIsSafe(c);
    LaterRowsOtherKeys(reaction, p, c, i);
    assert rows[|p.left| + i].0 == key;
    assert LastFor(rows, key, |p.left| + i);
    UpsertSpec(m, rows, key);
  }

  /** No right-hand row after the last one for `c` has the key of `c`. */
  lemma LaterRowsOtherKeys(reaction: string, p: Equation.Parsed, c: string, i: nat)
    requires forall j :: 0 <= j < |p.right| ==> Equation.IsCompoundId(p.right[j].compound)
    requires i < |p.right| && Equation.IsCompoundId(c)
    requires forall j :: i < j < |p.right| ==> p.right[j].compound != c
    ensures forall j :: |p.left| + i < j < |p.left| + |p.right| ==> ParticipantRows(reaction, p)[j].0.1 != c
  {
    var n := |p.left|;
    forall j | n + i < j < n + |p.right| ensures ParticipantRows(reaction, p)[j].0.1 != c {
      var k := j - n;
      var d := p.right[k].compound;
      assert i < k < |p.right|;
      assert Equation.IsCompoundId(d) && d != c;
      RightRowKey(reaction, p, k);
      CompoundIdIsSafe(d);
    }
  }

  /** The compound of the row of right-hand term `k`. */
  lemma RightRowKey(reaction: string, p: Equation.Parsed, k: nat)
    requires k < |p.right|
    ensures ParticipantRows(reaction, p)[|p.left| + k].0.1 == SqlSafeString(p.right[k].compound)
  {
  }

  /** A compound ID has no character `sql_safe_string` removes. */
  lemma CompoundIdIsSafe(c: string)
    requires Equation.IsCompoundId(c)
    ensures IsSqlSafe(c) && SqlSafeString(c) == c
  {
    forall i | 0 <= i < |c| ensures c[i] !in Unsafe {
      if i == 0 {
        assert Equation.IsTypeLetter(c[0]);
      } else {
        assert Text.IsDigit(c[i]);
      }
    }
    SqlSafeStringSpec(c);
  }

  /** `UPDATE reaction SET direction = ? WHERE reaction_id == ?`: only an
      existing row changes, and only its direction. */
  function SetDirection(reactions: map<string, Reaction>, id: string, d: Equation.Direction): (r: map<string, Reaction>)
    ensures r.Keys == reactions.Keys
    ensures id in r ==> r[id] == reactions[id].(direction := Some(d.Code()))
    ensures forall k :: k in r && k != id ==> r[k] == reactions[k]
  {
    if id in reactions then reactions[id := reactions[id].(direction := Some(d.Code()))] else reactions
  }
}

=== FILE: text.dfy ===
/** The few Python `str` operations the ingestion scripts rely on, with Python's
    semantics: `split(sep)` with a non-empty separator, `sep.join(...)`,
    `strip()`/`rstrip(...)`, and whitespace and digit classes. */
module Text {
  import opened Wrappers

  /** Python's `str.isspace`, which is what `strip()` with no argument and the
      regular-expression class `\s` use. */
  predicate IsSpace(c: char) {
    var n := c as int;
    || n == 0x20
    || 0x09 <= n <= 0x0D
    || 0x1C <= n <= 0x1F
    || n == 0x85 || n == 0xA0 || n == 0x1680
    || 0x2000 <= n <= 0x200A
    || n == 0x2028 || n == 0x2029 || n == 0x202F || n == 0x205F || n == 0x3000
  }

  /** The blank of `strip(" ")` and `rstrip(" ")`: the space character only. */
  predicate IsBlank(c: char) {
    c == ' '
  }

  /** ASCII decimal digit. */
  predicate IsDigit(c: char) {
    '0' <= c <= '9'
  }

  /** `s.lstrip(chars)`: drop leading characters satisfying `drop`. */
  function LStrip(s: string, drop: char -> bool): string
    decreases |s|
  {
    if |s| > 0 && drop(s[0]) then LStrip(s[1..], drop) else s
  }

  /** `lstrip` keeps a suffix, drops only characters satisfying `drop`, and
      stops at the first kept one. */
  lemma {:induction false} LStripSpec(s: string, drop: char -> bool)
    ensures |LStrip(s, drop)| <= |s| && LStrip(s, drop) == s[|s| - |LStrip(s, drop)|..]
    ensures forall i :: 0 <= i < |s| - |LStrip(s, drop)| ==> drop(s[i])
    ensures |LStrip(s, drop)| > 0 ==> !drop(LStrip(s, drop)[0])
    decreases |s|
  {
    if |s| > 0 && drop(s[0]) {
      LStripSpec(s[1..], drop);
      assert forall i :: 1 <= i < |s| ==> s[1..][i - 1] == s[i];
    }
  }

  /** `s.rstrip(chars)`: drop trailing characters satisfying `drop`. */
  function RStrip(s: string, drop: char -> bool): string
    decreases |s|
  {
    if |s| > 0 && drop(s[|s| - 1]) then RStrip(s[..|s| - 1], drop) else s
  }

  /** `rstrip` keeps a prefix, drops only characters satisfying `drop`, and
      stops at the last kept one. */
  lemma {:induction false} RStripSpec(s: string, drop: char -> bool)
    ensures |RStrip(s, drop)| <= |s| && RStrip(s, drop) == s[..|RStrip(s, drop)|]
    ensures forall i :: |RStrip(s, drop)| <= i < |s| ==> drop(s[i])
    ensures |RStrip(s, drop)| > 0 ==> !drop(RStrip(s, drop)[|RStrip(s, drop)| - 1])
    decreases |s|
  {
    if |s| > 0 && drop(s[|s| - 1]) {
      RStripSpec(s[..|s| - 1], drop);
      assert forall i :: 0 <= i < |s| - 1 ==> s[..|s| - 1][i] == s[i];
    }
  }

  /** `s.strip(chars)`: drop leading and trailing characters satisfying `drop`. */
  function Strip(s: string, drop: char -> bool): string {
    LStrip(RStrip(s, drop), drop)
  }

  /** A stripped text is no longer than the original and, unless empty, starts
      and ends with kept characters; it is empty only when every character is
      dropped. */
  lemma StripSpec(s: string, drop: char -> bool)
    ensures |Strip(s, drop)| <= |s|
    ensures |Strip(s, drop)| > 0 ==> !drop(Strip(s, drop)[0]) && !drop(Strip(s, drop)[|Strip(s, drop)| - 1])
    ensures |Strip(s, drop)| == 0 ==> forall i :: 0 <= i < |s| ==> drop(s[i])
  {
    var u := RStrip(s, drop);
    RStripSpec(s, drop);
    LStripSpec(u, drop);
    var r := LStrip(u, drop);
    if |r| > 0 {
      assert r[|r| - 1] == u[|u| - 1];
    }
  }

  /** Characters that `strip` removes are never part of a non-empty text
      that starts and ends with a kept character. */
  lemma {:induction false} RStripPadded(s: string, b: string, drop: char -> bool)
    requires |s| > 0 && !drop(s[|s| - 1])
    requires forall i :: 0 <= i < |b| ==> drop(b[i])
    ensures RStrip(s + b, drop) == s
    decreases |b|
  {
    if |b| > 0 {
      assert (s + b)[..|s + b| - 1] == s + b[..|b| - 1];
      RStripPadded(s, b[..|b| - 1], drop);
    } else {
      assert s + b == s;
    }
  }

  lemma {:induction false} LStripPadded(a: string, s: string, drop: char -> bool)
    requires |s| > 0 && !drop(s[0])
    requires forall i :: 0 <= i < |a| ==> drop(a[i])
    ensures LStrip(a + s, drop) == s
    decreases |a|
  {
    if |a| > 0 {
      assert (a + s)[1..] == a[1..] + s;
      LStripPadded(a[1..], s, drop);
    } else {
      assert a + s == s;
    }
  }

  /** Stripping padding off a text whose ends are kept characters gives the text back. */
  lemma StripPadded(a: string, s: string, b: string, drop: char -> bool)
    requires |s| > 0 && !drop(s[0]) && !drop(s[|s| - 1])
    requires forall i :: 0 <= i < |a| ==> drop(a[i])
    requires forall i :: 0 <= i < |b| ==> drop(b[i])
    ensures Strip(a + s + b, drop) == s
  {
    assert a + s + b == (a + s) + b;
    RStripPadded(a + s, b, drop);
    LStripPadded(a, s, drop);
  }

  /** True when `sep` occurs in `s` starting at index `i`. */
  predicate OccursAt(s: string, i: int, sep: string) {
    0 <= i && i + |sep| <= |s| && s[i..i + |sep|] == sep
  }

  /** `s.find(sep, k)`: the first index at or after `k` where `sep` occurs. */
  function IndexFrom(s: string, sep: string, k: nat): (r: Option<nat>)
    ensures r.Some? ==> k <= r.value && OccursAt(s, r.value, sep)
    ensures r.Some? ==> forall j :: k <= j < r.value ==> !OccursAt(s, j, sep)
    ensures r.None? ==> forall j :: k <= j ==> !OccursAt(s, j, sep)
    decreases |s| - k
  {
    if k + |sep| > |s| then None
    else if s[k..k + |sep|] == sep then Some(k)
    else IndexFrom(s, sep, k + 1)
  }

  /** The search finds the first occurrence at or after `k`. */
  lemma {:induction false} IndexFromFinds(s: string, sep: string, k: nat, i: nat)
    requires k <= i && OccursAt(s, i, sep)
    requires forall j :: k <= j < i ==> !OccursAt(s, j, sep)
    ensures IndexFrom(s, sep, k) == Some(i)
    decreases i - k
  {
    if k < i {
      assert !OccursAt(s, k, sep);
      IndexFromFinds(s, sep, k + 1, i);
    }
  }

  /** Stripping never introduces a character. */
  lemma StripWithin(s: string, drop: char -> bool, c: char)
    requires c !in s
    ensures c !in Strip(s, drop)
  {
    var u := RStrip(s, drop);
    var r := LStrip(u, drop);
    RStripSpec(s, drop);
    LStripSpec(u, drop);
    forall j | 0 <= j < |r| ensures r[j] != c {
      assert r[j] == u[|u| - |r| + j];
      assert u[|u| - |r| + j] == s[|u| - |r| + j];
    }
  }

  /** Python's `s.split(sep)` for a non-empty separator: the pieces between the
      non-overlapping occurrences of `sep`, found left to right. */
  function Split(s: string, sep: string): (r: seq<string>)
    requires |sep| > 0
    ensures |r| >= 1
    decreases |s|
  {
    match IndexFrom(s, sep, 0)
    case None => [s]
    case Some(i) => [s[..i]] + Split(s[i + |sep|..], sep)
  }

  /** Python's `sep.join(ps)`. */
  function Join(ps: seq<string>, sep: string): string
  {
    if |ps| == 0 then "" else if |ps| == 1 then ps[0] else ps[0] + sep + Join(ps[1..], sep)
  }

  /** A character in neither the pieces nor the separator is not in their join. */
  lemma {:induction false} JoinAvoids(ps: seq<string>, sep: string, c: char)
    requires c !in sep
    requires forall k :: 0 <= k < |ps| ==> c !in ps[k]
    ensures c !in Join(ps, sep)
    decreases |ps|
  {
    if |ps| > 1 {
      JoinAvoids(ps[1..], sep, c);
    }
  }

  /** The text of `s` before the first `c`, that is `s.split(c)[0]`. */
  function Before(s: string, c: char): (r: string)
    ensures c !in r
    ensures r <= s
    ensures r == s || s[|r|] == c
  {
    var i := IndexFrom(s, [c], 0);
    if i.Some? then
      assert forall j :: 0 <= j < i.value ==> s[j] != c by {
        forall j | 0 <= j < i.value ensures s[j] != c {
          assert !OccursAt(s, j, [c]);
        }
      }
      assert s[i.value..i.value + 1] == [c];
      s[..i.value]
    else
      assert forall j :: 0 <= j < |s| ==> s[j] != c by {
        forall j | 0 <= j < |s| ensures s[j] != c {
          assert !OccursAt(s, j, [c]);
        }
      }
      s
  }

  /** `Before` is the first piece of `split`. */
  lemma BeforeIsFirstPiece(s: string, c: char)
    ensures Before(s, c) == Split(s, [c])[0]
  {
  }

  lemma JoinCons(p: string, ps: seq<string>, sep: string)
    requires |ps| > 0
    ensures Join([p] + ps, sep) == p + sep + Join(ps, sep)
  {
    assert ([p] + ps)[1..] == ps;
  }

  /** Splitting and joining back with the same separator gives the text back. */
  lemma {:induction false} JoinSplit(s: string, sep: string)
    requires |sep| > 0
    ensures Join(Split(s, sep), sep) == s
    decreases |s|
  {
    match IndexFrom(s, sep, 0)
    case None =>
    case Some(i) =>
      var rest := s[i + |sep|..];
      var pieces := Split(rest, sep);
      assert Split(s, sep) == [s[..i]] + pieces;
      JoinSplit(rest, sep);
      JoinCons(s[..i], pieces, sep);
      assert s[i..i + |sep|] == sep;
      assert s == s[..i] + sep + rest;
  }

  /** A prefix that ends before the first occurrence of `sep` holds no occurrence. */
  lemma PrefixAvoids(s: string, sep: string, i: nat, j: int)
    requires |sep| > 0 && i <= |s| && forall m :: 0 <= m < i ==> !OccursAt(s, m, sep)
    ensures !OccursAt(s[..i], j, sep)
  {
    if OccursAt(s[..i], j, sep) {
      assert s[..i][j..j + |sep|] == s[j..j + |sep|];
      assert OccursAt(s, j, sep);
    }
  }

  /** No piece of a split contains the separator. */
  lemma {:induction false} SplitPiecesAvoidSeparator(s: string, sep: string)
    requires |sep| > 0
    ensures forall k, j :: 0 <= k < |Split(s, sep)| ==> !OccursAt(Split(s, sep)[k], j, sep)
    decreases |s|
  {
    match IndexFrom(s, sep, 0)
    case None =>
    case Some(i) =>
      var rest := s[i + |sep|..];
      SplitPiecesAvoidSeparator(rest, sep);
      var tail := Split(rest, sep);
      var r := Split(s, sep);
      assert r == [s[..i]] + tail;
      forall k, j | 0 <= k < |r| ensures !OccursAt(r[k], j, sep) {
        if k == 0 {
          PrefixAvoids(s, sep, i, j);
        } else {
          assert r[k] == tail[k - 1];
        }
      }
  }

  /** A piece is clean for `sep` when, followed by the separator, no occurrence
      of `sep` starts inside it; joining clean pieces puts the first occurrence
      exactly at the join. */
  predicate CleanPiece(p: string, sep: string) {
    forall j :: 0 <= j < |p| ==> !OccursAt(p + sep, j, sep)
  }

  lemma OccursAtPrefix(u: string, v: string, j: int, sep: string)
    requires j + |sep| <= |u|
    ensures OccursAt(u + v, j, sep) == OccursAt(u, j, sep)
  {
    if 0 <= j {
      assert (u + v)[j..j + |sep|] == u[j..j + |sep|];
    }
  }

  /** Joining clean pieces and splitting again recovers the pieces. */
  lemma {:induction false} SplitJoin(ps: seq<string>, sep: string)
    requires |sep| > 0 && |ps| > 0
    requires forall k :: 0 <= k < |ps| ==> CleanPiece(ps[k], sep)
    ensures Split(Join(ps, sep), sep) == ps
    decreases |ps|
  {
    var p := ps[0];
    if |ps| == 1 {
      assert Join(ps, sep) == p;
      forall j | 0 <= j ensures !OccursAt(p, j, sep) {
        if j + |sep| <= |p| {
          OccursAtPrefix(p, sep, j, sep);
        }
      }
      assert IndexFrom(p, sep, 0).None?;
    } else {
      var rest := Join(ps[1..], sep);
      var s := p + sep + rest;
      assert Join(ps, sep) == s;
      assert s == (p + sep) + rest;
      OccursAtPrefix(p + sep, rest, |p|, sep);
      assert (p + sep)[|p|..|p| + |sep|] == sep;
      forall j | 0 <= j < |p| ensures !OccursAt(s, j, sep) {
        OccursAtPrefix(p + sep, rest, j, sep);
      }
      var i := IndexFrom(s, sep, 0);
      assert i == Some(|p|);
      assert s[..|p|] == p;
      assert s[|p| + |sep|..] == rest;
      SplitJoin(ps[1..], sep);
    }
  }

  /** A piece without the separator's only non-blank character is clean for
      separators of the shape `" " + [c] + " "`, such as `" + "`. */
  lemma CleanWithoutMiddle(p: string, c: char)
    requires c != ' ' && c !in p
    ensures CleanPiece(p, [' ', c, ' '])
  {
    var sep := [' ', c, ' '];
    forall j | 0 <= j < |p| ensures !OccursAt(p + sep, j, sep) {
      var u := p + sep;
      if j + 1 < |p| {
        assert u[j + 1] == p[j + 1];
      } else {
        assert u[j + 1] == ' ';
      }
      assert u[j + 1] != c;
      if j + |sep| <= |u| {
        assert u[j..j + |sep|][1] == u[j + 1];
      }
    }
  }

  /** A piece without a one-character separator is clean for it. */
  lemma CleanWithoutChar(p: string, c: char)
    requires c !in p
    ensures CleanPiece(p, [c])
  {
    forall j | 0 <= j < |p| ensures !OccursAt(p + [c], j, [c]) {
      var u := p + [c];
      assert u[j] == p[j];
      assert u[j..j + 1][0] == u[j];
    }
  }

  /** Number of occurrences of `c` in `s`. */
  function Count(s: string, c: char): nat
  {
    if |s| == 0 then 0 else (if s[0] == c then 1 else 0) + Count(s[1..], c)
  }

  lemma {:induction false} CountAppend(a: string, b: string, c: char)
    ensures Count(a + b, c) == Count(a, c) + Count(b, c)
    decreases |a|
  {
    if |a| == 0 {
      assert a + b == b;
    } else {
      assert (a + b)[1..] == a[1..] + b;
      CountAppend(a[1..], b, c);
    }
  }

  lemma {:induction false} CountAbsent(s: string, c: char)
    requires c !in s
    ensures Count(s, c) == 0
    decreases |s|
  {
    if |s| > 0 {
      CountAbsent(s[1..], c);
    }
  }

  /** Splitting on a single character gives one more piece than there are
      occurrences of it: the basis of Python's tuple unpacking `a, b = s.split(c)`. */
  lemma {:induction false} SplitCharPieces(s: string, c: char)
    ensures |Split(s, [c])| == Count(s, c) + 1
    decreases |s|
  {
    match IndexFrom(s, [c], 0)
    case None =>
      forall j | 0 <= j < |s| ensures s[j] != c {
        assert !OccursAt(s, j, [c]);
      }
      CountAbsent(s, c);
    case Some(i) =>
      var rest := s[i + 1..];
      SplitCharPieces(rest, c);
      forall j | 0 <= j < i ensures s[..i][j] != c {
        assert !OccursAt(s, j, [c]);
      }
      CountAbsent(s[..i], c);
      assert s == s[..i] + ([c] + rest);
      CountAppend(s[..i], [c] + rest, c);
      CountAppend([c], rest, c);
  }
}

=== FILE: wrappers.dfy ===
/** Option and Result, the failure-compatible wrappers the rest of the model uses
    for Python's `None` and for the exceptions that end a run. */
module Wrappers {

  datatype Option<+T> = None | Some(value: T) {

    /** The value, or `default` when there is none (Python's `dict.get(k, default)`). */
    function GetOr(default: T): T {
      match this
      case Some(v) => v
      case None => default
    }
  }

  datatype Result<+T, +E> = Success(value: T) | Failure(error: E) {

    predicate IsFailure() {
      Failure?
    }

    function PropagateFailure<U>(): Result<U, E>
      requires Failure?
    {
      Failure(error)
    }

    function Extract(): T
      requires Success?
    {
      value
    }
  }
}
